=== FILE: README.md ===
# beehively, modelled in Dafny

beehively is a small blogging system. An Express/Mongoose backend lets users
sign up and log in, create posts with a status (draft, published or archived)
and comma-separated tags, list posts by status and author, and read a user's
public profile. Two React clients sit on top of it:

- the router client, built on route loaders and actions;
- the original client, built on page components.

Both clients offer:

- a public feed, searched and sorted;
- a post detail page and a public user page;
- signup and login forms;
- a create-post form;
- a profile page where the signed-in author filters, selects, edits,
  deletes and restores their posts.

The model is purely functional.

- **Backend handlers** are functions from a store and a request to the new
  store and the HTTP reply (`Store.Reply`).
- **Client loaders, actions and event handlers** are functions from their
  inputs (URL parameters, form entries, page state) to what they return or
  write. A call to the backend is a function parameter that yields
  `Done(value)` or `Thrown(message)`. A `Served` function wires such a
  parameter to the modelled backend handler, so properties can span client
  and server.
- **Library behaviour the model does not define** is passed in as a
  parameter:
  - bcrypt hashing and comparison;
  - `ObjectId.isValid`, that is, whether the store's id cast fails
    (`validId`); what the cast yields is not modelled, see "## Left out";
  - `toLowerCase`, `toUpperCase` and `localeCompare`.

  Where a property needs it, the parameter is constrained by a `requires`
  that says so.
- **JavaScript `trim` and the regex class `\s`** are modelled exactly. Both
  use the fixed ECMAScript list of white-space and line-terminator
  characters. `split`, `join`, `includes`, `filter`, `Array.from(new Set(...))`
  and the stable `Array.prototype.sort` are modelled exactly too.

Modules follow the program's structure:

| module | file | what it holds |
|---|---|---|
| `Wrappers` | wrappers.dfy | option, form entry and call-outcome types; JavaScript truthiness |
| `Text`, `Seqs`, `Ordering`, `Url` | text.dfy, seqs.dfy, ordering.dfy, url.dfy | the JavaScript string, array, sort and search-parameter operations used |
| `Tags` | tags.dfy | the comma-separated tag normaliser shared by server and clients |
| `Posts` | posts.dfy | the post record the clients receive, statuses, sort orders |
| `Store`, `PostController`, `UserController`, `AuthController` | backend_*.dfy | the backend |
| `ProfileRoute`, `CreatePostRoute`, `HomeRoute`, `ContentRoute`, `UsersRoute`, `SignupRoute`, `LoginRoute` | profile_route.dfy, create_post.dfy, home_route.dfy, content_route.dfy, users_route.dfy, signup_route.dfy, login_route.dfy | the router client |
| `ProfilePage`, `CreatePostPage`, `HomePage`, `UserProfilePage`, `SignupPage` | profile_page.dfy, create_post_page.dfy, home_page.dfy, user_profile_page.dfy, signup_page.dfy | the original client |
| `PostList`, `Display` | post_list.dfy, display.dfy | list logic and display helpers that both clients implement identically |

Source paths below are relative to the repository root.

## Model

| member | source | states |
|---|---|---|
| Store.PublicView | beehively-backend/controllers/authController.js:32-40 | the identity sent back carries exactly the user's id, name and email, never the password hash |
| Store.FindByEmail | beehively-backend/controllers/authController.js:13-16 | `findOne({ email })` returns a stored user with that email, and returns nothing exactly when no stored user has it |
| Store.FindById | beehively-backend/controllers/userController.js:13-17 | `findById` returns a stored user with that id, and returns nothing exactly when no stored user has it |
| Store.Populate | beehively-backend/controllers/postController.js:63-65 | populating keeps every field of the post; the author id becomes that user's id, name and email, or `null` when no such user exists |
| Store.PopulateAll | beehively-backend/controllers/postController.js:63-65 | every listed document is populated, one for one and in place |
| Store.AsSent | beehively-backend/controllers/userController.js:19-26 | a profile post is sent with its selected fields (title, content, status, tags, both timestamps), without `deletedAt`, and with the author populated to that user's id, name and email, or `null` |
| Store.NewestStoredIsComparator | beehively-backend/controllers/userController.js:25 | the `createdAt` descending order is a consistent comparator |
| PostController.RequestedStatus | beehively-backend/controllers/postController.js:5-18 | an absent status defaults to draft; a present one is accepted exactly when it is one of the three names, and then names the stored status |
| PostController.NormalizeTags | beehively-backend/controllers/postController.js:20-25 | absent tags give `[]`; an array is stored as sent; any other value gives exactly the comma normaliser's tags of its text, which are clean (non-empty, trimmed, comma-free) |
| PostController.CreatePost | beehively-backend/controllers/postController.js:3-43 | 401 without a caller, 400 for a missing title or content, 400 for an invalid status, the store unchanged on every failure; success exactly when all checks pass, and then 201 with exactly one post appended, carrying the new id, the title and content as sent, the status, the normalised tags, the caller as author and no deletion mark |
| PostController.WhitespaceTitleAccepted | beehively-backend/controllers/postController.js:11-13 | the presence check is a truthiness test: a title and content of one blank are accepted |
| PostController.Matching | beehively-backend/controllers/postController.js:51-61 | the query keeps exactly the stored posts that satisfy its status and author conditions, each no more often than stored |
| PostController.GetPosts | beehively-backend/controllers/postController.js:45-75 | a non-empty status that is not a status name is answered 400; a malformed author id is answered 500; otherwise 200 with a permutation of the populated matching posts, sorted newest first |
| PostController.ListedIffMatches | beehively-backend/controllers/postController.js:59-65 | a stored post that matches the query is listed by a successful query, and everything listed is some matching stored post, populated |
| PostController.DeletedPostsAreListed | beehively-backend/controllers/postController.js:59-65 | the query has no soft-delete condition: an author's deleted post is still listed |
| PostController.CreatedPostIsListed | beehively-backend/controllers/postController.js:27-65 | a post just created by a caller appears in that caller's listing |
| PostController.ListedPostsHaveRequestedStatus | beehively-backend/controllers/postController.js:51-57 | listing by a status name succeeds and returns only posts of that status |
| UserController.ProfilePosts | beehively-backend/controllers/userController.js:19-23 | the profile query keeps exactly this author's published, not soft-deleted posts |
| UserController.GetPublicProfile | beehively-backend/controllers/userController.js:5-41 | 400 for an invalid id, 404 for an unknown user; success exactly otherwise, with 200, that user's public identity, and a permutation of exactly the published live posts of that author, newest first |
| UserController.ProfileHidesUnpublished | beehively-backend/controllers/userController.js:19-23 | drafts, archived posts and soft-deleted posts never appear on a public profile |
| UserController.ProfileNewestFirst | beehively-backend/controllers/userController.js:25 | creation times never increase along the profile's posts |
| AuthController.Signup | beehively-backend/controllers/authController.js:5-44 | 400 when a field is missing, 409 for a taken email, the users unchanged on failure; otherwise 201, one user appended with the hash of the password, and a token for the new id |
| AuthController.Login | beehively-backend/controllers/authController.js:46-84 | 400 when a field is missing; success exactly when the email is known and the password matches its stored hash; every other failure is the same 401; the token is for the user returned |
| AuthController.SignupKeepsEmailsUnique | beehively-backend/controllers/authController.js:13-24 | signup preserves "no two users share an email" |
| AuthController.SignupThenLogin | beehively-backend/controllers/authController.js:18-64 | whoever signs up can log in with the same email and password, whenever the comparison accepts a password against its own hash |
| AuthController.StoredPasswordIsHashed | beehively-backend/controllers/authController.js:18-24 | the store keeps the hash, not the password, whenever the hash differs from its input |
| Posts.ParseStatus | beehively-frontend-router-v7/app/routes/profile.tsx:61-63 | a text is a status exactly when it is one of the three names, and the status returned has that name |
| Posts.ParseStatusName | beehively-frontend-router-v7/app/routes/profile.tsx:61-63 | every status survives the round trip through its name |
| Posts.CoerceStatus | beehively-frontend-router-v7/app/routes/profile.tsx:167 | a status name is kept; anything else becomes draft, in both clients' forms |
| Posts.Ids | beehively-frontend-router-v7/app/routes/profile.tsx:446-449 | the ids in list order, one per post |
| Posts.IdsMembership | beehively-frontend-router-v7/app/routes/profile.tsx:446-449 | every listed post's id is among the ids |
| Posts.NewestFirstIsComparator | beehively-frontend/src/pages/Home.tsx:48-52 | `b.createdAt - a.createdAt` is a consistent comparator |
| Posts.OldestFirstIsComparator | beehively-frontend/src/pages/Home.tsx:53-57 | `a.createdAt - b.createdAt` is a consistent comparator |
| Posts.NewestSortedMeansDescending | beehively-frontend-router-v7/app/routes/home.tsx:61-65 | sorted by the newest comparator means creation times never increase |
| Ordering.Sort | beehively-frontend-router-v7/app/routes/home.tsx:59-73 | the sorted copy has as many posts as the input |
| Ordering.SortPermutes | beehively-frontend-router-v7/app/routes/home.tsx:59-73 | the sorted copy is a permutation of the input |
| Ordering.SortSorted | beehively-frontend-router-v7/app/routes/home.tsx:59-73 | with a consistent comparator, no post is followed by one it orders before |
| Ordering.SortOfSorted | beehively-frontend-router-v7/app/routes/home.tsx:59-73 | an input already in order comes back unchanged |
| Ordering.SortStable | beehively-frontend-router-v7/app/routes/home.tsx:59-73 | stability: for every key, the elements the comparator calls equal to it come out in the order they went in |
| Text.Trim | beehively-frontend-router-v7/app/routes/create-post.tsx:64-67 | the result has no white space at either end, and is the input with only white space removed before and after it |
| Text.TrimPadded | beehively-frontend-router-v7/app/routes/create-post.tsx:64-67 | a trimmed text with any white space around it trims back to itself |
| Text.TrimIdempotent | beehively-frontend-router-v7/app/routes/profile.tsx:165-166 | trimming twice is trimming once |
| Text.TrimEmptyIff | beehively-frontend-router-v7/app/routes/create-post.tsx:64-75 | the trimmed text is empty exactly when the input is all white space |
| Text.TrimSpacePrefix | beehively-frontend-router-v7/app/routes/login.tsx:23-24 | leading white space does not change the trim |
| Text.Split | beehively-backend/controllers/postController.js:22-23 | `split` on one character yields at least one piece and no piece contains the separator |
| Text.JoinSplit | beehively-backend/controllers/postController.js:22-23 | joining the pieces with the separator gives back the text |
| Text.SplitJoin | beehively-frontend-router-v7/app/routes/profile.tsx:168-173 | splitting a join of separator-free pieces gives back the pieces |
| Text.Includes | beehively-frontend-router-v7/app/routes/home.tsx:57 | `includes` is true exactly when the needle occurs at some offset |
| Text.NatToString | beehively-frontend-router-v7/app/routes/users.tsx:74 | a count renders as decimal digits without a leading zero |
| Text.NatToStringRoundTrip | beehively-frontend-router-v7/app/routes/users.tsx:74 | the rendered digits read back as the count |
| Seqs.Filter | beehively-frontend/src/pages/Profile.tsx:53-58 | `filter` keeps exactly the elements satisfying the predicate, each no more often than before |
| Seqs.FilterConcat | beehively-frontend/src/pages/Profile.tsx:53-58 | filtering commutes with concatenation, so kept elements keep their relative order |
| Seqs.FilterAll | beehively-frontend-router-v7/app/routes/profile.tsx:555 | a filter that keeps every element returns its input |
| Seqs.Dedupe | beehively-frontend-router-v7/app/routes/profile.tsx:172 | `Array.from(new Set(xs))` has no duplicates and the same members as `xs` |
| Seqs.DedupeFirstOccurrenceOrder | beehively-frontend-router-v7/app/routes/profile.tsx:172 | the deduplicated elements come in the order of their first occurrences |
| Seqs.DedupeOfDistinct | beehively-frontend-router-v7/app/routes/profile.tsx:172 | a sequence without duplicates is unchanged |
| Seqs.DedupeIdempotent | beehively-frontend-router-v7/app/routes/profile.tsx:500-501 | deduplicating twice is deduplicating once |
| Seqs.DedupeAppend | beehively-frontend-router-v7/app/routes/create-post.tsx:69-71 | appending to a duplicate-free list and deduplicating adds the element only when it is new |
| Seqs.FirstIndex | beehively-frontend-router-v7/app/routes/login.tsx:28 | the index of the first occurrence: it holds the element and nothing before it does |
| Tags.TrimNonEmpty | beehively-backend/controllers/postController.js:24-25 | the kept pieces are non-empty and trimmed, no more than there were pieces |
| Tags.TrimsOfNonBlank | beehively-backend/controllers/postController.js:24-25 | the kept pieces are exactly the non-blank pieces, in order, each trimmed |
| Tags.SplitTrimFilter | beehively-backend/controllers/postController.js:22-25 | the normaliser yields clean tags: non-empty, trimmed, comma-free |
| Tags.SplitTrimFilterIsTrimmedPieces | beehively-backend/controllers/postController.js:22-25 | the tags are the trims of the non-blank comma-separated pieces, in piece order |
| Tags.NormalisePiece | beehively-backend/controllers/postController.js:22-25 | a comma-free text yields its trim as the single tag, or no tag when it is blank |
| Tags.TrimKeepsAbsent | beehively-backend/controllers/postController.js:24 | trimming never introduces a character |
| Tags.TagCountIsNonBlankPieces | beehively-backend/controllers/postController.js:22-25 | no deduplication: one tag per non-blank comma-separated piece |
| Tags.NormaliseAtComma | beehively-backend/controllers/postController.js:22-25 | normalising a text joined at a comma normalises each side, in order |
| Tags.NormaliseLeadingSpace | beehively-backend/controllers/postController.js:22-25 | a leading blank does not change the tags |
| Tags.NormaliseClean | beehively-backend/controllers/postController.js:22-25 | a clean tag normalises to itself alone |
| Tags.NormaliseJoined | beehively-frontend-router-v7/app/routes/profile.tsx:168-173 | round trip: clean tags joined with ", " normalise back to the same list |
| Tags.NormaliseJoinedTrailing | beehively-frontend-router-v7/app/routes/profile.tsx:501 | round trip with the trailing ", " the tag inputs append |
| Tags.NormaliseBlank | beehively-backend/controllers/postController.js:22-25 | a lone blank yields no tags |
| Tags.PendingText | beehively-frontend-router-v7/app/routes/profile.tsx:501 | the tag input text is empty exactly when there are no tags |
| Tags.NormalisePending | beehively-frontend-router-v7/app/routes/profile.tsx:498-502 | the tag input text always normalises back to the tags it was made from |
| Tags.SplitTrimDedupe | beehively-frontend-router-v7/app/routes/profile.tsx:168-172 | the deduplicating normaliser yields clean, distinct tags: the plain normaliser's tags, each kept once, in the order of their first occurrences |
| Tags.DedupeJoinedIsStable | beehively-frontend-router-v7/app/routes/profile.tsx:168-173 | distinct clean tags joined with ", " read back as themselves |
| Url.Get | beehively-frontend-router-v7/app/routes/home.tsx:82-83 | `searchParams.get` returns a value exactly when the parameter is present, and then its value |
| PostList.FilterByStatus | beehively-frontend-router-v7/app/routes/profile.tsx:299-304 | "all" shows the whole list; otherwise exactly the posts of that status |
| PostList.FilterByStatusConcat | beehively-frontend/src/pages/Profile.tsx:53-58 | the filter keeps the list order |
| PostList.ToggleSelect | beehively-frontend-router-v7/app/routes/profile.tsx:455-459 | a selected id is removed (every copy), another id is appended; afterwards the id is selected exactly when it was not |
| PostList.ToggleTwiceRestores | beehively-frontend-router-v7/app/routes/profile.tsx:455-459 | toggling an unselected id twice restores the selection exactly |
| PostList.ToggleKeepsDistinct | beehively-frontend-router-v7/app/routes/profile.tsx:455-459 | a toggle never duplicates a selected id |
| PostList.AllSelectedMeansEveryVisible | beehively-frontend-router-v7/app/routes/profile.tsx:450-451 | while the selection holds distinct visible ids, the length test means exactly that every visible id is selected |
| PostList.AllSelectedIsOnlyALengthTest | beehively-frontend-router-v7/app/routes/profile.tsx:450-451 | without that invariant the length test passes with a visible id unselected |
| PostList.ToggleSelectAll | beehively-frontend-router-v7/app/routes/profile.tsx:461-467 | clears when all are selected, else selects exactly the visible ids |
| PostList.ToggleSelectAllTwice | beehively-frontend-router-v7/app/routes/profile.tsx:461-467 | select-all pressed twice from a partial selection clears it |
| PostList.RemovePosts | beehively-frontend-router-v7/app/routes/profile.tsx:587 | after a delete, the list holds exactly the posts whose ids were not deleted |
| PostList.RemoveSelected | beehively-frontend-router-v7/app/routes/profile.tsx:588 | after a delete, the selection holds exactly the ids that were not deleted, each as often as before |
| PostList.RemoveSelectedConcat | beehively-frontend-router-v7/app/routes/profile.tsx:588 | the kept ids keep their relative order |
| PostList.RemoveUnknownIsIdentity | beehively-frontend-router-v7/app/routes/profile.tsx:555 | deleting ids no post carries leaves the list unchanged |
| PostList.RemovePostsConcat | beehively-frontend-router-v7/app/routes/profile.tsx:555 | surviving posts keep their relative order |
| PostList.BulkCandidates | beehively-frontend-router-v7/app/routes/profile.tsx:536-544 | the bulk delete targets exactly the visible posts whose ids are selected, each as often as it is shown |
| PostList.BulkCandidatesConcat | beehively-frontend-router-v7/app/routes/profile.tsx:536-544 | the targets come in the order the posts are shown |
| PostList.UndoMessage | beehively-frontend-router-v7/app/routes/profile.tsx:589-595 | one deleted post is named by title; any other count is given in digits |
| PostList.MergeRestored | beehively-frontend-router-v7/app/routes/profile.tsx:613-625 | the current list stays in front; what follows is the restored posts (or the remembered ones when none come back) with the already listed ids deleted, so each such post is appended once and in its order |
| PostList.UndoAfterDelete | beehively-frontend-router-v7/app/routes/profile.tsx:550-625 | delete then undo brings back every deleted post and keeps every post that was not deleted |
| PostList.ReplaceById | beehively-frontend-router-v7/app/routes/profile.tsx:356-359 | every post carrying the id becomes the updated post; every other post stays where it was |
| PostList.ReplaceByIdKeepsIds | beehively-frontend-router-v7/app/routes/profile.tsx:356-359 | an update that keeps the id keeps every id in place, and applying it again changes nothing |
| PostList.FindPost | beehively-frontend/src/pages/Profile.tsx:173-176 | `find` returns a listed post with the id, and returns nothing exactly when no post has it |
| PostList.EditFormFor | beehively-frontend-router-v7/app/routes/profile.tsx:471-485 | the edit form is filled from a post with that id, tags joined with ", "; nothing happens when no post has the id |
| PostList.ProfileCountLabel | beehively-frontend-router-v7/app/routes/profile.tsx:416-427 | the count line for loading, none, one and several posts |
| ProfileRoute.ParseStatusFilter | beehively-frontend-router-v7/app/routes/profile.tsx:52-71 | a status name gives that status filter; anything else gives "all"; a valid filter value is spelled back as read |
| ProfileRoute.ParseFilterName | beehively-frontend-router-v7/app/routes/profile.tsx:52-71 | every filter survives the round trip through its spelling |
| ProfileRoute.LoaderQuery | beehively-frontend-router-v7/app/routes/profile.tsx:83-86 | the query names the author, and names a status exactly when the filter is not "all" |
| ProfileRoute.Loader | beehively-frontend-router-v7/app/routes/profile.tsx:65-104 | no author means no posts, no error and no call; otherwise the answer's posts (or `[]`), or no posts and the error text |
| ProfileRoute.LoaderQueryAccepted | beehively-frontend-router-v7/app/routes/profile.tsx:83-86 | with a well-formed author id, the backend accepts the loader's query and lists only posts of the filter's status |
| ProfileRoute.ApplyStatus | beehively-frontend-router-v7/app/routes/profile.tsx:122-128 | "all" removes the status parameter, a status name sets it, anything else leaves it; no other parameter changes |
| ProfileRoute.SetAuthor | beehively-frontend-router-v7/app/routes/profile.tsx:112-131 | a non-empty text author id is set, anything else removes it; the status is applied as above; no other parameter changes |
| ProfileRoute.SetStatus | beehively-frontend-router-v7/app/routes/profile.tsx:133-143 | redirects exactly for a valid filter value, with the status applied |
| ProfileRoute.SetStatusThenLoad | beehively-frontend-router-v7/app/routes/profile.tsx:133-143 | after choosing a filter, the loader reads back exactly that filter |
| ProfileRoute.NormalisedValues | beehively-frontend-router-v7/app/routes/profile.tsx:160-180 | the echoed form has the trimmed title and content, the coerced status, and as tag text the deduplicated normalised tags joined with ", " |
| ProfileRoute.DecideUpdate | beehively-frontend-router-v7/app/routes/profile.tsx:145-199 | an invalid post id, a blank title or content, and a missing token are each rejected with their message; otherwise the request carries the trimmed fields, the coerced status and the deduplicated normalised tags, in first-occurrence order, and the form kept is the normalised echo |
| ProfileRoute.EchoedTagsAreStable | beehively-frontend-router-v7/app/routes/profile.tsx:168-180 | re-submitting the echoed tag text yields the same tags |
| ProfileRoute.UpdatePostAction | beehively-frontend-router-v7/app/routes/profile.tsx:145-231 | a rejection returns its error and values without a call; a sent update returns the post, or the error text and the normalised values |
| ProfileRoute.ApplyUpdate | beehively-frontend-router-v7/app/routes/profile.tsx:351-383 | a returned post replaces the posts with its id and closes the editor; otherwise the list is kept, a non-empty reply id becomes the edited post, reply values become the form, and a non-empty error is shown, each field kept as it was when the reply lacks it |
| ProfileRoute.TagKeyDown | beehively-frontend-router-v7/app/routes/profile.tsx:487-502 | only Enter and "," act; the input becomes the deduplicated normalised tags joined with ", " plus a trailing ", ", or empty exactly when no tags remain; the form error is cleared |
| ProfileRoute.TagKeyDownIdempotent | beehively-frontend-router-v7/app/routes/profile.tsx:487-502 | pressing the key again changes nothing, and the distinct tags are kept |
| ProfilePage.NextTags | beehively-frontend/src/pages/Profile.tsx:195-203 | popping the last segment and pushing it back trimmed yields clean tags |
| ProfilePage.TagKeyDown | beehively-frontend/src/pages/Profile.tsx:188-216 | only Enter acts; the input becomes empty or ends in ", " |
| ProfilePage.NextTagsNormalises | beehively-frontend/src/pages/Profile.tsx:195-203 | the pop-and-push tags are exactly the shared normaliser's tags |
| ProfilePage.TagKeyDownNormalises | beehively-frontend/src/pages/Profile.tsx:188-216 | the handler writes the tag input text of the normalised tags |
| ProfilePage.TagKeyDownIdempotent | beehively-frontend/src/pages/Profile.tsx:188-216 | pressing Enter again changes nothing |
| ProfilePage.TagKeyDownKeepsDuplicates | beehively-frontend/src/pages/Profile.tsx:195-206 | unlike the router client, a tag typed twice stays twice |
| ProfilePage.DecideUpdate | beehively-frontend/src/pages/Profile.tsx:218-242 | a blank title or content is rejected with its message; otherwise the trimmed fields, the form's status and exactly the normaliser's tags of the tag text are sent for the id |
| ProfilePage.EditThenSaveKeepsTags | beehively-frontend/src/pages/Profile.tsx:172-242 | opening a post with clean tags and saving it unchanged sends back exactly its tags |
| ProfilePage.ApplyUpdated | beehively-frontend/src/pages/Profile.tsx:244-246 | the posts with the edited id are replaced by the answer; the others stay |
| CreatePostRoute.ExistingTags | beehively-frontend-router-v7/app/routes/create-post.tsx:59-62 | the tag entries become non-empty trimmed tags, no more than there were entries |
| CreatePostRoute.TagsForRequest | beehively-frontend-router-v7/app/routes/create-post.tsx:69-71 | no pending tag sends the tags as they are; a pending tag sends the existing tags and the pending one, deduplicated in first-occurrence order: existing distinct tags plus the pending one unless already present |
| CreatePostRoute.ActionErrors | beehively-frontend-router-v7/app/routes/create-post.tsx:73-77 | a title or content error appears exactly when that field is empty; the status error never does |
| CreatePostRoute.Decide | beehively-frontend-router-v7/app/routes/create-post.tsx:46-121 | invalid exactly when the trimmed title or content is empty, returning the errors, the raw title and content, the coerced status and the cleaned existing tags; otherwise the trimmed fields, the coerced status and the merged tags are sent, with the form as typed kept for a failed request |
| CreatePostRoute.Action | beehively-frontend-router-v7/app/routes/create-post.tsx:46-123 | an invalid form stays without a call; a sent form redirects to the profile, or stays with the error text and the form as typed: raw title and content, coerced status, cleaned existing tags, raw tag input |
| CreatePostRoute.ValidatedPayloadIsCreated | beehively-frontend-router-v7/app/routes/create-post.tsx:93-106 | what passes the client's checks passes the backend's: the post is created with the sent tags and status |
| CreatePostRoute.FieldChange | beehively-frontend-router-v7/app/routes/create-post.tsx:149-168 | the field takes the value; a title or content error is set exactly when the trimmed value is empty; the form error is cleared |
| CreatePostRoute.LiveErrorMatchesAction | beehively-frontend-router-v7/app/routes/create-post.tsx:149-168 | a live field error agrees with what the action reports |
| CreatePostRoute.StatusChange | beehively-frontend-router-v7/app/routes/create-post.tsx:170-182 | the status takes the value; its error is "Status is required" exactly for an empty value; the form error is cleared |
| CreatePostRoute.TagAdd | beehively-frontend-router-v7/app/routes/create-post.tsx:184-194 | a blank input changes nothing; otherwise the trimmed input is appended unless present, and the input and the form error are cleared |
| CreatePostRoute.TagAddKeepsShape | beehively-frontend-router-v7/app/routes/create-post.tsx:184-194 | adding keeps the tag list distinct, trimmed and non-empty |
| CreatePostRoute.TagKeyDown | beehively-frontend-router-v7/app/routes/create-post.tsx:196-201 | Enter and "," add the pending tag; other keys change nothing |
| CreatePostRoute.TagRemove | beehively-frontend-router-v7/app/routes/create-post.tsx:203-208 | every copy of the tag goes, the other tags stay as often as before, and nothing else in the form changes |
| CreatePostRoute.TagRemoveConcat | beehively-frontend-router-v7/app/routes/create-post.tsx:203-208 | the remaining tags keep their order |
| CreatePostRoute.AddThenRemove | beehively-frontend-router-v7/app/routes/create-post.tsx:184-208 | adding a new tag and removing it restores the list |
| CreatePostRoute.ExistingTagsOfTrimmed | beehively-frontend-router-v7/app/routes/create-post.tsx:59-62 | the page's tag list passes the action's clean-up unchanged |
| CreatePostRoute.SubmitMergesLikeTagAdd | beehively-frontend-router-v7/app/routes/create-post.tsx:69-71 | submitting with a pending tag sends the list that pressing Enter first would have made |
| CreatePostPage.FormattedTags | beehively-frontend/src/pages/CreatePost.tsx:14-17 | clean tags, one per non-blank piece, duplicates kept |
| CreatePostPage.FormattedTagsInPieceOrder | beehively-frontend/src/pages/CreatePost.tsx:14-17 | the tags come in the order of their pieces |
| HomeRoute.ParseSortOption | beehively-frontend-router-v7/app/routes/home.tsx:82-84 | a sort name selects that option; anything else selects newest |
| HomeRoute.ParseSortName | beehively-frontend-router-v7/app/routes/home.tsx:46-48 | every option survives the round trip through its name |
| HomeRoute.TitleOrderIsComparator | beehively-frontend-router-v7/app/routes/home.tsx:72 | a consistent string collation gives a consistent post order |
| HomeRoute.Searched | beehively-frontend-router-v7/app/routes/home.tsx:55-58 | an empty term keeps every post; otherwise exactly the posts whose lower-cased title contains the term, each as often as it occurs |
| HomeRoute.FilterAndSort | beehively-frontend-router-v7/app/routes/home.tsx:50-76 | a permutation of the searched posts: exactly the posts the search finds |
| HomeRoute.FilterAndSortOrdered | beehively-frontend-router-v7/app/routes/home.tsx:59-75 | the feed is newest first, oldest first, or in title collation order, as chosen |
| HomeRoute.BlankSearchKeepsAll | beehively-frontend-router-v7/app/routes/home.tsx:55-58 | a blank search shows every post |
| HomeRoute.Loader | beehively-frontend-router-v7/app/routes/home.tsx:78-105 | the sort and search come from the URL; the published posts are searched and sorted, or no posts and the error text |
| HomeRoute.FeedShowsOnlyPublished | beehively-frontend-router-v7/app/routes/home.tsx:87 | served by the backend, the feed loads and shows only published posts |
| HomeRoute.SetOrDelete | beehively-frontend-router-v7/app/routes/home.tsx:119-123 | a non-empty value is set, an empty one removes the parameter; no other parameter changes |
| HomeRoute.SortParam | beehively-frontend-router-v7/app/routes/home.tsx:125-129 | the default sort is written as no parameter |
| HomeRoute.Action | beehively-frontend-router-v7/app/routes/home.tsx:107-132 | the trimmed search is kept exactly when non-empty; the sort is kept exactly when not the default; nothing else changes |
| HomeRoute.ActionThenLoad | beehively-frontend-router-v7/app/routes/home.tsx:107-132 | the loader reads back the submitted option and the trimmed search |
| HomeRoute.SetOrDeleteKept | beehively-frontend-router-v7/app/routes/home.tsx:119-129 | writing what a parameter already says changes nothing |
| HomeRoute.ActionIdempotent | beehively-frontend-router-v7/app/routes/home.tsx:107-132 | re-submitting the values the page shows leaves the URL as it is |
| HomePage.FetchPosts | beehively-frontend/src/pages/Home.tsx:30-43 | the published posts replace the list, or the list is kept with the error text; loading ends |
| HomePage.FetchedFeedIsPublished | beehively-frontend/src/pages/Home.tsx:34 | served by the backend, the fetched feed holds only published posts |
| HomePage.SortedPosts | beehively-frontend/src/pages/Home.tsx:45-63 | the sorted view is a permutation of the list |
| HomePage.SortedPostsIsUnsearchedFeed | beehively-frontend/src/pages/Home.tsx:45-63 | the original page's view equals the router client's feed with an empty search |
| Display.AuthorName | beehively-frontend-router-v7/app/routes/home.tsx:26-36 | a non-empty name: a bare id as it is, an object's name when it has one, otherwise "Unknown author" |
| Display.DetailAuthorName | beehively-frontend-router-v7/app/routes/content.tsx:11-21 | as above, with the email before the fallback "Unknown Author" |
| Display.AuthorNamesCompared | beehively-frontend-router-v7/app/routes/content.tsx:11-21 | the two helpers differ only in the fallback's spelling and on an author with an email but no name |
| Display.AuthorId | beehively-frontend-router-v7/app/routes/home.tsx:38-44 | only a populated author has an id |
| Display.Words | beehively-frontend-router-v7/app/routes/users.tsx:16-18 | the words are non-empty and blank-free |
| Display.Initials | beehively-frontend-router-v7/app/routes/users.tsx:15-22 | at most two characters, a prefix of the first letters, and exactly two when there are two |
| Display.InitialsOfWords | beehively-frontend-router-v7/app/routes/content.tsx:31-38 | the initials are the upper-cased first characters of the first two words |
| Display.InitialsEmpty | beehively-frontend/src/pages/UserProfile.tsx:120-125 | a name without words has no initials, and when upper-casing never yields "" that is the only way |
| Display.AvatarText | beehively-frontend-router-v7/app/routes/users.tsx:139 | the initials, or "U" when there are none |
| Display.PublishedCountLabel | beehively-frontend-router-v7/app/routes/users.tsx:68-75 | the count line for none, one and several posts |
| Display.PublishedCountLabelInjective | beehively-frontend-router-v7/app/routes/users.tsx:68-75 | different counts never share a line |
| Display.LabelShape | beehively-frontend-router-v7/app/routes/users.tsx:68-75 | where the line shows its count: the digits before a fixed suffix |
| Display.UserProfileCountLabel | beehively-frontend/src/pages/UserProfile.tsx:45-56 | a loading line first, then the published count line |
| ContentRoute.Loader | beehively-frontend-router-v7/app/routes/content.tsx:48-75 | no id gives "Invalid post id"; otherwise the post, or no post and the error text |
| ContentRoute.MissingIdMakesNoCall | beehively-frontend-router-v7/app/routes/content.tsx:53-58 | without an id the loader does not depend on the service |
| UsersRoute.Loader | beehively-frontend-router-v7/app/routes/users.tsx:28-59 | no id gives "Invalid user id"; otherwise the user and the posts (or `[]`), or nothing and the error text |
| UsersRoute.MissingIdMakesNoCall | beehively-frontend-router-v7/app/routes/users.tsx:33-39 | without an id the loader does not depend on the service |
| UsersRoute.SentPosts | beehively-backend/controllers/userController.js:24-36 | the profile posts as the reply sends them, one for one and in place, each with its author populated |
| UsersRoute.PageShowsOnlyPublishedPostsOfUser | beehively-frontend-router-v7/app/routes/users.tsx:41-47 | served by the backend, the page shows the requested user and only that user's published, live posts, each naming that user's id, name and email as its author |
| UsersRoute.PageListsEveryPublishedPost | beehively-frontend-router-v7/app/routes/users.tsx:41-47 | served by the backend for a known user, every published, live post of that user is on the page |
| UserProfilePage.LoadProfile | beehively-frontend/src/pages/UserProfile.tsx:15-39 | a missing id sets the error without a call; otherwise the answer replaces user and posts, or both are cleared with the error text; loading ends |
| UserProfilePage.LoadProfileMatchesLoader | beehively-frontend/src/pages/UserProfile.tsx:15-39 | from its initial state the original page shows exactly what the router client's loader returns |
| SignupRoute.WithValue | beehively-frontend-router-v7/app/routes/signup.tsx:63 | the edited field takes the value; the others keep theirs |
| SignupRoute.WithError | beehively-frontend-router-v7/app/routes/signup.tsx:66-67 | the edited field's error is set; the others keep theirs |
| SignupRoute.ValidateField | beehively-frontend-router-v7/app/routes/signup.tsx:31-39 | an error exactly for an empty value, blanks included as non-empty |
| SignupRoute.RequiredMessages | beehively-frontend-router-v7/app/routes/signup.tsx:31-39 | the four messages, including the capitalised key |
| SignupRoute.PasswordsMatch | beehively-frontend-router-v7/app/routes/signup.tsx:41-46 | a mismatch error exactly when both are non-empty and differ |
| SignupRoute.SubmitErrors | beehively-frontend-router-v7/app/routes/signup.tsx:97-112 | each field validated, and a mismatch overriding both password errors |
| SignupRoute.Decide | beehively-frontend-router-v7/app/routes/signup.tsx:94-129 | sends exactly when all four fields are non-empty and the passwords match, and then sends the values as typed |
| SignupRoute.SentSignupIsComplete | beehively-frontend-router-v7/app/routes/signup.tsx:125-129 | whatever the form sends passes the backend's presence check |
| SignupRoute.LiveEdit | beehively-frontend-router-v7/app/routes/signup.tsx:58-92 | a name or email edit sets only its own error; a password or confirm edit recomputes both password errors |
| SignupRoute.LiveEditAgreesWithSubmit | beehively-frontend-router-v7/app/routes/signup.tsx:58-112 | after a live edit, the edited field shows the error a submit would show |
| SignupPage.ValidateField | beehively-frontend/src/pages/Signup.tsx:7-34 | one message per known input name for an empty value; anything else passes |
| SignupPage.ValidateFieldMatchesRoute | beehively-frontend/src/pages/Signup.tsx:7-34 | the two clients' field validators agree on every field |
| SignupPage.SubmitErrors | beehively-frontend/src/pages/Signup.tsx:73-82 | each field validated on its own |
| SignupPage.SubmitAsWritten | beehively-frontend/src/pages/Signup.tsx:63-86 | the submit writes fresh errors but sends exactly when the errors on screen before the submit were empty |
| SignupPage.StaleGateSendsEmptyForm | beehively-frontend/src/pages/Signup.tsx:84-86 | on a fresh page the empty form is sent although every field is reported missing |
| SignupPage.StaleGateBlocksCorrectedForm | beehively-frontend/src/pages/Signup.tsx:84-86 | after a rejected submit, a corrected form is still blocked once |
| SignupPage.Submit | beehively-frontend/src/pages/Signup.tsx:63-86 | corrected gate: sends exactly when every field is non-empty |
| SignupPage.RouteGateIsStricter | beehively-frontend/src/pages/Signup.tsx:84-86 | whatever the router client's form sends, the corrected gate sends too |
| LoginRoute.IsEmail | beehively-frontend-router-v7/app/routes/login.tsx:28 | the compiled test accepts exactly the texts the pattern `^[^\s@]+@[^\s@]+\.[^\s@]+$` matches |
| LoginRoute.PatternHasAt | beehively-frontend-router-v7/app/routes/login.tsx:28 | a matching text is non-empty and has an "@" |
| LoginRoute.EmailTestSound | beehively-frontend-router-v7/app/routes/login.tsx:28 | a text passing the first-"@" test matches the pattern |
| LoginRoute.EmailTestComplete | beehively-frontend-router-v7/app/routes/login.tsx:28 | a text matching the pattern passes the first-"@" test |
| LoginRoute.GetLoginErrors | beehively-frontend-router-v7/app/routes/login.tsx:20-37 | after trimming: "Email is required" exactly for a blank email, "Enter a valid email" exactly for a non-matching one, "Password is required" exactly for a blank password |
| LoginRoute.FirstError | beehively-frontend-router-v7/app/routes/login.tsx:60 | empty exactly when both errors are; the email error when there is one, else the password error |
| LoginRoute.Decide | beehively-frontend-router-v7/app/routes/login.tsx:55-72 | sends exactly when the trimmed email matches and the trimmed password is non-empty, and then sends both trimmed |
| LoginRoute.SentLoginPassesPresenceCheck | beehively-frontend-router-v7/app/routes/login.tsx:69-72 | whatever the form sends passes the backend's presence check |
| LoginRoute.TrimmedPasswordIsRejected | beehively-frontend-router-v7/app/routes/login.tsx:69-72 | a password with a leading blank, accepted at signup, is refused at login |
| LoginRoute.DecideAsTyped | beehively-frontend-router-v7/app/routes/login.tsx:55-72 | corrected submit: the same checks, the values sent as typed |
| LoginRoute.SignupThenLoginAsTyped | beehively-frontend-router-v7/app/routes/login.tsx:69-72 | with the corrected submit, whoever signs up through the form with an email the login pattern accepts and a non-blank password can log in through the form |
| LoginRoute.BlankPasswordNeverLogsIn | beehively-frontend-router-v7/app/routes/login.tsx:52-72 | a password of blanks passes the signup form but is refused by the login form before any request, with or without the correction |

## Left out

- HTTP transport, Express routing, cookies, the auth middleware and the API service
  wrappers are not part of this model. A request arrives as its parsed fields, and
  a client call is a function parameter.
- Mongoose schemas are not part of this model. `UserController.GetPublicProfile`
  returns the matched stored documents; the projection and `populate` the reply
  applies to them are `Store.AsSent`, used where the client receives them
  (`UsersRoute.Served`).
- Post update, delete, bulk delete and restore on the server are not part of this
  model. The clients' side of them (list removal, undo merge, replacement) is
  modelled.
- Dates are whole milliseconds (`int`). Date formatting and `new Date` parsing are
  left out.
- React effects, `requestAnimationFrame`, focus, modals, debouncing and navigation
  state are left out. Handlers are modelled by the state they write.
- URL search parameters are a map. The order and repetition of parameters are left
  out.
- Library behaviour is a parameter:
  - `toLowerCase`, `toUpperCase`, `localeCompare`;
  - bcrypt hash and compare;
  - `ObjectId.isValid`, as the test whether the id cast fails (`validId`);
  - JWT signing, kept as a `Token` holding its payload.
- The store's ordering of posts with equal `createdAt` is unspecified. The model
  keeps store order for them.
- A Dafny `char` stands for one UTF-16 code unit, as JavaScript strings index them.
- Values of JSON types other than strings, arrays and absent fields are left out.
  A non-array `tags` value is kept as its `String(...)` text.
- The original create-post page's logging and alert after formatting tags are left
  out. They show the tags and navigate away.
- The original profile page's `fetchUserPosts` and its update-failure error line
  are left out. They set the list or an error text like the router client's
  loader.
- Two behaviours of the code are modelled as written:
  - `getPosts` (beehively-backend/controllers/postController.js:63) has no
    `deletedAt` condition, so deleted posts are listed by author
    (`PostController.DeletedPostsAreListed`).
  - `createPost` stores the requested status
    (`PostController.RequestedStatus`).
- Ordering.Sort: its contract states only the length. The permutation, the order
  and the stability are the lemmas `Ordering.SortPermutes`, `Ordering.SortSorted`
  and `Ordering.SortStable`.
- HomeRoute.FilterAndSortOrdered: the title order is proved only for a consistent
  collation. JavaScript leaves the result of an inconsistent comparator to the
  implementation.
- Display.Initials: its contract gives the initials as a prefix of the first
  letters. The per-word statement (`Display.InitialsOfWords`) holds only when
  upper-casing maps each character to one character. JavaScript's does not always
  (for example "ß" becomes "SS").
- Store.FindById: ids are compared as strings, as the store's canonical
  spelling. The value of the ObjectId cast is left out: Mongoose reads a
  24-digit hex id case-insensitively, so an id written with upper-case hex
  digits finds the stored user, while the model finds none.
- UserController.GetPublicProfile: for such an upper-case id the source answers
  200 with the user and their posts, and the reply's id is the stored lower-case
  one. The model answers 404, and its `r.value.user.id == id` holds only for ids
  in the canonical spelling.
- PostController.Matching: the `author` filter compares the stored author with
  the query string exactly, so an upper-case spelling of an author id lists no
  posts, where the source lists that author's posts.
- ContentRoute.Loader: the error of a thrown call is stated as the error text. A
  thrown `Error` with an empty message therefore gives an empty error line, as in
  the source.

## Findings

| source | as written | input that shows it | evidently intended | confidence | as-written member | corrected member |
|---|---|---|---|---|---|---|
| beehively-frontend/src/pages/Signup.tsx:84-86 | the submit gate reads `fieldErrors`, the errors on screen before this submit, because the state updates queued at lines 66-82 are not yet applied | a fresh page with every field empty: the gate sees no errors and the request is sent, while the page shows four "required" messages; after that rejected state, a fully filled form is blocked once | gate on the errors this submit computes | not executed | SignupPage.SubmitAsWritten, SignupPage.StaleGateSendsEmptyForm | SignupPage.Submit, SignupPage.RouteGateIsStricter |
| beehively-frontend-router-v7/app/routes/login.tsx:69-72 | the login request sends `password.trim()`, while signup (signup.tsx:125-129) sends the password as typed and the backend hashes it unchanged (authController.js:18) | sign up with password " secret", then log in with " secret": the login sends "secret", which does not match the stored hash of " secret", and the reply is 401 | send the password as typed, as signup does; then whoever signs up with an email the login pattern accepts and a non-blank password can log in (a password of blanks is refused by the login form either way) | not executed | LoginRoute.Decide, LoginRoute.TrimmedPasswordIsRejected | LoginRoute.DecideAsTyped, LoginRoute.SignupThenLoginAsTyped |

=== FILE: backend_auth.dfy ===
/** `signup` and `login` of the backend auth controller. Password hashing and
    comparison are parameters: `hash` is what `bcrypt.hash(password, 10)`
    produced, `matches(password, stored)` what `bcrypt.compare` answers. */
module AuthController {
  import opened Wrappers
  import Store

  /** A signed token; the model keeps exactly its payload, the user id. */
  datatype Token = Token(id: string)

  /** The success payload of both handlers. */
  datatype Session = Session(token: Token, user: Store.PublicUser)

  datatype SignupRequest = SignupRequest(name: Option<string>, email: Option<string>, password: Option<string>)

  predicate Complete(req: SignupRequest) {
    Truthy(req.name) && Truthy(req.email) && Truthy(req.password)
  }

  /** No two users share an email. */
  predicate UniqueEmails(users: seq<Store.User>) {
    forall i, j :: 0 <= i < j < |users| ==> users[i].email != users[j].email
  }

  /** `signup`. The store assigns `newId`. */
  function Signup(users: seq<Store.User>, req: SignupRequest, newId: string, hash: string -> string)
    : (out: (seq<Store.User>, Store.Reply<Session>))
    ensures !Complete(req) ==> out == (users, Store.Failure(400, "name, email and password are required"))
    ensures Complete(req) && Store.FindByEmail(users, req.email.value).Some?
      ==> out == (users, Store.Failure(409, "User already exists"))
    ensures out.1.Failure? ==> out.0 == users
    ensures out.1.Success? <==> Complete(req) && Store.FindByEmail(users, req.email.value).None?
    ensures out.1.Success? ==>
      && out.1.code == 201
      && out.0 == users + [Store.User(newId, req.name.value, req.email.value, hash(req.password.value))]
      && out.1.value == Session(Token(newId), Store.PublicUser(newId, req.name.value, req.email.value))
  {
    if !Complete(req) then (users, Store.Failure(400, "name, email and password are required"))
    else if Store.FindByEmail(users, req.email.value).Some? then (users, Store.Failure(409, "User already exists"))
    else
      var u := Store.User(newId, req.name.value, req.email.value, hash(req.password.value));
      (users + [u], Store.Success(201, "Signup successful", Session(Token(u.id), Store.PublicView(u))))
  }

  /** `login`. Both an unknown email and a wrong password get the same reply. */
  function Login(users: seq<Store.User>, email: Option<string>, password: Option<string>,
                 matches: (string, string) -> bool): (r: Store.Reply<Session>)
    ensures !(Truthy(email) && Truthy(password)) ==> r == Store.Failure(400, "email and password are required")
    ensures Truthy(email) && Truthy(password) && r.Failure? ==> r == Store.Failure(401, "Invalid credentials")
    ensures r.Success? <==>
      && Truthy(email) && Truthy(password)
      && Store.FindByEmail(users, email.value).Some?
      && matches(password.value, Store.FindByEmail(users, email.value).value.passwordHash)
    ensures r.Success? ==>
      && r.code == 200
      && r.value.user == Store.PublicView(Store.FindByEmail(users, email.value).value)
      && r.value.token.id == r.value.user.id
  {
    if !Truthy(email) || !Truthy(password) then Store.Failure(400, "email and password are required")
    else match Store.FindByEmail(users, email.value)
      case None => Store.Failure(401, "Invalid credentials")
      case Some(u) =>
        if !matches(password.value, u.passwordHash) then Store.Failure(401, "Invalid credentials")
        else Store.Success(200, "Login successful", Session(Token(u.id), Store.PublicView(u)))
  }

  /** Signup never creates a second account for an email. */
  lemma SignupKeepsEmailsUnique(users: seq<Store.User>, req: SignupRequest, newId: string, hash: string -> string)
    requires UniqueEmails(users)
    ensures UniqueEmails(Signup(users, req, newId, hash).0)
  {
    var out := Signup(users, req, newId, hash);
    if out.1.Success? {
      forall i, j | 0 <= i < j < |out.0| ensures out.0[i].email != out.0[j].email {
        if j == |users| {
          assert out.0[i] in users;
        }
      }
    }
  }

  /** The lookup finds an appended user whose email was free. */
  lemma {:induction false} FindAppended(users: seq<Store.User>, u: Store.User)
    requires Store.FindByEmail(users, u.email).None?
    ensures Store.FindByEmail(users + [u], u.email) == Some(u)
    decreases |users|
  {
    if |users| > 0 {
      assert (users + [u])[1..] == users[1..] + [u];
      assert users[0] in users;
      FindAppended(users[1..], u);
    }
  }

  /** Whoever signs up can log in with the same email and password, provided
      the comparison accepts a password against its own hash. */
  lemma SignupThenLogin(users: seq<Store.User>, name: string, email: string, password: string, newId: string,
                        hash: string -> string, matches: (string, string) -> bool)
    requires name != "" && email != "" && password != ""
    requires Store.FindByEmail(users, email).None?
    requires matches(password, hash(password))
    ensures var out := Signup(users, SignupRequest(Some(name), Some(email), Some(password)), newId, hash);
      Login(out.0, Some(email), Some(password), matches) == Store.Success(200, "Login successful", out.1.value)
  {
    FindAppended(users, Store.User(newId, name, email, hash(password)));
  }

  /** The store keeps the hash, never the password itself, whenever the hash differs from its input. */
  lemma StoredPasswordIsHashed(users: seq<Store.User>, req: SignupRequest, newId: string, hash: string -> string)
    requires Signup(users, req, newId, hash).1.Success?
    requires hash(req.password.value) != req.password.value
    ensures var added := Signup(users, req, newId, hash).0[|users|];
      added.passwordHash != req.password.value && added.email == req.email.value
  {
  }
}

=== FILE: backend_posts.dfy ===
/** `createPost` and `getPosts` of the backend post controller, as
    transitions on the store: (store, request) to (store', reply). */
module PostController {
  import opened Wrappers
  import Posts
  import Store
  import Tags
  import Seqs
  import Ordering

  /** The `tags` field of a create request: absent (defaults to `[]`), an
      array, or any other value, which the handler turns into text with
      `String(tags)` (so a JSON `null` arrives here as `TagText("null")`). */
  datatype TagsField = NoTags | TagList(items: seq<string>) | TagText(text: string)

  /** A create request: the caller id set by the auth middleware and the body fields.
      `None` is an absent field. */
  datatype CreateRequest = CreateRequest(
    caller: Option<string>,
    title: Option<string>,
    content: Option<string>,
    status: Option<string>,
    tags: TagsField)

  /** `status = "draft"` applies only when the field is absent; a present value
      must be one of the three statuses. */
  function RequestedStatus(status: Option<string>): (r: Option<Posts.Status>)
    ensures status.None? ==> r == Some(Posts.Draft)
    ensures status.Some? ==> (r.Some? <==> status.value in {"draft", "published", "archived"})
    ensures status.Some? && r.Some? ==> Posts.StatusName(r.value) == status.value
  {
    if status.None? then Some(Posts.Draft) else Posts.ParseStatus(status.value)
  }

  /** Array tags are kept as sent; any other value is split on commas, trimmed
      and stripped of empty pieces. */
  function NormalizeTags(t: TagsField): (tags: seq<string>)
    ensures t.NoTags? ==> tags == []
    ensures t.TagList? ==> tags == t.items
    ensures t.TagText? ==> Tags.AllClean(tags)
    ensures t.TagText? ==> tags == Tags.SplitTrimFilter(t.text)
  {
    match t
    case NoTags => []
    case TagList(items) => items
    case TagText(text) => Tags.SplitTrimFilter(text)
  }

  /** The request passes every check of `createPost`. */
  predicate Acceptable(req: CreateRequest) {
    Truthy(req.caller) && Truthy(req.title) && Truthy(req.content)
    && RequestedStatus(req.status).Some?
  }

  /** `createPost`. The store assigns `newId` and stamps both timestamps with `now`. */
  function CreatePost(db: Store.Db, req: CreateRequest, newId: string, now: int)
    : (out: (Store.Db, Store.Reply<Store.StoredPost>))
    // the caller is checked before any body field
    ensures !Truthy(req.caller) ==> out == (db, Store.Failure(401, "Unauthorized"))
    ensures Truthy(req.caller) && !(Truthy(req.title) && Truthy(req.content))
      ==> out == (db, Store.Failure(400, "title and content are required"))
    ensures Truthy(req.caller) && Truthy(req.title) && Truthy(req.content)
      && RequestedStatus(req.status).None?
      ==> out == (db, Store.Failure(400, "invalid status"))
    ensures out.1.Failure? ==> out.0 == db
    ensures out.1.Success? <==> Acceptable(req)
    ensures out.1.Success? ==>
      && out.1.code == 201
      && out.0 == db.(posts := db.posts + [out.1.value])
      && out.1.value.id == newId
      && out.1.value.title == req.title.value
      && out.1.value.content == req.content.value
      && Some(out.1.value.status) == RequestedStatus(req.status)
      && out.1.value.tags == NormalizeTags(req.tags)
      && out.1.value.author == req.caller.value
      && out.1.value.deletedAt.None?
  {
    if !Truthy(req.caller) then (db, Store.Failure(401, "Unauthorized"))
    else if !Truthy(req.title) || !Truthy(req.content) then
      (db, Store.Failure(400, "title and content are required"))
    else match RequestedStatus(req.status)
      case None => (db, Store.Failure(400, "invalid status"))
      case Some(status) =>
        var post := Store.StoredPost(newId, req.title.value, req.content.value, status,
                                     NormalizeTags(req.tags), req.caller.value, None, now, now);
        (db.(posts := db.posts + [post]), Store.Success(201, "Post created successfully", post))
  }

  /** Whitespace is not blank to the backend: a title of one space passes. */
  lemma WhitespaceTitleAccepted(db: Store.Db, caller: string, newId: string, now: int)
    requires caller != ""
    ensures CreatePost(db, CreateRequest(Some(caller), Some(" "), Some(" "), None, NoTags), newId, now).1.Success?
  {
  }

  /** The query string of `getPosts`. */
  datatype ListQuery = ListQuery(status: Option<string>, author: Option<string>)

  /** The document filter `getPosts` builds: a status condition only for a
      non-empty status, an author condition only for a non-empty author,
      and nothing about `deletedAt`. */
  predicate MatchesQuery(p: Store.StoredPost, q: ListQuery) {
    && (Truthy(q.status) ==> Posts.StatusName(p.status) == q.status.value)
    && (Truthy(q.author) ==> p.author == q.author.value)
  }

  function Matching(posts: seq<Store.StoredPost>, q: ListQuery): (r: seq<Store.StoredPost>)
    ensures forall p :: p in r <==> p in posts && MatchesQuery(p, q)
    ensures multiset(r) <= multiset(posts)
  {
    Seqs.Filter((p: Store.StoredPost) => MatchesQuery(p, q), posts)
  }

  /** `getPosts`. `validId` stands for the store's id cast: an author that is
      not a well-formed id makes the query fail, and the catch block answers 500. */
  function GetPosts(db: Store.Db, q: ListQuery, validId: string -> bool): (r: Store.Reply<seq<Posts.Post>>)
    ensures Truthy(q.status) && Posts.ParseStatus(q.status.value).None?
      ==> r == Store.Failure(400, "invalid status")
    ensures r.Success? <==>
      && (Truthy(q.status) ==> Posts.ParseStatus(q.status.value).Some?)
      && (Truthy(q.author) ==> validId(q.author.value))
    ensures r.Failure? && r.code != 400 ==> r == Store.Failure(500, "Something went wrong")
    ensures r.Success? ==> r.code == 200
    ensures r.Success? ==> Ordering.Sorted(Posts.NewestFirst, r.value)
    ensures r.Success? ==>
      multiset(r.value) == multiset(Store.PopulateAll(db.users, Matching(db.posts, q)))
  {
    if Truthy(q.status) && Posts.ParseStatus(q.status.value).None? then
      Store.Failure(400, "invalid status")
    else if Truthy(q.author) && !validId(q.author.value) then
      Store.Failure(500, "Something went wrong")
    else
      var found := Store.PopulateAll(db.users, Matching(db.posts, q));
      Posts.NewestFirstIsComparator();
      Ordering.SortSorted(Posts.NewestFirst, found);
      Ordering.SortPermutes(Posts.NewestFirst, found);
      Store.Success(200, "Posts fetched successfully", Ordering.Sort(Posts.NewestFirst, found))
  }

  /** A document is listed by a successful `getPosts` exactly when it matches the query. */
  lemma ListedIffMatches(db: Store.Db, q: ListQuery, validId: string -> bool, p: Store.StoredPost)
    requires GetPosts(db, q, validId).Success?
    requires p in db.posts
    ensures MatchesQuery(p, q) ==> Store.Populate(db.users, p) in GetPosts(db, q, validId).value
    // conversely, everything listed is some matching stored post, populated
    ensures forall x :: x in GetPosts(db, q, validId).value ==>
      exists d :: d in db.posts && MatchesQuery(d, q) && Store.Populate(db.users, d) == x
  {
    var m := Matching(db.posts, q);
    var all := Store.PopulateAll(db.users, m);
    if MatchesQuery(p, q) {
      var i :| 0 <= i < |m| && m[i] == p;
      assert all[i] == Store.Populate(db.users, p);
      assert all[i] in multiset(all);
    }
    forall x | x in GetPosts(db, q, validId).value
      ensures exists d :: d in db.posts && MatchesQuery(d, q) && Store.Populate(db.users, d) == x
    {
      assert x in multiset(all);
      var i :| 0 <= i < |all| && all[i] == x;
      assert m[i] in m;
    }
  }

  /** No soft-delete filter: a deleted post of the author is still listed. */
  lemma DeletedPostsAreListed(db: Store.Db, author: string, validId: string -> bool, p: Store.StoredPost)
    requires author != "" && validId(author)
    requires p in db.posts && p.author == author && p.deletedAt.Some?
    ensures Store.Populate(db.users, p) in GetPosts(db, ListQuery(None, Some(author)), validId).value
  {
    ListedIffMatches(db, ListQuery(None, Some(author)), validId, p);
  }

  /** A post created by a caller shows up in that caller's listing. */
  lemma CreatedPostIsListed(db: Store.Db, req: CreateRequest, newId: string, now: int, validId: string -> bool)
    requires Acceptable(req) && validId(req.caller.value)
    ensures var out := CreatePost(db, req, newId, now);
      Store.Populate(out.0.users, out.1.value)
        in GetPosts(out.0, ListQuery(None, req.caller), validId).value
  {
    var out := CreatePost(db, req, newId, now);
    ListedIffMatches(out.0, ListQuery(None, req.caller), validId, out.1.value);
  }

  /** Listing by one status returns only posts of that status. */
  lemma ListedPostsHaveRequestedStatus(db: Store.Db, s: Posts.Status, validId: string -> bool)
    ensures var r := GetPosts(db, ListQuery(Some(Posts.StatusName(s)), None), validId);
      r.Success? && forall p :: p in r.value ==> p.status == s
  {
    var q := ListQuery(Some(Posts.StatusName(s)), None);
    Posts.ParseStatusName(s);
    var r := GetPosts(db, q, validId);
    var all := Store.PopulateAll(db.users, Matching(db.posts, q));
    forall p | p in r.value ensures p.status == s {
      assert p in multiset(all);
      var i :| 0 <= i < |all| && all[i] == p;
      assert Matching(db.posts, q)[i] in Matching(db.posts, q);
    }
  }
}

=== FILE: backend_store.dfy ===
/** The backend's view of its document store: user and post documents, the
    reply every handler produces, and the lookups the handlers issue
    (`findOne`, `findById`, `populate("author", "name email")`). */
module Store {
  import opened Wrappers
  import Posts
  import Ordering

  /** A user document; `passwordHash` is what signup stored. */
  datatype User = User(id: string, name: string, email: string, passwordHash: string)

  /** The identity the handlers send back: id, name and email only. */
  datatype PublicUser = PublicUser(id: string, name: string, email: string)

  function PublicView(u: User): (p: PublicUser)
    ensures p.id == u.id && p.name == u.name && p.email == u.email
  {
    PublicUser(u.id, u.name, u.email)
  }

  /** A post document; `author` holds the author's user id. */
  datatype StoredPost = StoredPost(
    id: string,
    title: string,
    content: string,
    status: Posts.Status,
    tags: seq<string>,
    author: string,
    deletedAt: Option<int>,
    createdAt: int,
    updatedAt: int)

  datatype Db = Db(users: seq<User>, posts: seq<StoredPost>)

  /** An HTTP reply: a success status with its JSON payload, or an error status
      with its `message`. */
  datatype Reply<T> =
    | Success(code: nat, message: string, value: T)
    | Failure(code: nat, message: string)

  /** The first user in store order whose `key` is `value`. */
  function FindBy(users: seq<User>, key: User -> string, value: string): (r: Option<User>)
    ensures r.Some? ==> r.value in users && key(r.value) == value
    ensures r.None? <==> forall u :: u in users ==> key(u) != value
    decreases |users|
  {
    if |users| == 0 then None
    else if key(users[0]) == value then Some(users[0])
    else
      assert forall u :: u in users ==> u == users[0] || u in users[1..];
      FindBy(users[1..], key, value)
  }

  /** `User.findOne({ email })`: the first user in store order with that email. */
  function FindByEmail(users: seq<User>, email: string): (r: Option<User>)
    ensures r.Some? ==> r.value in users && r.value.email == email
    ensures r.None? <==> forall u :: u in users ==> u.email != email
  {
    FindBy(users, (u: User) => u.email, email)
  }

  /** `User.findById(id)`: the first user in store order with that id. */
  function FindById(users: seq<User>, id: string): (r: Option<User>)
    ensures r.Some? ==> r.value in users && r.value.id == id
    ensures r.None? <==> forall u :: u in users ==> u.id != id
  {
    FindBy(users, (u: User) => u.id, id)
  }

  /** `populate("author", "name email")`: the author id becomes an object with
      `_id`, `name` and `email`, or `null` when no such user exists. */
  function Populate(users: seq<User>, p: StoredPost): (q: Posts.Post)
    ensures q.id == p.id && q.title == p.title && q.content == p.content
    ensures q.status == p.status && q.tags == p.tags && q.deletedAt == p.deletedAt
    ensures q.createdAt == p.createdAt && q.updatedAt == p.updatedAt
    ensures FindById(users, p.author).Some? ==> q.author == Posts.AuthorInfo(Some(p.author), Some(FindById(users, p.author).value.name), Some(FindById(users, p.author).value.email))
    ensures FindById(users, p.author).None? ==> q.author == Posts.NoAuthor
  {
    var author :=
      match FindById(users, p.author)
      case Some(u) => Posts.AuthorInfo(Some(u.id), Some(u.name), Some(u.email))
      case None => Posts.NoAuthor;
    Posts.Post(p.id, p.title, p.content, p.status, p.tags, p.deletedAt, author, p.createdAt, p.updatedAt)
  }

  function PopulateAll(users: seq<User>, ps: seq<StoredPost>): (qs: seq<Posts.Post>)
    ensures |qs| == |ps|
    ensures forall i :: 0 <= i < |ps| ==> qs[i] == Populate(users, ps[i])
  {
    seq(|ps|, i requires 0 <= i < |ps| => Populate(users, ps[i]))
  }

  /** A profile post as the reply sends it: `select("title content status tags
      createdAt updatedAt")` leaves out `deletedAt`, and the populated `author`
      is added to the selection, so the author is that user's id, name and
      email, or `null`. */
  function AsSent(users: seq<User>, p: StoredPost): (q: Posts.Post)
    ensures q.id == p.id && q.title == p.title && q.content == p.content
    ensures q.status == p.status && q.tags == p.tags
    ensures q.createdAt == p.createdAt && q.updatedAt == p.updatedAt
    ensures q.deletedAt.None?
    ensures q.author == Populate(users, p).author
    ensures p.deletedAt.None? ==> q == Populate(users, p)
  {
    Populate(users, p).(deletedAt := None)
  }

  /** `.sort({ createdAt: -1 })` on documents. The store does not promise an
      order among equal timestamps; this model keeps store order for them. */
  function NewestStored(a: StoredPost, b: StoredPost): int {
    b.createdAt - a.createdAt
  }

  lemma NewestStoredIsComparator()
    ensures Ordering.Comparator(NewestStored)
  {
  }
}

=== FILE: backend_users.dfy ===
/** `getPublicProfile` of the backend user controller. */
module UserController {
  import opened Wrappers
  import Posts
  import Store
  import Seqs
  import Ordering

  /** The success payload: the public identity and the listed posts. */
  datatype Profile = Profile(user: Store.PublicUser, posts: seq<Store.StoredPost>)

  /** The post query of a profile: this author, published, not soft-deleted. */
  predicate OnProfile(p: Store.StoredPost, id: string) {
    p.author == id && p.status == Posts.Published && p.deletedAt.None?
  }

  function ProfilePosts(posts: seq<Store.StoredPost>, id: string): (r: seq<Store.StoredPost>)
    ensures forall p :: p in r <==> p in posts && OnProfile(p, id)
    ensures multiset(r) <= multiset(posts)
  {
    Seqs.Filter((p: Store.StoredPost) => OnProfile(p, id), posts)
  }

  /** `getPublicProfile`. `validId` stands for `ObjectId.isValid`. */
  function GetPublicProfile(db: Store.Db, id: string, validId: string -> bool): (r: Store.Reply<Profile>)
    ensures !validId(id) ==> r == Store.Failure(400, "invalid user id")
    ensures validId(id) && Store.FindById(db.users, id).None? ==> r == Store.Failure(404, "User not found")
    ensures r.Success? <==> validId(id) && Store.FindById(db.users, id).Some?
    ensures r.Success? ==>
      && r.code == 200
      && r.value.user == Store.PublicView(Store.FindById(db.users, id).value)
      && r.value.user.id == id
    ensures r.Success? ==> forall p :: p in r.value.posts <==> p in db.posts && OnProfile(p, id)
    ensures r.Success? ==> multiset(r.value.posts) == multiset(ProfilePosts(db.posts, id))
    ensures r.Success? ==> Ordering.Sorted(Store.NewestStored, r.value.posts)
  {
    if !validId(id) then Store.Failure(400, "invalid user id")
    else match Store.FindById(db.users, id)
      case None => Store.Failure(404, "User not found")
      case Some(u) =>
        var listed := ProfilePosts(db.posts, id);
        Store.NewestStoredIsComparator();
        Ordering.SortSorted(Store.NewestStored, listed);
        Ordering.SortPermutes(Store.NewestStored, listed);
        var sorted := Ordering.Sort(Store.NewestStored, listed);
        assert forall p :: p in sorted <==> p in multiset(listed);
        Store.Success(200, "Profile fetched successfully", Profile(Store.PublicView(u), sorted))
  }

  /** Drafts, archived posts and soft-deleted posts never reach a public profile. */
  lemma ProfileHidesUnpublished(db: Store.Db, id: string, validId: string -> bool, p: Store.StoredPost)
    requires GetPublicProfile(db, id, validId).Success?
    requires p.status != Posts.Published || p.deletedAt.Some?
    ensures p !in GetPublicProfile(db, id, validId).value.posts
  {
  }

  /** Creation times never increase along the listed posts. */
  lemma ProfileNewestFirst(db: Store.Db, id: string, validId: string -> bool)
    requires GetPublicProfile(db, id, validId).Success?
    ensures var ps := GetPublicProfile(db, id, validId).value.posts;
      forall i, j :: 0 <= i < j < |ps| ==> ps[i].createdAt >= ps[j].createdAt
  {
    var ps := GetPublicProfile(db, id, validId).value.posts;
    forall i, j | 0 <= i < j < |ps| ensures ps[i].createdAt >= ps[j].createdAt {
      assert Store.NewestStored(ps[i], ps[j]) <= 0;
    }
  }
}

=== FILE: content_route.dfy ===
/** The post detail route of the router client: its loader. The author
    display helpers it uses are in `Display`. */
module ContentRoute {
  import opened Wrappers
  import Posts

  datatype PostData = PostData(post: Option<Posts.Post>, error: string)

  /** `loader`. `fetch` is the single-post service call, made only for a present id. */
  function Loader(id: Option<string>, fetch: string -> Outcome<Posts.Post>): (d: PostData)
    ensures !Truthy(id) ==> d == PostData(None, "Invalid post id")
    ensures Truthy(id) && fetch(id.value).Done? ==> d == PostData(Some(fetch(id.value).value), "")
    ensures Truthy(id) && fetch(id.value).Thrown? ==>
      d == PostData(None, ErrorText(fetch(id.value).message, "Failed to load post"))
    ensures d.post.Some? ==> Truthy(id) && d.error == ""
  {
    if !Truthy(id) then PostData(None, "Invalid post id")
    else match fetch(id.value)
      case Done(post) => PostData(Some(post), "")
      case Thrown(message) => PostData(None, ErrorText(message, "Failed to load post"))
  }

  /** Without an id the loader does not depend on the service: it makes no call. */
  lemma MissingIdMakesNoCall(id: Option<string>, f: string -> Outcome<Posts.Post>, g: string -> Outcome<Posts.Post>)
    requires !Truthy(id)
    ensures Loader(id, f) == Loader(id, g)
  {
  }
}

=== FILE: create_post.dfy ===
/** The create-post route of the router client: the action's validation and
    tag merge, and the form handlers (field edits, status edits, tag add,
    tag remove). */
module CreatePostRoute {
  import opened Wrappers
  import Posts
  import Text
  import Tags
  import Seqs
  import Store
  import PostController

  /** The form: `status` is whatever the select last delivered. */
  datatype PostForm = PostForm(title: string, content: string, status: string, tags: seq<string>, tagsInput: string)

  datatype FieldErrors = FieldErrors(title: string, content: string, status: string)

  const NoErrors := FieldErrors("", "", "")

  /** What the action hands back to the page when it does not redirect. */
  datatype ActionData = ActionData(errors: FieldErrors, formError: string, values: PostForm)

  /** The body of the create request. */
  datatype CreatePayload = CreatePayload(title: string, content: string, status: Posts.Status, tags: seq<string>)

  /** Tags that are non-empty and trimmed; the page's tag list keeps this shape. */
  predicate TrimmedTags(tags: seq<string>) {
    forall i :: 0 <= i < |tags| ==> tags[i] != "" && Text.IsTrimmed(tags[i])
  }

  /** `formData.getAll("tags")` read as text, trimmed, empties dropped; duplicates are kept. */
  function ExistingTags(entries: seq<FormValue>): (tags: seq<string>)
    ensures TrimmedTags(tags)
    ensures |tags| <= |entries|
  {
    Tags.TrimNonEmpty(seq(|entries|, i requires 0 <= i < |entries| => entries[i].TextOrEmpty()))
  }

  /** The tags sent: with a non-blank pending tag, the existing tags plus the
      pending one, deduplicated in first-occurrence order; otherwise the
      existing tags as they are. */
  function TagsForRequest(existing: seq<string>, pending: string): (tags: seq<string>)
    ensures pending == "" ==> tags == existing
    ensures pending != "" ==> Seqs.NoDups(tags) && forall t :: t in tags <==> t in existing || t == pending
    ensures pending != "" ==> tags == Seqs.Dedupe(existing + [pending])
    ensures pending != "" ==> forall i, j :: 0 <= i < j < |tags| ==>
      Seqs.FirstIndex(existing + [pending], tags[i]) < Seqs.FirstIndex(existing + [pending], tags[j])
    ensures pending != "" && Seqs.NoDups(existing) ==>
      tags == if pending in existing then existing else existing + [pending]
  {
    if pending != "" then
      var all := existing + [pending];
      var tags := Seqs.Dedupe(all);
      Seqs.DedupeInFirstOccurrenceOrder(all);
      assert Seqs.NoDups(existing) ==> tags == if pending in existing then existing else all by {
        if Seqs.NoDups(existing) { Seqs.DedupeAppend(existing, pending); }
      }
      tags
    else existing
  }

  /** The field errors of the action. The status is coerced before it is
      checked, so its error is always empty. */
  function ActionErrors(title: string, content: string): (e: FieldErrors)
    ensures e.status == ""
    ensures e.title == "" <==> title != ""
    ensures e.content == "" <==> content != ""
    ensures e.title != "" ==> e.title == "Title is required"
    ensures e.content != "" ==> e.content == "Content is required"
  {
    FieldErrors(if title != "" then "" else "Title is required",
                if content != "" then "" else "Content is required",
                "")
  }

  datatype CreateDecision = Invalid(data: ActionData) | Submit(payload: CreatePayload, values: PostForm)

  /** The action up to the request. */
  function Decide(title: FormValue, content: FormValue, status: FormValue, tagsInput: FormValue,
                  tagEntries: seq<FormValue>): (d: CreateDecision)
    ensures d.Invalid? <==> Text.Trim(title.TextOrEmpty()) == "" || Text.Trim(content.TextOrEmpty()) == ""
    ensures d.Invalid? ==>
      && d.data.errors == ActionErrors(Text.Trim(title.TextOrEmpty()), Text.Trim(content.TextOrEmpty()))
      && d.data.formError == "Please fill in the required fields."
      && d.data.values.title == title.TextOrEmpty()
      && d.data.values.content == content.TextOrEmpty()
      && d.data.values.status == Posts.StatusName(Posts.CoerceStatus(status.TextOrEmpty()))
      && d.data.values.tags == ExistingTags(tagEntries)
      && d.data.values.tagsInput == tagsInput.TextOrEmpty()
    ensures d.Submit? ==>
      && d.payload.title == Text.Trim(title.TextOrEmpty()) && d.payload.title != ""
      && d.payload.content == Text.Trim(content.TextOrEmpty()) && d.payload.content != ""
      && d.payload.status == Posts.CoerceStatus(status.TextOrEmpty())
      && d.payload.tags == TagsForRequest(ExistingTags(tagEntries), Text.Trim(tagsInput.TextOrEmpty()))
    // the form as typed, which the page gets back if the request fails
    ensures d.Submit? ==>
      d.values == PostForm(title.TextOrEmpty(), content.TextOrEmpty(),
                           Posts.StatusName(Posts.CoerceStatus(status.TextOrEmpty())),
                           ExistingTags(tagEntries), tagsInput.TextOrEmpty())
  {
    var rawTitle := title.TextOrEmpty();
    var rawContent := content.TextOrEmpty();
    var rawTags := tagsInput.TextOrEmpty();
    var existing := ExistingTags(tagEntries);
    var st := Posts.CoerceStatus(status.TextOrEmpty());
    var values := PostForm(rawTitle, rawContent, Posts.StatusName(st), existing, rawTags);
    var errors := ActionErrors(Text.Trim(rawTitle), Text.Trim(rawContent));
    if errors.title != "" || errors.content != "" || errors.status != "" then
      Invalid(ActionData(errors, "Please fill in the required fields.", values))
    else
      Submit(CreatePayload(Text.Trim(rawTitle), Text.Trim(rawContent), st,
                           TagsForRequest(existing, Text.Trim(rawTags))), values)
  }

  datatype ActionResult = Redirect(path: string) | Stay(data: ActionData)

  /** The action. `send` is the create request with the session token, which
      may be absent; it is consulted only after validation passes. */
  function Action(title: FormValue, content: FormValue, status: FormValue, tagsInput: FormValue,
                  tagEntries: seq<FormValue>, token: Option<string>,
                  send: (CreatePayload, Option<string>) -> Outcome<()>): (r: ActionResult)
    ensures Decide(title, content, status, tagsInput, tagEntries).Invalid? ==>
      r == Stay(Decide(title, content, status, tagsInput, tagEntries).data)
    ensures Decide(title, content, status, tagsInput, tagEntries).Submit? ==>
      var d := Decide(title, content, status, tagsInput, tagEntries);
      && (send(d.payload, token).Done? ==> r == Redirect("/profile"))
      && (send(d.payload, token).Thrown? ==>
            r == Stay(ActionData(NoErrors, ErrorText(send(d.payload, token).message, "Unable to create post"), d.values)))
    ensures r.Stay? ==>
      && r.data.values.title == title.TextOrEmpty() && r.data.values.content == content.TextOrEmpty()
      && r.data.values.status == Posts.StatusName(Posts.CoerceStatus(status.TextOrEmpty()))
      && r.data.values.tags == ExistingTags(tagEntries) && r.data.values.tagsInput == tagsInput.TextOrEmpty()
  {
    match Decide(title, content, status, tagsInput, tagEntries)
    case Invalid(data) => Stay(data)
    case Submit(payload, values) =>
      match send(payload, token)
      case Done(_) => Redirect("/profile")
      case Thrown(message) => Stay(ActionData(NoErrors, ErrorText(message, "Unable to create post"), values))
  }

  /** What passes the client's checks also passes the backend's: a signed-in
      submission is created, with the sent tags stored as they are. */
  lemma ValidatedPayloadIsCreated(db: Store.Db, p: CreatePayload, caller: string, newId: string, now: int)
    requires p.title != "" && p.content != "" && caller != ""
    ensures var out := PostController.CreatePost(db,
        PostController.CreateRequest(Some(caller), Some(p.title), Some(p.content),
                                     Some(Posts.StatusName(p.status)), PostController.TagList(p.tags)),
        newId, now);
      out.1.Success? && out.1.value.tags == p.tags && out.1.value.status == p.status
  {
    Posts.ParseStatusName(p.status);
  }

  /** The form fields the change handler writes. */
  datatype FormField = TitleField | ContentField | TagsInputField

  /** `handleFieldChange`: the field takes the value; a title or content edit
      sets that field's error exactly when the trimmed value is empty; the
      form error is cleared. */
  function FieldChange(form: PostForm, errors: FieldErrors, field: FormField, value: string)
    : (out: (PostForm, FieldErrors, string))
    ensures field == TitleField ==>
      out.0 == form.(title := value)
      && out.1 == errors.(title := if Text.Trim(value) == "" then "Title is required" else "")
    ensures field == ContentField ==>
      out.0 == form.(content := value)
      && out.1 == errors.(content := if Text.Trim(value) == "" then "Content is required" else "")
    ensures field == TagsInputField ==> out.0 == form.(tagsInput := value) && out.1 == errors
    ensures out.2 == ""
  {
    match field
    case TitleField =>
      (form.(title := value), errors.(title := if Text.Trim(value) != "" then "" else "Title is required"), "")
    case ContentField =>
      (form.(content := value), errors.(content := if Text.Trim(value) != "" then "" else "Content is required"), "")
    case TagsInputField => (form.(tagsInput := value), errors, "")
  }

  /** A live title or content error agrees with what the action would report. */
  lemma LiveErrorMatchesAction(form: PostForm, errors: FieldErrors, value: string)
    ensures FieldChange(form, errors, TitleField, value).1.title == ActionErrors(Text.Trim(value), "x").title
    ensures FieldChange(form, errors, ContentField, value).1.content == ActionErrors("x", Text.Trim(value)).content
  {
  }

  /** `handleStatusChange`: the status takes the value, its error is set only for an empty value. */
  function StatusChange(form: PostForm, errors: FieldErrors, value: string): (out: (PostForm, FieldErrors, string))
    ensures out.0 == form.(status := value)
    ensures out.1.title == errors.title && out.1.content == errors.content
    ensures out.1.status == "" <==> value != ""
    ensures value == "" ==> out.1.status == "Status is required"
    ensures out.2 == ""
  {
    (form.(status := value), errors.(status := if value != "" then "" else "Status is required"), "")
  }

  /** `handleTagAdd`: a blank input changes nothing, neither the form nor the
      form error (`None`); otherwise the trimmed input is appended unless
      already present, the input is cleared, and so is the form error (the
      second component). */
  function TagAdd(form: PostForm): (r: Option<(PostForm, string)>)
    ensures r.None? <==> Text.Trim(form.tagsInput) == ""
    ensures r.Some? ==>
      && r.value.0.tagsInput == ""
      && r.value.0.title == form.title && r.value.0.content == form.content && r.value.0.status == form.status
      && (Text.Trim(form.tagsInput) in form.tags ==> r.value.0.tags == form.tags)
      && (Text.Trim(form.tagsInput) !in form.tags ==> r.value.0.tags == form.tags + [Text.Trim(form.tagsInput)])
      && r.value.1 == ""
  {
    var trimmed := Text.Trim(form.tagsInput);
    if trimmed == "" then None
    else Some((form.(tags := if trimmed in form.tags then form.tags else form.tags + [trimmed], tagsInput := ""), ""))
  }

  /** Adding keeps the tag list duplicate-free, trimmed and non-empty. */
  lemma TagAddKeepsShape(form: PostForm)
    requires Seqs.NoDups(form.tags) && TrimmedTags(form.tags)
    requires TagAdd(form).Some?
    ensures Seqs.NoDups(TagAdd(form).value.0.tags) && TrimmedTags(TagAdd(form).value.0.tags)
  {
    var t := Text.Trim(form.tagsInput);
    if t !in form.tags {
      var xs := form.tags + [t];
      forall i, j | 0 <= i < j < |xs| ensures xs[i] != xs[j] {
        if j == |form.tags| { assert xs[i] in form.tags; }
      }
    }
  }

  /** `handleTagKeyDown`: Enter and "," add the pending tag; other keys change nothing. */
  function TagKeyDown(form: PostForm, key: string): (r: Option<(PostForm, string)>)
    ensures key != "Enter" && key != "," ==> r.None?
    ensures key == "Enter" || key == "," ==> r == TagAdd(form)
  {
    if key == "Enter" || key == "," then TagAdd(form) else None
  }

  /** `handleTagRemove`: every copy of the tag goes, the others keep their order. */
  function TagRemove(form: PostForm, tag: string): (r: PostForm)
    ensures forall t :: t in r.tags <==> t in form.tags && t != tag
    ensures forall t :: multiset(r.tags)[t] == if t != tag then multiset(form.tags)[t] else 0
    ensures r == form.(tags := r.tags)
  {
    form.(tags := Seqs.Filter((t: string) => t != tag, form.tags))
  }

  /** Removal splits over the list, so the remaining tags keep their order. */
  lemma TagRemoveConcat(form: PostForm, a: seq<string>, b: seq<string>, tag: string)
    ensures TagRemove(form.(tags := a + b), tag).tags
      == TagRemove(form.(tags := a), tag).tags + TagRemove(form.(tags := b), tag).tags
  {
    Seqs.FilterConcat((t: string) => t != tag, a, b);
  }

  /** Adding a new tag and removing it again restores the tag list. */
  lemma AddThenRemove(form: PostForm)
    requires TagAdd(form).Some? && Text.Trim(form.tagsInput) !in form.tags
    ensures TagRemove(TagAdd(form).value.0, Text.Trim(form.tagsInput)).tags == form.tags
  {
    var t := Text.Trim(form.tagsInput);
    var keep := (x: string) => x != t;
    Seqs.FilterConcat(keep, form.tags, [t]);
    Seqs.FilterAll(keep, form.tags);
    assert Seqs.Filter(keep, [t]) == [];
  }

  /** The form entries the page submits for its tag list, one text entry per tag. */
  function AsEntries(tags: seq<string>): (entries: seq<FormValue>)
    ensures |entries| == |tags|
    ensures forall i :: 0 <= i < |tags| ==> entries[i] == Text(tags[i])
  {
    seq(|tags|, i requires 0 <= i < |tags| => Text(tags[i]))
  }

  /** Trimmed, non-empty tags pass the action's entry clean-up unchanged. */
  lemma ExistingTagsOfTrimmed(tags: seq<string>)
    requires TrimmedTags(tags)
    ensures ExistingTags(AsEntries(tags)) == tags
  {
    var entries := AsEntries(tags);
    var texts := seq(|entries|, i requires 0 <= i < |entries| => entries[i].TextOrEmpty());
    assert texts == tags;
    TrimNonEmptyOfTrimmed(tags);
  }

  lemma {:induction false} TrimNonEmptyOfTrimmed(tags: seq<string>)
    requires TrimmedTags(tags)
    ensures Tags.TrimNonEmpty(tags) == tags
    decreases |tags|
  {
    if |tags| > 0 {
      Text.TrimOfTrimmed(tags[0]);
      assert TrimmedTags(tags[1..]) by {
        forall i | 0 <= i < |tags[1..]| ensures tags[1..][i] != "" && Text.IsTrimmed(tags[1..][i]) {
          assert tags[1..][i] == tags[i + 1];
        }
      }
      TrimNonEmptyOfTrimmed(tags[1..]);
      assert tags == [tags[0]] + tags[1..];
    }
  }

  /** Submitting with a pending tag sends what pressing Enter first would
      have put in the list: the action's merge agrees with `handleTagAdd`. */
  lemma SubmitMergesLikeTagAdd(form: PostForm)
    requires Seqs.NoDups(form.tags) && TrimmedTags(form.tags)
    requires TagAdd(form).Some?
    ensures TagsForRequest(ExistingTags(AsEntries(form.tags)), Text.Trim(form.tagsInput)) == TagAdd(form).value.0.tags
  {
    ExistingTagsOfTrimmed(form.tags);
    Seqs.DedupeAppend(form.tags, Text.Trim(form.tagsInput));
  }
}

=== FILE: create_post_page.dfy ===
/** The create-post page of the original client: the tag formatting of its
    submit handler (the handler then only logs and navigates). */
module CreatePostPage {
  import Text
  import Seqs
  import Tags

  /** `formattedTags`: the comma-separated pieces, trimmed, empties dropped;
      duplicates are kept, one tag per non-blank piece. */
  function FormattedTags(tags: string): (r: seq<string>)
    ensures Tags.AllClean(r)
    ensures |r| == |Seqs.Filter(Tags.NonBlank, Text.Split(tags, ','))|
  {
    Tags.TagCountIsNonBlankPieces(tags);
    Tags.SplitTrimFilter(tags)
  }

  /** Tags come out in the order of their pieces: the tags of a text
      joined at a comma are the tags of the left part, then of the right. */
  lemma FormattedTagsInPieceOrder(x: string, y: string)
    ensures FormattedTags(x + "," + y) == FormattedTags(x) + FormattedTags(y)
  {
    Tags.NormaliseAtComma(x, y);
  }
}

=== FILE: display.dfy ===
/** The display helpers of the client pages: author names and ids of posts,
    avatar initials, and the published-post count line. */
module Display {
  import opened Wrappers
  import Posts
  import Text
  import Seqs

  /** `getAuthorName` of both home pages: a falsy author is unknown, a bare
      id is shown as it is, an object shows its name when it has one. */
  function AuthorName(a: Posts.Author): (n: string)
    ensures n != ""
    ensures a.AuthorRef? && a.ref != "" ==> n == a.ref
    ensures a.AuthorInfo? && Truthy(a.name) ==> n == a.name.value
    ensures n != "Unknown author" ==> (a.AuthorRef? && n == a.ref) || (a.AuthorInfo? && a.name == Some(n))
  {
    match a
    case NoAuthor => "Unknown author"
    case AuthorRef(ref) => if ref != "" then ref else "Unknown author"
    case AuthorInfo(_, name, _) => if Truthy(name) then name.value else "Unknown author"
  }

  /** `getAuthorName` of the post detail page: as above, but an object
      without a name falls back to its email, and the fallback is capitalised. */
  function DetailAuthorName(a: Posts.Author): (n: string)
    ensures n != ""
    ensures a.AuthorRef? && a.ref != "" ==> n == a.ref
    ensures a.AuthorInfo? && Truthy(a.name) ==> n == a.name.value
    ensures a.AuthorInfo? && !Truthy(a.name) && Truthy(a.email) ==> n == a.email.value
    ensures n != "Unknown Author" ==>
      (a.AuthorRef? && n == a.ref) || (a.AuthorInfo? && (a.name == Some(n) || a.email == Some(n)))
  {
    match a
    case NoAuthor => "Unknown Author"
    case AuthorRef(ref) => if ref != "" then ref else "Unknown Author"
    case AuthorInfo(_, name, email) =>
      if Truthy(name) then name.value else if Truthy(email) then email.value else "Unknown Author"
  }

  /** The two author-name helpers agree except on the spelling of the
      fallback and on an object that has an email but no name. */
  lemma AuthorNamesCompared(a: Posts.Author)
    ensures !(a.AuthorInfo? && !Truthy(a.name) && Truthy(a.email)) ==>
      (AuthorName(a) == DetailAuthorName(a)
       || (AuthorName(a) == "Unknown author" && DetailAuthorName(a) == "Unknown Author"))
    ensures a.AuthorInfo? && !Truthy(a.name) && Truthy(a.email) ==>
      AuthorName(a) == "Unknown author" && DetailAuthorName(a) == a.email.value
  {
  }

  /** `getAuthorId` of the home and detail pages: only a populated author has an id. */
  function AuthorId(a: Posts.Author): (r: Option<string>)
    ensures r.Some? ==> a.AuthorInfo?
    ensures a.AuthorInfo? ==> r == a.id
  {
    if a.AuthorInfo? then a.id else None
  }

  /** `name.split(" ").filter(Boolean)`: the non-empty space-separated words, in order. */
  function Words(name: string): (ws: seq<string>)
    ensures forall i :: 0 <= i < |ws| ==> ws[i] != "" && ' ' !in ws[i]
  {
    var pieces := Text.Split(name, ' ');
    var ws := Seqs.Filter((w: string) => w != "", pieces);
    forall i | 0 <= i < |ws| ensures ws[i] != "" && ' ' !in ws[i] {
      assert ws[i] in ws;
      var k :| 0 <= k < |pieces| && pieces[k] == ws[i];
    }
    ws
  }

  /** The upper-cased first character of each word, concatenated. */
  function FirstLetters(ws: seq<string>, upper: string -> string): string
    requires forall i :: 0 <= i < |ws| ==> ws[i] != ""
  {
    if |ws| == 0 then "" else upper([ws[0][0]]) + FirstLetters(ws[1..], upper)
  }

  /** `getInitials` of the user page, `getAuthorInitials` of the detail page
      and the inline initials of the original user page:
      the first letters, cut to two characters. */
  function Initials(name: string, upper: string -> string): (r: string)
    ensures |r| <= 2
    ensures r <= FirstLetters(Words(name), upper)
    ensures |FirstLetters(Words(name), upper)| >= 2 ==> |r| == 2
  {
    var letters := FirstLetters(Words(name), upper);
    if |letters| <= 2 then letters else letters[..2]
  }

  /** When upper-casing maps each character to one character, there is one
      letter per word, each the upper-cased first character of its word. */
  lemma {:induction false} FirstLettersOfWords(ws: seq<string>, upper: string -> string)
    requires forall i :: 0 <= i < |ws| ==> ws[i] != ""
    requires forall c: char :: |upper([c])| == 1
    ensures |FirstLetters(ws, upper)| == |ws|
    ensures forall i :: 0 <= i < |ws| ==> [FirstLetters(ws, upper)[i]] == upper([ws[i][0]])
    decreases |ws|
  {
    if |ws| > 0 {
      FirstLettersOfWords(ws[1..], upper);
      var rest := FirstLetters(ws[1..], upper);
      var s := FirstLetters(ws, upper);
      assert s == upper([ws[0][0]]) + rest;
      forall i | 0 <= i < |ws| ensures [s[i]] == upper([ws[i][0]]) {
        if i == 0 {
          assert [s[0]] == upper([ws[0][0]]);
        } else {
          assert s[i] == rest[i - 1];
          assert ws[1..][i - 1] == ws[i];
        }
      }
    }
  }

  /** The initials are the upper-cased first characters of the first two
      words (fewer when there are fewer words). */
  lemma InitialsOfWords(name: string, upper: string -> string)
    requires forall c: char :: |upper([c])| == 1
    ensures var ws := Words(name);
      var r := Initials(name, upper);
      && |r| == (if |ws| < 2 then |ws| else 2)
      && forall i :: 0 <= i < |r| ==> [r[i]] == upper([ws[i][0]])
  {
    FirstLettersOfWords(Words(name), upper);
  }

  /** A name without words has no initials; with upper-casing never
      producing the empty text, that is the only way to get none. */
  lemma InitialsEmpty(name: string, upper: string -> string)
    ensures Words(name) == [] ==> Initials(name, upper) == ""
    ensures (forall c: char :: upper([c]) != "") ==> (Initials(name, upper) == "" <==> Words(name) == [])
  {
    var ws := Words(name);
    if ws != [] && (forall c: char :: upper([c]) != "") {
      assert upper([ws[0][0]]) != "";
      assert |FirstLetters(ws, upper)| > 0;
    }
  }

  /** The avatar text: the initials, or "U" when there are none. */
  function AvatarText(name: string, upper: string -> string): (r: string)
    ensures r != "" && |r| <= 2
    ensures Initials(name, upper) != "" ==> r == Initials(name, upper)
  {
    var initials := Initials(name, upper);
    if initials != "" then initials else "U"
  }

  /** `postCountLabel` of the user page. */
  function PublishedCountLabel(count: nat): (s: string)
    ensures count == 0 ==> s == "No published posts yet."
    ensures count == 1 ==> s == "1 published post"
    ensures count > 1 ==> s == Text.NatToString(count) + " published posts"
  {
    if count == 0 then "No published posts yet."
    else if count == 1 then "1 published post"
    else Text.NatToString(count) + " published posts"
  }

  /** The count line names its count: different counts never share a line. */
  lemma PublishedCountLabelInjective(a: nat, b: nat)
    ensures a != b ==> PublishedCountLabel(a) != PublishedCountLabel(b)
  {
    if a != b {
      LabelShape(a);
      LabelShape(b);
      if a > 1 && b > 1 {
        Text.NatToStringRoundTrip(a);
        Text.NatToStringRoundTrip(b);
      }
    }
  }

  /** Where a count line shows its count: the digits before a fixed
      16-character suffix, or one of two fixed lines. */
  lemma LabelShape(n: nat)
    ensures var s := PublishedCountLabel(n);
      && (n == 0 ==> s[0] == 'N' && |s| == 23)
      && (n == 1 ==> |s| == 16 && s[0] == '1')
      && (n > 1 ==> |s| >= 17 && '0' <= s[0] <= '9' && s[..|s| - 16] == Text.NatToString(n))
  {
    if n > 1 {
      var s := PublishedCountLabel(n);
      var d := Text.NatToString(n);
      assert s == d + " published posts";
      assert s[..|s| - 16] == d;
      assert s[0] == d[0];
    }
  }

  /** `postCountLabel` of the original user page: a loading line first. */
  function UserProfileCountLabel(loading: bool, count: nat): (s: string)
    ensures loading ==> s == "Loading posts..."
    ensures !loading ==> s == PublishedCountLabel(count)
  {
    if loading then "Loading posts..." else PublishedCountLabel(count)
  }
}

=== FILE: home_page.dfy ===
/** The home page of the original client: the feed fetch and the sorted
    view. Its author-name helper is `Display.AuthorName`, its sort options
    and comparators those of `HomeRoute`; it has no search. */
module HomePage {
  import opened Wrappers
  import Posts
  import Text
  import Ordering
  import HomeRoute
  import PostController
  import Store

  datatype FeedState = FeedState(posts: seq<Posts.Post>, loading: bool, error: string)

  /** `fetchPosts`: the published posts replace the list; a failure sets the
      error and keeps the list it had. Loading always ends. */
  function FetchPosts(st: FeedState, fetch: PostController.ListQuery -> Outcome<seq<Posts.Post>>): (r: FeedState)
    ensures !r.loading
    ensures fetch(HomeRoute.FeedQuery).Done? ==> r == FeedState(fetch(HomeRoute.FeedQuery).value, false, "")
    ensures fetch(HomeRoute.FeedQuery).Thrown? ==>
      r == FeedState(st.posts, false, ErrorText(fetch(HomeRoute.FeedQuery).message, "Failed to load posts"))
  {
    match fetch(HomeRoute.FeedQuery)
    case Done(posts) => FeedState(posts, false, "")
    case Thrown(message) => FeedState(st.posts, false, ErrorText(message, "Failed to load posts"))
  }

  /** Served by the backend, the fetched feed holds only published posts. */
  lemma FetchedFeedIsPublished(st: FeedState, db: Store.Db, validId: string -> bool)
    ensures var r := FetchPosts(st, HomeRoute.Served(db, validId));
      r.error == "" && forall p :: p in r.posts ==> p.status == Posts.Published
  {
    PostController.ListedPostsHaveRequestedStatus(db, Posts.Published, validId);
  }

  /** `sortedPosts`: a sorted copy; the list in the state is not touched. */
  function SortedPosts(posts: seq<Posts.Post>, sortBy: HomeRoute.SortOption,
                       locale: (string, string) -> int): (r: seq<Posts.Post>)
    ensures multiset(r) == multiset(posts)
  {
    Ordering.SortPermutes(HomeRoute.SortOrder(sortBy, locale), posts);
    Ordering.Sort(HomeRoute.SortOrder(sortBy, locale), posts)
  }

  /** The original page's view is the router client's feed with an empty
      search, provided lower-casing keeps the empty text empty; so it is in
      the chosen order too. */
  lemma SortedPostsIsUnsearchedFeed(posts: seq<Posts.Post>, sortBy: HomeRoute.SortOption,
                                    lower: string -> string, locale: (string, string) -> int)
    requires lower("") == ""
    ensures SortedPosts(posts, sortBy, locale) == HomeRoute.FilterAndSort(posts, sortBy, "", lower, locale)
  {
    Text.TrimEmptyIff("");
  }
}

=== FILE: home_route.dfy ===
/** The home route of the router client: the public feed of published posts,
    searched by title and sorted, with the search and sort kept in the URL. */
module HomeRoute {
  import opened Wrappers
  import Posts
  import Text
  import Seqs
  import Ordering
  import Url
  import Store
  import PostController

  datatype SortOption = Newest | Oldest | ByTitle

  function SortName(o: SortOption): string {
    match o
    case Newest => "newest"
    case Oldest => "oldest"
    case ByTitle => "title"
  }

  /** `isSortOption(v) ? v : DEFAULT_SORT` */
  function ParseSortOption(v: Option<string>): (o: SortOption)
    ensures v.Some? && v.value in {"newest", "oldest", "title"} ==> SortName(o) == v.value
    ensures !(v.Some? && v.value in {"newest", "oldest", "title"}) ==> o == Newest
  {
    if v == Some("oldest") then Oldest
    else if v == Some("title") then ByTitle
    else Newest
  }

  /** Every option survives the round trip through its name. */
  lemma ParseSortName(o: SortOption)
    ensures ParseSortOption(Some(SortName(o))) == o
  {
  }

  /** `a.title.localeCompare(b.title)`, with `localeCompare` a parameter. */
  function TitleOrder(locale: (string, string) -> int): (Posts.Post, Posts.Post) -> int {
    (a: Posts.Post, b: Posts.Post) => locale(a.title, b.title)
  }

  /** A consistent string collation gives a consistent post comparator. */
  lemma TitleOrderIsComparator(locale: (string, string) -> int)
    requires Ordering.Comparator(locale)
    ensures Ordering.Comparator(TitleOrder(locale))
  {
    var cmp := TitleOrder(locale);
    forall a: Posts.Post, b: Posts.Post ensures cmp(a, b) > 0 <==> cmp(b, a) < 0 {
      assert cmp(a, b) == locale(a.title, b.title) && cmp(b, a) == locale(b.title, a.title);
    }
    forall a: Posts.Post, b: Posts.Post, c: Posts.Post | cmp(a, b) <= 0 && cmp(b, c) <= 0 ensures cmp(a, c) <= 0 {
      assert cmp(a, b) == locale(a.title, b.title) && cmp(b, c) == locale(b.title, c.title);
      assert cmp(a, c) == locale(a.title, c.title);
    }
  }

  /** The comparator each option sorts with. */
  function SortOrder(o: SortOption, locale: (string, string) -> int): (Posts.Post, Posts.Post) -> int {
    match o
    case Newest => Posts.NewestFirst
    case Oldest => Posts.OldestFirst
    case ByTitle => TitleOrder(locale)
  }

  /** The search term: trimmed, then lower-cased with `lower`. */
  function SearchTerm(search: string, lower: string -> string): string {
    lower(Text.Trim(search))
  }

  /** A post is found by a term when its lower-cased title contains the term. */
  predicate Found(p: Posts.Post, term: string, lower: string -> string) {
    Text.Includes(lower(p.title), term)
  }

  /** The search step: an empty term keeps every post, otherwise the posts
      found by it, in their original order. */
  function Searched(posts: seq<Posts.Post>, term: string, lower: string -> string): (r: seq<Posts.Post>)
    ensures term == "" ==> r == posts
    ensures term != "" ==> forall p :: p in r <==> p in posts && Text.Contains(lower(p.title), term)
    ensures multiset(r) <= multiset(posts)
    // every found post is kept as often as it occurs
    ensures term != "" ==> forall p :: multiset(r)[p] == if Text.Contains(lower(p.title), term) then multiset(posts)[p] else 0
  {
    if term == "" then posts else Seqs.Filter((p: Posts.Post) => Found(p, term, lower), posts)
  }

  /** `filterAndSortPosts`: the searched posts, sorted on a copy. */
  function FilterAndSort(posts: seq<Posts.Post>, sortBy: SortOption, search: string,
                         lower: string -> string, locale: (string, string) -> int): (r: seq<Posts.Post>)
    ensures multiset(r) == multiset(Searched(posts, SearchTerm(search, lower), lower))
    ensures forall p :: p in r <==>
      p in posts && (SearchTerm(search, lower) == "" || Text.Contains(lower(p.title), SearchTerm(search, lower)))
    ensures |r| <= |posts|
  {
    var found := Searched(posts, SearchTerm(search, lower), lower);
    var sorted := Ordering.Sort(SortOrder(sortBy, locale), found);
    Ordering.SortPermutes(SortOrder(sortBy, locale), found);
    assert forall p :: p in sorted <==> p in multiset(found);
    assert |found| == |multiset(found)| <= |multiset(posts)| == |posts|;
    sorted
  }

  /** The feed is in the chosen order: creation time descending, ascending,
      or the collation of titles. */
  lemma FilterAndSortOrdered(posts: seq<Posts.Post>, sortBy: SortOption, search: string,
                             lower: string -> string, locale: (string, string) -> int)
    requires sortBy == ByTitle ==> Ordering.Comparator(locale)
    ensures var r := FilterAndSort(posts, sortBy, search, lower, locale);
      forall i, j :: 0 <= i < j < |r| ==>
        && (sortBy == Newest ==> r[i].createdAt >= r[j].createdAt)
        && (sortBy == Oldest ==> r[i].createdAt <= r[j].createdAt)
        && (sortBy == ByTitle ==> locale(r[i].title, r[j].title) <= 0)
  {
    var found := Searched(posts, SearchTerm(search, lower), lower);
    var cmp := SortOrder(sortBy, locale);
    match sortBy {
      case Newest => Posts.NewestFirstIsComparator();
      case Oldest => Posts.OldestFirstIsComparator();
      case ByTitle => TitleOrderIsComparator(locale);
    }
    Ordering.SortSorted(cmp, found);
    var r := Ordering.Sort(cmp, found);
    forall i, j | 0 <= i < j < |r|
      ensures && (sortBy == Newest ==> r[i].createdAt >= r[j].createdAt)
              && (sortBy == Oldest ==> r[i].createdAt <= r[j].createdAt)
              && (sortBy == ByTitle ==> locale(r[i].title, r[j].title) <= 0)
    {
      assert cmp(r[i], r[j]) <= 0;
    }
  }

  /** A blank search keeps every post, provided lower-casing keeps the empty text empty. */
  lemma BlankSearchKeepsAll(posts: seq<Posts.Post>, sortBy: SortOption, search: string,
                            lower: string -> string, locale: (string, string) -> int)
    requires Text.AllSpace(search) && lower("") == ""
    ensures multiset(FilterAndSort(posts, sortBy, search, lower, locale)) == multiset(posts)
  {
    Text.TrimEmptyIff(search);
  }

  /** What the loader hands to the page. */
  datatype HomeData = HomeData(posts: seq<Posts.Post>, error: string, sortBy: SortOption, searchTerm: string)

  /** The one query the feed sends: published posts of every author. */
  const FeedQuery := PostController.ListQuery(Some("published"), None)

  /** `loader`. `fetch` is the post service call. */
  function Loader(params: Url.Params, fetch: PostController.ListQuery -> Outcome<seq<Posts.Post>>,
                  lower: string -> string, locale: (string, string) -> int): (d: HomeData)
    ensures d.sortBy == ParseSortOption(Url.Get(params, "sort"))
    ensures d.searchTerm == Url.Get(params, "search").GetOr("")
    ensures fetch(FeedQuery).Done? ==>
      d.error == "" && d.posts == FilterAndSort(fetch(FeedQuery).value, d.sortBy, d.searchTerm, lower, locale)
    ensures fetch(FeedQuery).Thrown? ==>
      d.posts == [] && d.error == ErrorText(fetch(FeedQuery).message, "Failed to load posts")
  {
    var sortBy := ParseSortOption(Url.Get(params, "sort"));
    var search := Url.Get(params, "search").GetOr("");
    match fetch(FeedQuery)
    case Done(posts) => HomeData(FilterAndSort(posts, sortBy, search, lower, locale), "", sortBy, search)
    case Thrown(message) => HomeData([], ErrorText(message, "Failed to load posts"), sortBy, search)
  }

  /** The post service answered by the backend's `getPosts` on a store. */
  function Served(db: Store.Db, validId: string -> bool): PostController.ListQuery -> Outcome<seq<Posts.Post>> {
    (q: PostController.ListQuery) =>
      var r := PostController.GetPosts(db, q, validId);
      if r.Success? then Done(r.value) else Thrown(Some(r.message))
  }

  /** Served by the backend, the feed loads without error and shows only
      published posts. */
  lemma FeedShowsOnlyPublished(db: Store.Db, validId: string -> bool, params: Url.Params,
                               lower: string -> string, locale: (string, string) -> int)
    ensures var d := Loader(params, Served(db, validId), lower, locale);
      d.error == "" && forall p :: p in d.posts ==> p.status == Posts.Published
  {
    PostController.ListedPostsHaveRequestedStatus(db, Posts.Published, validId);
  }

  /** `searchParams.set(name, value)` for a non-empty value, else `searchParams.delete(name)`. */
  function SetOrDelete(params: Url.Params, name: string, value: string): (r: Url.Params)
    ensures name in r <==> value != ""
    ensures name in r ==> r[name] == value
    ensures forall k :: k != name ==> Url.Get(r, k) == Url.Get(params, k)
  {
    if value != "" then params[name := value] else params - {name}
  }

  /** The value the action writes for a sort option: none for the default. */
  function SortParam(o: SortOption): (v: string)
    ensures v == "" <==> o == Newest
  {
    if o == Newest then "" else SortName(o)
  }

  /** `action`: the submitted search, trimmed, is kept in the URL only when
      non-empty; the sort is kept only when it is not the default. */
  function Action(params: Url.Params, sortBy: FormValue, search: FormValue): (r: Url.Params)
    ensures "search" in r <==> Text.Trim(search.TextOrEmpty()) != ""
    ensures "search" in r ==> r["search"] == Text.Trim(search.TextOrEmpty())
    ensures "sort" in r <==> ParseSortOption(sortBy.AsText()) != Newest
    ensures "sort" in r ==> r["sort"] == SortName(ParseSortOption(sortBy.AsText()))
    ensures Url.SameExcept(params, r, {"search", "sort"})
  {
    var withSearch := SetOrDelete(params, "search", Text.Trim(search.TextOrEmpty()));
    var r := SetOrDelete(withSearch, "sort", SortParam(ParseSortOption(sortBy.AsText())));
    assert "search" != "sort";
    r
  }

  /** The loader reads back what the action wrote: the submitted option and
      the trimmed search. */
  lemma ActionThenLoad(params: Url.Params, sortBy: FormValue, search: FormValue,
                       fetch: PostController.ListQuery -> Outcome<seq<Posts.Post>>,
                       lower: string -> string, locale: (string, string) -> int)
    ensures var d := Loader(Action(params, sortBy, search), fetch, lower, locale);
      d.sortBy == ParseSortOption(sortBy.AsText()) && d.searchTerm == Text.Trim(search.TextOrEmpty())
  {
    ParseSortName(ParseSortOption(sortBy.AsText()));
  }

  /** Writing what a parameter already says changes nothing. */
  lemma SetOrDeleteKept(params: Url.Params, name: string, value: string)
    requires value != "" ==> name in params && params[name] == value
    requires value == "" ==> name !in params
    ensures SetOrDelete(params, name, value) == params
  {
    if value == "" {
      assert params - {name} == params;
    }
  }

  /** Submitting the values the page shows after an action leaves the URL as it is. */
  lemma ActionIdempotent(params: Url.Params, sortBy: FormValue, search: FormValue)
    ensures var r := Action(params, sortBy, search);
      Action(r, Text(SortName(ParseSortOption(sortBy.AsText()))), Text(Text.Trim(search.TextOrEmpty()))) == r
  {
    var r := Action(params, sortBy, search);
    var o := ParseSortOption(sortBy.AsText());
    var term := Text.Trim(search.TextOrEmpty());
    ParseSortName(o);
    Text.TrimIdempotent(search.TextOrEmpty());
    SetOrDeleteKept(r, "search", term);
    SetOrDeleteKept(r, "sort", SortParam(o));
  }
}

=== FILE: login_route.dfy ===
/** The login route of the router client: its field errors, including the
    email pattern `^[^\s@]+@[^\s@]+\.[^\s@]+$`, and the submit gate. */
module LoginRoute {
  import opened Wrappers
  import Text
  import Seqs
  import Store
  import AuthController
  import SignupRoute
  import Tags

  /** Every character is matched by `[^\s@]`. */
  predicate NoAtSpace(s: string) {
    forall i :: 0 <= i < |s| ==> s[i] != '@' && !Text.IsSpace(s[i])
  }

  /** The pattern read as written: a non-empty run of `[^\s@]`, an "@", a
      non-empty run, a ".", and a non-empty run, covering the whole text. */
  ghost predicate EmailPattern(s: string) {
    exists i, k :: EmailSplit(s, i, k)
  }

  /** `s` matches the pattern with its "@" at `i` and its "." at `k`. */
  predicate EmailSplit(s: string, i: int, k: int) {
    && 0 < i && i + 1 < k && k + 1 < |s|
    && s[i] == '@' && s[k] == '.'
    && NoAtSpace(s[..i]) && NoAtSpace(s[i + 1..k]) && NoAtSpace(s[k + 1..])
  }

  /** The compiled test: the text before the first "@" is a non-empty run,
      and the text after it is a run with a "." neither first nor last. */
  function IsEmail(s: string): (b: bool)
    ensures b <==> EmailPattern(s)
  {
    PatternHasAt(s);
    if '@' !in s then false
    else
      var i := Seqs.FirstIndex(s, '@');
      var d := s[i + 1..];
      var b := 0 < i && NoAtSpace(s[..i]) && NoAtSpace(d) && |d| >= 3 && '.' in d[1..|d| - 1];
      EmailTestSound(s, i);
      EmailTestComplete(s, i);
      b
  }

  /** A text matching the pattern has an "@", and a non-empty one. */
  lemma PatternHasAt(s: string)
    ensures EmailPattern(s) ==> '@' in s && s != ""
  {
    if EmailPattern(s) {
      var i, k :| EmailSplit(s, i, k);
      assert s[i] in s;
    }
  }

  lemma EmailTestSound(s: string, i: nat)
    requires i < |s| && s[i] == '@'
    ensures var d := s[i + 1..];
      (0 < i && NoAtSpace(s[..i]) && NoAtSpace(d) && |d| >= 3 && '.' in d[1..|d| - 1]) ==> EmailPattern(s)
  {
    var d := s[i + 1..];
    if 0 < i && NoAtSpace(s[..i]) && NoAtSpace(d) && |d| >= 3 && '.' in d[1..|d| - 1] {
      var j :| 0 <= j < |d[1..|d| - 1]| && d[1..|d| - 1][j] == '.';
      var k := i + 2 + j;
      assert s[k] == d[j + 1];
      var mid := s[i + 1..k];
      var tail := s[k + 1..];
      assert mid == d[..j + 1];
      assert tail == d[j + 2..];
      assert NoAtSpace(mid) by {
        forall m | 0 <= m < |mid| ensures mid[m] != '@' && !Text.IsSpace(mid[m]) {
          assert mid[m] == d[m];
        }
      }
      assert NoAtSpace(tail) by {
        forall m | 0 <= m < |tail| ensures tail[m] != '@' && !Text.IsSpace(tail[m]) {
          assert tail[m] == d[j + 2 + m];
        }
      }
      assert EmailSplit(s, i, k);
    }
  }

  lemma EmailTestComplete(s: string, i: nat)
    requires '@' in s && i == Seqs.FirstIndex(s, '@')
    ensures var d := s[i + 1..];
      EmailPattern(s) ==> (0 < i && NoAtSpace(s[..i]) && NoAtSpace(d) && |d| >= 3 && '.' in d[1..|d| - 1])
  {
    if EmailPattern(s) {
      var a, k :| EmailSplit(s, a, k);
      // the "@" of the match is the first one: no "@" precedes it
      var head := s[..a];
      assert forall m :: 0 <= m < a ==> s[m] != '@' by {
        forall m | 0 <= m < a ensures s[m] != '@' {
          assert head[m] == s[m];
        }
      }
      assert a == i;
      var d := s[i + 1..];
      var mid := s[i + 1..k];
      var tail := s[k + 1..];
      forall m | 0 <= m < |d| ensures d[m] != '@' && !Text.IsSpace(d[m]) {
        var p := i + 1 + m;
        if p < k {
          assert d[m] == mid[m];
        } else if p > k {
          assert d[m] == tail[p - k - 1];
        }
      }
      assert d[1..|d| - 1][k - i - 2] == '.';
    }
  }

  datatype LoginErrors = LoginErrors(email: string, password: string)

  /** `getLoginErrors`: the email and password are checked after trimming,
      each independently of the other. */
  function GetLoginErrors(email: string, password: string): (e: LoginErrors)
    ensures Text.Trim(email) == "" <==> e.email == "Email is required"
    ensures e.email == "Enter a valid email" <==> Text.Trim(email) != "" && !EmailPattern(Text.Trim(email))
    ensures e.email == "" <==> EmailPattern(Text.Trim(email))
    ensures e.password == "Password is required" <==> Text.Trim(password) == ""
    ensures e.password == "" <==> Text.Trim(password) != ""
  {
    var trimmedEmail := Text.Trim(email);
    var trimmedPassword := Text.Trim(password);
    if trimmedEmail == "" then
      assert !EmailPattern(trimmedEmail) by {
        forall i, k | EmailSplit(trimmedEmail, i, k) ensures false { }
      }
      LoginErrors("Email is required", if trimmedPassword == "" then "Password is required" else "")
    else
      LoginErrors(if !IsEmail(trimmedEmail) then "Enter a valid email" else "",
                  if trimmedPassword == "" then "Password is required" else "")
  }

  /** `Object.values(errors).find(Boolean) || ""`: the email error first. */
  function FirstError(e: LoginErrors): (m: string)
    ensures m == "" <==> e.email == "" && e.password == ""
    ensures e.email != "" ==> m == e.email
    ensures e.email == "" ==> m == e.password
  {
    if e.email != "" then e.email else e.password
  }

  datatype LoginPayload = LoginPayload(email: string, password: string)

  datatype LoginDecision = Blocked(errors: LoginErrors, error: string) | Send(payload: LoginPayload)

  /** `handleSubmit` up to the request, as written: the request carries the
      trimmed email and the trimmed password. */
  function Decide(email: string, password: string): (d: LoginDecision)
    ensures d.Send? <==> EmailPattern(Text.Trim(email)) && Text.Trim(password) != ""
    ensures d.Blocked? ==> d.errors == GetLoginErrors(email, password) && d.error == FirstError(d.errors) && d.error != ""
    ensures d.Send? ==> d.payload == LoginPayload(Text.Trim(email), Text.Trim(password))
  {
    var errors := GetLoginErrors(email, password);
    var first := FirstError(errors);
    if first != "" then Blocked(errors, first) else Send(LoginPayload(Text.Trim(email), Text.Trim(password)))
  }

  /** Whatever the form sends passes the backend's presence check. */
  lemma SentLoginPassesPresenceCheck(email: string, password: string, users: seq<Store.User>,
                                     matches: (string, string) -> bool)
    requires Decide(email, password).Send?
    ensures var p := Decide(email, password).payload;
      AuthController.Login(users, Some(p.email), Some(p.password), matches).Success?
      || AuthController.Login(users, Some(p.email), Some(p.password), matches).code == 401
  {
    var p := Decide(email, password).payload;
    PatternHasAt(Text.Trim(email));
    assert Truthy(Some(p.email)) && Truthy(Some(p.password));
  }

  /** A password with a leading blank, accepted by the signup form and stored
      as typed, is sent trimmed at login, so the login fails whenever the
      comparison accepts a password only against its own hash. */
  lemma TrimmedPasswordIsRejected(users: seq<Store.User>, name: string, email: string, core: string, newId: string,
                                  hash: string -> string, matches: (string, string) -> bool)
    requires name != "" && EmailPattern(email) && Text.IsTrimmed(email)
    requires core != "" && Text.IsTrimmed(core)
    requires Store.FindByEmail(users, email).None?
    requires forall a, b :: matches(a, hash(b)) ==> a == b
    ensures var password := " " + core;
      var signup := SignupRoute.Decide(SignupRoute.Values(name, email, password, password));
      var stored := AuthController.Signup(users, AuthController.SignupRequest(Some(name), Some(email), Some(password)), newId, hash);
      var login := Decide(email, password);
      && signup.Send? && stored.1.Success?
      && login.Send? && login.payload.password == core
      && AuthController.Login(stored.0, Some(login.payload.email), Some(login.payload.password), matches)
         == Store.Failure(401, "Invalid credentials")
  {
    PatternHasAt(email);
    LoginSendsCore(email, core);
    StoredThenCoreFails(users, name, email, core, newId, hash, matches);
  }

  /** The login form sends the trimmed password. */
  lemma LoginSendsCore(email: string, core: string)
    requires EmailPattern(email) && Text.IsTrimmed(email)
    requires core != "" && Text.IsTrimmed(core)
    ensures Decide(email, " " + core) == Send(LoginPayload(email, core))
  {
    Text.TrimOfTrimmed(email);
    LeadingBlankTrimmed(core);
  }

  /** The backend stores the password with its blank, so the blank-less one is refused. */
  lemma StoredThenCoreFails(users: seq<Store.User>, name: string, email: string, core: string, newId: string,
                            hash: string -> string, matches: (string, string) -> bool)
    requires name != "" && email != "" && core != ""
    requires Store.FindByEmail(users, email).None?
    requires forall a, b :: matches(a, hash(b)) ==> a == b
    ensures var password := " " + core;
      var stored := AuthController.Signup(users, AuthController.SignupRequest(Some(name), Some(email), Some(password)), newId, hash);
      && SignupRoute.Decide(SignupRoute.Values(name, email, password, password)).Send?
      && stored.1.Success?
      && AuthController.Login(stored.0, Some(email), Some(core), matches) == Store.Failure(401, "Invalid credentials")
  {
    var password := " " + core;
    var u := Store.User(newId, name, email, hash(password));
    AuthController.FindAppended(users, u);
    assert password != core by {
      assert |password| != |core|;
    }
  }

  lemma LeadingBlankTrimmed(core: string)
    requires Text.IsTrimmed(core)
    ensures Text.Trim(" " + core) == core
  {
    Tags.TrimLeadingSpace(core);
    Text.TrimOfTrimmed(core);
  }

  /** `handleSubmit` sending the values as typed (the checks unchanged). */
  function DecideAsTyped(email: string, password: string): (d: LoginDecision)
    ensures d.Send? <==> EmailPattern(Text.Trim(email)) && Text.Trim(password) != ""
    ensures d.Blocked? ==> d == Decide(email, password)
    ensures d.Send? ==> d.payload == LoginPayload(email, password)
  {
    match Decide(email, password)
    case Blocked(errors, error) => Blocked(errors, error)
    case Send(_) => Send(LoginPayload(email, password))
  }

  /** With the values sent as typed, whoever signs up through the router
      client's form with an email the login pattern accepts and a non-blank
      password can log in through its login form with the same email and
      password, whenever the comparison accepts a password against its own
      hash. `BlankPasswordNeverLogsIn` shows the remaining signups. */
  lemma SignupThenLoginAsTyped(users: seq<Store.User>, v: SignupRoute.Values, newId: string,
                               hash: string -> string, matches: (string, string) -> bool)
    requires SignupRoute.Decide(v).Send?
    requires DecideAsTyped(v.email, v.password).Send?
    requires Store.FindByEmail(users, v.email).None?
    requires matches(v.password, hash(v.password))
    ensures var stored := AuthController.Signup(users, AuthController.SignupRequest(Some(v.name), Some(v.email), Some(v.password)), newId, hash);
      var p := DecideAsTyped(v.email, v.password).payload;
      AuthController.Login(stored.0, Some(p.email), Some(p.password), matches).Success?
  {
    AuthController.SignupThenLogin(users, v.name, v.email, v.password, newId, hash, matches);
  }

  /** The signup form accepts a password of blanks, which the login form
      refuses before any request, as typed or trimmed. */
  lemma BlankPasswordNeverLogsIn(name: string, email: string)
    requires name != "" && email != ""
    ensures SignupRoute.Decide(SignupRoute.Values(name, email, " ", " ")).Send?
    ensures Decide(email, " ").Blocked? && DecideAsTyped(email, " ").Blocked?
  {
    Text.TrimEmptyIff(" ");
  }
}

=== FILE: ordering.dfy ===
/** `Array.prototype.sort` with a comparator, which ECMAScript requires to be
    stable: a comparator result above zero puts the second argument first,
    anything else keeps the first argument first. */
module Ordering {

  /** What a consistent JavaScript comparator guarantees: swapping the
      arguments flips the sign, and "not after" is transitive. */
  ghost predicate Comparator<T(!new)>(cmp: (T, T) -> int) {
    && (forall a, b :: cmp(a, b) > 0 <==> cmp(b, a) < 0)
    && (forall a, b, c :: cmp(a, b) <= 0 && cmp(b, c) <= 0 ==> cmp(a, c) <= 0)
  }

  /** No element is ordered after a later one. */
  ghost predicate Sorted<T>(cmp: (T, T) -> int, xs: seq<T>) {
    forall i, j :: 0 <= i < j < |xs| ==> cmp(xs[i], xs[j]) <= 0
  }

  /** Inserts `x` after every element of `ys` that is not ordered after it. */
  function Insert<T>(cmp: (T, T) -> int, x: T, ys: seq<T>): (r: seq<T>)
    ensures |r| == |ys| + 1
    decreases |ys|
  {
    if |ys| == 0 then [x]
    else if cmp(ys[0], x) > 0 then [x] + ys
    else [ys[0]] + Insert(cmp, x, ys[1..])
  }

  /** Insertion adds exactly `x`. */
  lemma {:induction false} InsertPermutes<T>(cmp: (T, T) -> int, x: T, ys: seq<T>)
    ensures multiset(Insert(cmp, x, ys)) == multiset(ys) + multiset{x}
    decreases |ys|
  {
    if |ys| > 0 && cmp(ys[0], x) <= 0 {
      InsertPermutes(cmp, x, ys[1..]);
      assert ys == [ys[0]] + ys[1..];
    }
  }

  /** Stable insertion sort: `[...xs].sort(cmp)`. */
  function Sort<T>(cmp: (T, T) -> int, xs: seq<T>): (r: seq<T>)
    ensures |r| == |xs|
    decreases |xs|
  {
    if |xs| == 0 then []
    else Insert(cmp, xs[|xs| - 1], Sort(cmp, xs[..|xs| - 1]))
  }

  /** The sort is a permutation of its input. */
  lemma {:induction false} SortPermutes<T>(cmp: (T, T) -> int, xs: seq<T>)
    ensures multiset(Sort(cmp, xs)) == multiset(xs)
    decreases |xs|
  {
    if |xs| > 0 {
      var init, last := xs[..|xs| - 1], xs[|xs| - 1];
      SortPermutes(cmp, init);
      InsertPermutes(cmp, last, Sort(cmp, init));
      assert xs == init + [last];
    }
  }

  lemma {:induction false} InsertSorted<T(!new)>(cmp: (T, T) -> int, x: T, ys: seq<T>)
    requires Comparator(cmp)
    requires Sorted(cmp, ys)
    ensures Sorted(cmp, Insert(cmp, x, ys))
    decreases |ys|
  {
    if |ys| > 0 {
      var head, rest := ys[0], ys[1..];
      SortedTail(cmp, ys);
      if cmp(head, x) > 0 {
        InsertFrontSorted(cmp, x, ys);
      } else {
        InsertSorted(cmp, x, rest);
        InsertBounded(cmp, head, x, rest);
        ConsSorted(cmp, head, Insert(cmp, x, rest));
      }
    }
  }

  /** The tail of a sorted list is sorted and follows its head. */
  lemma SortedTail<T>(cmp: (T, T) -> int, ys: seq<T>)
    requires Sorted(cmp, ys) && |ys| > 0
    ensures Sorted(cmp, ys[1..])
    ensures forall j :: 0 <= j < |ys| - 1 ==> cmp(ys[0], ys[1..][j]) <= 0
  {
    var rest := ys[1..];
    forall i, j | 0 <= i < j < |rest| ensures cmp(rest[i], rest[j]) <= 0 {
      assert rest[i] == ys[i + 1] && rest[j] == ys[j + 1];
    }
    forall j | 0 <= j < |rest| ensures cmp(ys[0], rest[j]) <= 0 {
      assert rest[j] == ys[j + 1];
    }
  }

  /** An element the head of a sorted list is ordered after goes in front. */
  lemma InsertFrontSorted<T(!new)>(cmp: (T, T) -> int, x: T, ys: seq<T>)
    requires Comparator(cmp)
    requires Sorted(cmp, ys) && |ys| > 0
    requires cmp(ys[0], x) > 0
    ensures Sorted(cmp, [x] + ys)
  {
    assert cmp(x, ys[0]) < 0;
    forall j | 0 <= j < |ys| ensures cmp(x, ys[j]) <= 0 {
      if j > 0 { assert cmp(ys[0], ys[j]) <= 0; }
    }
    ConsSorted(cmp, x, ys);
  }

  /** An element ordered before every element of a sorted list may go in front. */
  lemma ConsSorted<T>(cmp: (T, T) -> int, x: T, ys: seq<T>)
    requires Sorted(cmp, ys)
    requires forall j :: 0 <= j < |ys| ==> cmp(x, ys[j]) <= 0
    ensures Sorted(cmp, [x] + ys)
  {
    var r := [x] + ys;
    forall i, j | 0 <= i < j < |r| ensures cmp(r[i], r[j]) <= 0 {
      assert r[j] == ys[j - 1];
      if i > 0 { assert r[i] == ys[i - 1]; }
    }
  }

  /** Whatever is ordered before `x` and before every element of `ys` is
      ordered before every element of the insertion. */
  lemma {:induction false} InsertBounded<T>(cmp: (T, T) -> int, b: T, x: T, ys: seq<T>)
    requires cmp(b, x) <= 0
    requires forall i :: 0 <= i < |ys| ==> cmp(b, ys[i]) <= 0
    ensures forall j :: 0 <= j < |ys| + 1 ==> cmp(b, Insert(cmp, x, ys)[j]) <= 0
    decreases |ys|
  {
    var r := Insert(cmp, x, ys);
    if |ys| > 0 && cmp(ys[0], x) <= 0 {
      InsertBounded(cmp, b, x, ys[1..]);
      assert r == [ys[0]] + Insert(cmp, x, ys[1..]);
    } else if |ys| > 0 {
      assert r == [x] + ys;
      forall j | 0 < j < |r| ensures cmp(b, r[j]) <= 0 {
        assert r[j] == ys[j - 1];
      }
    }
  }

  /** The sort orders its output whenever the comparator is consistent. */
  lemma {:induction false} SortSorted<T(!new)>(cmp: (T, T) -> int, xs: seq<T>)
    requires Comparator(cmp)
    ensures Sorted(cmp, Sort(cmp, xs))
    decreases |xs|
  {
    if |xs| > 0 {
      SortSorted(cmp, xs[..|xs| - 1]);
      InsertSorted(cmp, xs[|xs| - 1], Sort(cmp, xs[..|xs| - 1]));
    }
  }

  /** Inserting an element that nothing is ordered after appends it. */
  lemma {:induction false} InsertLast<T>(cmp: (T, T) -> int, x: T, ys: seq<T>)
    requires forall i :: 0 <= i < |ys| ==> cmp(ys[i], x) <= 0
    ensures Insert(cmp, x, ys) == ys + [x]
    decreases |ys|
  {
    if |ys| > 0 {
      InsertLast(cmp, x, ys[1..]);
      assert ys == [ys[0]] + ys[1..];
    }
  }

  /** An already ordered input is returned unchanged. */
  lemma {:induction false} SortOfSorted<T>(cmp: (T, T) -> int, xs: seq<T>)
    requires Sorted(cmp, xs)
    ensures Sort(cmp, xs) == xs
    decreases |xs|
  {
    if |xs| > 0 {
      var init, last := xs[..|xs| - 1], xs[|xs| - 1];
      forall i, j | 0 <= i < j < |init| ensures cmp(init[i], init[j]) <= 0 {
        assert init[i] == xs[i] && init[j] == xs[j];
      }
      SortOfSorted(cmp, init);
      forall i | 0 <= i < |init| ensures cmp(init[i], last) <= 0 {
        assert init[i] == xs[i];
      }
      InsertLast(cmp, last, init);
      assert xs == init + [last];
    }
  }

  /** The elements of `xs` the comparator calls equal to `k`, in list order. */
  function Ties<T>(cmp: (T, T) -> int, k: T, xs: seq<T>): (r: seq<T>)
    ensures |r| <= |xs|
    decreases |xs|
  {
    if |xs| == 0 then []
    else if cmp(k, xs[0]) == 0 then [xs[0]] + Ties(cmp, k, xs[1..])
    else Ties(cmp, k, xs[1..])
  }

  lemma {:induction false} TiesConcat<T>(cmp: (T, T) -> int, k: T, a: seq<T>, b: seq<T>)
    ensures Ties(cmp, k, a + b) == Ties(cmp, k, a) + Ties(cmp, k, b)
    decreases |a|
  {
    if |a| == 0 {
      assert a + b == b;
    } else {
      assert (a + b)[1..] == a[1..] + b;
      TiesConcat(cmp, k, a[1..], b);
    }
  }

  /** Stability: for every key, the elements equal to it come out in the
      order they went in. */
  lemma {:induction false} SortStable<T(!new)>(cmp: (T, T) -> int, xs: seq<T>, k: T)
    requires Comparator(cmp)
    ensures Ties(cmp, k, Sort(cmp, xs)) == Ties(cmp, k, xs)
    decreases |xs|
  {
    if |xs| > 0 {
      var init, last := xs[..|xs| - 1], xs[|xs| - 1];
      assert Sort(cmp, xs) == Insert(cmp, last, Sort(cmp, init));
      SortStable(cmp, init, k);
      InsertIntoSortStable(cmp, last, init, k);
      TiesConcat(cmp, k, init, [last]);
      assert xs == init + [last];
    }
  }

  /** Inserting into a sorted list appends `x` to the elements tied with it. */
  lemma InsertIntoSortStable<T(!new)>(cmp: (T, T) -> int, x: T, xs: seq<T>, k: T)
    requires Comparator(cmp)
    ensures Ties(cmp, k, Insert(cmp, x, Sort(cmp, xs))) == Ties(cmp, k, Sort(cmp, xs)) + Ties(cmp, k, [x])
  {
    SortSorted(cmp, xs);
    TiesComeFirst(cmp, x, Sort(cmp, xs), k);
    InsertStable(cmp, x, Sort(cmp, xs), k);
  }

  /** `x` is not ordered before anything up to an element that shares its key. */
  ghost predicate TiesFirst<T>(cmp: (T, T) -> int, x: T, ys: seq<T>, k: T) {
    cmp(k, x) == 0 ==>
      forall i, j :: 0 <= i <= j < |ys| && cmp(k, ys[j]) == 0 ==> cmp(ys[i], x) <= 0
  }

  /** In a sorted list, everything up to an element tied with `x` is not after `x`. */
  lemma TiesComeFirst<T(!new)>(cmp: (T, T) -> int, x: T, ys: seq<T>, k: T)
    requires Comparator(cmp) && Sorted(cmp, ys)
    ensures TiesFirst(cmp, x, ys, k)
  {
    if cmp(k, x) == 0 {
      forall i, j | 0 <= i <= j < |ys| && cmp(k, ys[j]) == 0 ensures cmp(ys[i], x) <= 0 {
        assert cmp(ys[j], k) <= 0;
        assert cmp(ys[j], x) <= 0;
        assert cmp(ys[i], ys[j]) <= 0;
      }
    }
  }

  /** Inserting puts `x` after every element equal to it. */
  lemma {:induction false} InsertStable<T>(cmp: (T, T) -> int, x: T, ys: seq<T>, k: T)
    requires TiesFirst(cmp, x, ys, k)
    ensures Ties(cmp, k, Insert(cmp, x, ys)) == Ties(cmp, k, ys) + Ties(cmp, k, [x])
    decreases |ys|
  {
    if |ys| == 0 {
      assert Insert(cmp, x, ys) == [x];
    } else if cmp(ys[0], x) > 0 {
      assert Insert(cmp, x, ys) == [x] + ys;
      TiesConcat(cmp, k, [x], ys);
      if cmp(k, x) == 0 {
        NoTies(cmp, k, ys);
      }
    } else {
      var head, rest := ys[0], ys[1..];
      assert Insert(cmp, x, ys) == [head] + Insert(cmp, x, rest);
      TiesFirstTail(cmp, x, ys, k);
      InsertStable(cmp, x, rest, k);
      TiesConcat(cmp, k, [head], Insert(cmp, x, rest));
      TiesConcat(cmp, k, [head], rest);
      assert ys == [head] + rest;
    }
  }

  /** `TiesFirst` survives dropping the head of the list. */
  lemma TiesFirstTail<T>(cmp: (T, T) -> int, x: T, ys: seq<T>, k: T)
    requires |ys| > 0 && TiesFirst(cmp, x, ys, k)
    ensures TiesFirst(cmp, x, ys[1..], k)
  {
    if cmp(k, x) == 0 {
      forall i, j | 0 <= i <= j < |ys[1..]| && cmp(k, ys[1..][j]) == 0 ensures cmp(ys[1..][i], x) <= 0 {
        assert ys[1..][i] == ys[i + 1] && ys[1..][j] == ys[j + 1];
      }
    }
  }

  /** A list without an element equal to `k` has no ties with it. */
  lemma {:induction false} NoTies<T>(cmp: (T, T) -> int, k: T, ys: seq<T>)
    requires forall j :: 0 <= j < |ys| ==> cmp(k, ys[j]) != 0
    ensures Ties(cmp, k, ys) == []
    decreases |ys|
  {
    if |ys| > 0 {
      NoTies(cmp, k, ys[1..]);
    }
  }
}

=== FILE: post_list.dfy ===
/** The list logic both profile pages share, over the loaded posts and the
    selected ids: the status filter, the selection toggles, removal after a
    delete, the undo merge, the in-place replacement after an update, and the
    edit form a post opens with. The two pages implement these identically. */
module PostList {
  import opened Wrappers
  import Posts
  import Seqs
  import Tags
  import Text

  /** `filteredPosts`: the whole list for "all", else the posts of one status in list order. */
  function FilterByStatus(posts: seq<Posts.Post>, f: Posts.StatusFilter): (r: seq<Posts.Post>)
    ensures f.AllStatuses? ==> r == posts
    ensures forall p :: p in r <==> p in posts && Posts.Shows(f, p)
    ensures |r| <= |posts|
  {
    if f.AllStatuses? then posts
    else Seqs.Filter((p: Posts.Post) => p.status == f.status, posts)
  }

  /** The filter commutes with concatenation, so the relative order of the shown posts is the list order. */
  lemma FilterByStatusConcat(a: seq<Posts.Post>, b: seq<Posts.Post>, f: Posts.StatusFilter)
    ensures FilterByStatus(a + b, f) == FilterByStatus(a, f) + FilterByStatus(b, f)
  {
    if f.OnlyStatus? {
      Seqs.FilterConcat((p: Posts.Post) => p.status == f.status, a, b);
    }
  }

  /** `toggleSelectPost`: a selected id is removed (every copy), any other id is appended. */
  function ToggleSelect(sel: seq<string>, id: string): (r: seq<string>)
    ensures id in sel ==> forall x :: x in r <==> x in sel && x != id
    ensures id !in sel ==> r == sel + [id]
    ensures id in r <==> id !in sel
  {
    if id in sel then Seqs.Filter((x: string) => x != id, sel) else sel + [id]
  }

  /** Toggling an unselected id twice restores the selection exactly. */
  lemma ToggleTwiceRestores(sel: seq<string>, id: string)
    requires id !in sel
    ensures ToggleSelect(ToggleSelect(sel, id), id) == sel
  {
    var keep := (x: string) => x != id;
    Seqs.FilterConcat(keep, sel, [id]);
    Seqs.FilterAll(keep, sel);
    assert Seqs.Filter(keep, [id]) == [];
  }

  /** A toggle never duplicates an id. */
  lemma ToggleKeepsDistinct(sel: seq<string>, id: string)
    requires Seqs.NoDups(sel)
    ensures Seqs.NoDups(ToggleSelect(sel, id))
  {
    if id in sel {
      NoDupsFilter((x: string) => x != id, sel);
    }
  }

  lemma {:induction false} NoDupsFilter<T(!new)>(p: T -> bool, xs: seq<T>)
    requires Seqs.NoDups(xs)
    ensures Seqs.NoDups(Seqs.Filter(p, xs))
    decreases |xs|
  {
    if |xs| > 0 {
      assert xs == [xs[0]] + xs[1..];
      assert Seqs.NoDups(xs[1..]) by {
        forall i, j | 0 <= i < j < |xs[1..]| ensures xs[1..][i] != xs[1..][j] {
          assert xs[1..][i] == xs[i + 1] && xs[1..][j] == xs[j + 1];
        }
      }
      NoDupsFilter(p, xs[1..]);
      Seqs.FilterConcat(p, [xs[0]], xs[1..]);
      assert xs[0] !in xs[1..];
    }
  }

  /** `isAllSelected`: a LENGTH comparison between the selection and the visible ids. */
  predicate IsAllSelected(visible: seq<string>, sel: seq<string>) {
    |visible| > 0 && |sel| == |visible|
  }

  /** While the selection holds distinct visible ids, the length test means
      exactly that every visible id is selected. */
  lemma AllSelectedMeansEveryVisible(visible: seq<string>, sel: seq<string>)
    requires Seqs.NoDups(visible) && Seqs.NoDups(sel)
    requires forall x :: x in sel ==> x in visible
    ensures IsAllSelected(visible, sel) <==> |visible| > 0 && forall x :: x in visible ==> x in sel
  {
    var vs := set x | x in visible;
    var ss := set x | x in sel;
    DistinctCard(visible);
    DistinctCard(sel);
    assert ss <= vs;
    if |sel| == |visible| {
      if ss != vs {
        var x :| x in vs && x !in ss;
        SubsetCard(ss, vs - {x});
      }
      assert forall x :: x in visible ==> x in vs;
    }
    if forall x :: x in visible ==> x in sel {
      assert vs <= ss;
      assert ss == vs;
      assert |sel| == |visible|;
    }
  }

  lemma SubsetCard<T>(a: set<T>, b: set<T>)
    requires a <= b
    ensures |a| <= |b|
    decreases b
  {
    if a != {} {
      var x :| x in a;
      SubsetCard(a - {x}, b - {x});
    }
  }

  /** A sequence of distinct elements has as many members as elements. */
  lemma {:induction false} DistinctCard<T(!new)>(xs: seq<T>)
    requires Seqs.NoDups(xs)
    ensures |set x | x in xs| == |xs|
    decreases |xs|
  {
    if |xs| > 0 {
      var init := xs[..|xs| - 1];
      var last := xs[|xs| - 1];
      assert Seqs.NoDups(init) by {
        forall i, j | 0 <= i < j < |init| ensures init[i] != init[j] {
          assert init[i] == xs[i] && init[j] == xs[j];
        }
      }
      DistinctCard(init);
      assert last !in init by {
        forall i | 0 <= i < |init| ensures init[i] != last {
          assert init[i] == xs[i];
        }
      }
      assert xs == init + [last];
      assert (set x | x in xs) == (set x | x in init) + {last};
    }
  }

  /** Without that invariant the length test can pass while a visible id is unselected. */
  lemma AllSelectedIsOnlyALengthTest()
    ensures IsAllSelected(["a"], ["b"]) && "a" !in ["b"]
  {
  }

  /** `toggleSelectAll`: clears when all are selected, else selects exactly the visible ids. */
  function ToggleSelectAll(visible: seq<string>, sel: seq<string>): (r: seq<string>)
    ensures IsAllSelected(visible, sel) ==> r == []
    ensures !IsAllSelected(visible, sel) ==> r == visible
  {
    if IsAllSelected(visible, sel) then [] else visible
  }

  /** Select-all followed by select-all returns to an empty selection. */
  lemma ToggleSelectAllTwice(visible: seq<string>, sel: seq<string>)
    requires |visible| > 0
    ensures ToggleSelectAll(visible, ToggleSelectAll(visible, sel)) == [] || ToggleSelectAll(visible, ToggleSelectAll(visible, sel)) == visible
    ensures !IsAllSelected(visible, sel) ==> ToggleSelectAll(visible, ToggleSelectAll(visible, sel)) == []
  {
  }

  /** `prev.filter((item) => !ids.includes(item._id))`: single delete passes one id. */
  function RemovePosts(posts: seq<Posts.Post>, ids: seq<string>): (r: seq<Posts.Post>)
    ensures forall p :: p in r <==> p in posts && p.id !in ids
    ensures forall p :: multiset(r)[p] == if p.id !in ids then multiset(posts)[p] else 0
    ensures |r| <= |posts|
  {
    Seqs.Filter((p: Posts.Post) => p.id !in ids, posts)
  }

  /** `prev.filter((id) => !ids.includes(id))` on the selection. */
  function RemoveSelected(sel: seq<string>, ids: seq<string>): (r: seq<string>)
    ensures forall x :: x in r <==> x in sel && x !in ids
    ensures forall x :: multiset(r)[x] == if x !in ids then multiset(sel)[x] else 0
    ensures |r| <= |sel|
  {
    Seqs.Filter((x: string) => x !in ids, sel)
  }

  /** The kept ids keep their relative order. */
  lemma RemoveSelectedConcat(a: seq<string>, b: seq<string>, ids: seq<string>)
    ensures RemoveSelected(a + b, ids) == RemoveSelected(a, ids) + RemoveSelected(b, ids)
  {
    Seqs.FilterConcat((x: string) => x !in ids, a, b);
  }

  /** Nothing else changes: a delete of ids that no post carries leaves the list as it was. */
  lemma RemoveUnknownIsIdentity(posts: seq<Posts.Post>, ids: seq<string>)
    requires forall p :: p in posts ==> p.id !in ids
    ensures RemovePosts(posts, ids) == posts
  {
    Seqs.FilterAll((p: Posts.Post) => p.id !in ids, posts);
  }

  /** Deleting splits over the list: the surviving posts keep their relative order. */
  lemma RemovePostsConcat(a: seq<Posts.Post>, b: seq<Posts.Post>, ids: seq<string>)
    ensures RemovePosts(a + b, ids) == RemovePosts(a, ids) + RemovePosts(b, ids)
  {
    Seqs.FilterConcat((p: Posts.Post) => p.id !in ids, a, b);
  }

  /** `openBulkDeleteModal`: the visible posts whose ids are selected. */
  function BulkCandidates(visible: seq<Posts.Post>, sel: seq<string>): (r: seq<Posts.Post>)
    ensures forall p :: p in r <==> p in visible && p.id in sel
    ensures forall p :: multiset(r)[p] == if p.id in sel then multiset(visible)[p] else 0
  {
    Seqs.Filter((p: Posts.Post) => p.id in sel, visible)
  }

  /** The candidates come in the order the posts are shown. */
  lemma BulkCandidatesConcat(a: seq<Posts.Post>, b: seq<Posts.Post>, sel: seq<string>)
    ensures BulkCandidates(a + b, sel) == BulkCandidates(a, sel) + BulkCandidates(b, sel)
  {
    Seqs.FilterConcat((p: Posts.Post) => p.id in sel, a, b);
  }

  /** The undo banner text after a delete. */
  function UndoMessage(deleted: seq<Posts.Post>): (m: string)
    ensures |deleted| == 1 ==> m == "Deleted \"" + deleted[0].title + "\""
    ensures |deleted| != 1 ==> m == Text.NatToString(|deleted|) + " posts deleted"
  {
    if |deleted| == 1 then "Deleted \"" + deleted[0].title + "\""
    else Text.NatToString(|deleted|) + " posts deleted"
  }

  /** The undo merge: the restored posts from the response, or the remembered
      ones when the response has none, minus those whose id is already
      listed, appended after the current list. */
  function MergeRestored(prev: seq<Posts.Post>, restored: seq<Posts.Post>, remembered: seq<Posts.Post>)
    : (r: seq<Posts.Post>)
    ensures |r| >= |prev| && r[..|prev|] == prev
    ensures |restored| > 0 ==> forall p :: p in r[|prev|..] <==> p in restored && p.id !in Posts.Ids(prev)
    ensures |restored| == 0 ==> forall p :: p in r[|prev|..] <==> p in remembered && p.id !in Posts.Ids(prev)
    // each source post is appended once, in source order: the suffix is the
    // source with the already listed ids deleted
    ensures |restored| > 0 ==> r[|prev|..] == RemovePosts(restored, Posts.Ids(prev))
    ensures |restored| == 0 ==> r[|prev|..] == RemovePosts(remembered, Posts.Ids(prev))
  {
    var source := if |restored| > 0 then restored else remembered;
    var added := RemovePosts(source, Posts.Ids(prev));
    assert (prev + added)[|prev|..] == added;
    prev + added
  }

  /** Undo after a delete, with an empty restore response, brings back every
      deleted post and keeps every post that was not deleted. */
  lemma UndoAfterDelete(posts: seq<Posts.Post>, deleted: seq<Posts.Post>)
    ensures var after := MergeRestored(RemovePosts(posts, Posts.Ids(deleted)), [], deleted);
      && (forall d :: d in deleted ==> d in after)
      && (forall p :: p in posts && p.id !in Posts.Ids(deleted) ==> p in after)
  {
    var ids := Posts.Ids(deleted);
    var kept := RemovePosts(posts, ids);
    var after := MergeRestored(kept, [], deleted);
    forall d | d in deleted ensures d in after {
      Posts.IdsMembership(deleted, d);
      forall i | 0 <= i < |kept| ensures Posts.Ids(kept)[i] != d.id {
        assert kept[i] in kept;
      }
      assert d in after[|kept|..];
    }
    forall p | p in posts && p.id !in ids ensures p in after {
      assert p in kept;
      assert after[..|kept|] == kept;
    }
  }

  /** `prev.map((item) => item._id === id ? updated : item)`: every post with
      the id becomes the updated post, every other post stays where it was. */
  function ReplaceById(posts: seq<Posts.Post>, id: string, updated: Posts.Post): (r: seq<Posts.Post>)
    ensures |r| == |posts|
    ensures forall i :: 0 <= i < |posts| && posts[i].id != id ==> r[i] == posts[i]
    ensures forall i :: 0 <= i < |posts| && posts[i].id == id ==> r[i] == updated
  {
    seq(|posts|, i requires 0 <= i < |posts| => if posts[i].id == id then updated else posts[i])
  }

  /** When the updated post keeps its id, the ids stay in place and a second
      replacement changes nothing. */
  lemma ReplaceByIdKeepsIds(posts: seq<Posts.Post>, updated: Posts.Post)
    ensures Posts.Ids(ReplaceById(posts, updated.id, updated)) == Posts.Ids(posts)
    ensures ReplaceById(ReplaceById(posts, updated.id, updated), updated.id, updated)
      == ReplaceById(posts, updated.id, updated)
  {
  }

  /** The edit form state: `tags` is the text of the tag input. */
  datatype EditForm = EditForm(title: string, status: Posts.Status, content: string, tags: string)

  /** The empty form `handleCancelEdit` resets to. */
  const EmptyForm := EditForm("", Posts.Draft, "", "")

  /** The first post with the id, as `Array.prototype.find` returns it. */
  function FindPost(posts: seq<Posts.Post>, id: string): (r: Option<Posts.Post>)
    ensures r.Some? ==> r.value in posts && r.value.id == id
    ensures r.None? <==> forall p :: p in posts ==> p.id != id
    decreases |posts|
  {
    if |posts| == 0 then None
    else if posts[0].id == id then Some(posts[0])
    else
      assert forall p :: p in posts ==> p == posts[0] || p in posts[1..];
      FindPost(posts[1..], id)
  }

  /** `handleEditPost`: a form filled from the post, tags joined with ", ";
      `None` leaves the page as it was when no post has the id. */
  function EditFormFor(posts: seq<Posts.Post>, id: string): (r: Option<EditForm>)
    ensures r.None? <==> forall p :: p in posts ==> p.id != id
    ensures r.Some? ==> exists p :: p in posts && p.id == id && r.value == EditForm(p.title, p.status, p.content, Tags.JoinTags(p.tags))
  {
    match FindPost(posts, id)
    case None => None
    case Some(p) => Some(EditForm(p.title, p.status, p.content, Tags.JoinTags(p.tags)))
  }

  /** The post count line of both profile pages. */
  function ProfileCountLabel(loading: bool, count: nat): (s: string)
    ensures loading ==> s == "Loading your posts..."
    ensures !loading && count == 0 ==> s == "You have no posts yet."
    ensures !loading && count == 1 ==> s == "You have 1 post."
    ensures !loading && count > 1 ==> s == "You have " + Text.NatToString(count) + " posts."
  {
    if loading then "Loading your posts..."
    else if count == 0 then "You have no posts yet."
    else if count == 1 then "You have 1 post."
    else "You have " + Text.NatToString(count) + " posts."
  }
}

=== FILE: posts.dfy ===
/** The Post record as the clients receive it (the `Post` type of both
    clients' post services), its status enum, and the orders the pages sort by. */
module Posts {
  import opened Wrappers
  import Ordering

  datatype Status = Draft | Published | Archived

  /** The wire spelling of a status. */
  function StatusName(s: Status): string {
    match s
    case Draft => "draft"
    case Published => "published"
    case Archived => "archived"
  }

  /** `["draft", "published", "archived"].includes(v)`, returning the status named. */
  function ParseStatus(v: string): (r: Option<Status>)
    ensures r.Some? <==> v in {"draft", "published", "archived"}
    ensures r.Some? ==> StatusName(r.value) == v
  {
    if v == "draft" then Some(Draft)
    else if v == "published" then Some(Published)
    else if v == "archived" then Some(Archived)
    else None
  }

  /** `isPostStatus(raw) ? raw : "draft"`: how both clients read a submitted
      status. */
  function CoerceStatus(raw: string): (s: Status)
    ensures raw in {"draft", "published", "archived"} ==> StatusName(s) == raw
    ensures raw !in {"draft", "published", "archived"} ==> s == Draft
  {
    ParseStatus(raw).GetOr(Draft)
  }

  /** Every status survives the round trip through its wire spelling. */
  lemma ParseStatusName(s: Status)
    ensures ParseStatus(StatusName(s)) == Some(s)
  {
  }

  /** A post's author: `null`, a bare id, or a populated object whose
      `_id`, `name` and `email` are each optional. */
  datatype Author =
    | NoAuthor
    | AuthorRef(ref: string)
    | AuthorInfo(id: Option<string>, name: Option<string>, email: Option<string>)

  /** Timestamps are whole milliseconds. */
  datatype Post = Post(
    id: string,
    title: string,
    content: string,
    status: Status,
    tags: seq<string>,
    deletedAt: Option<int>,
    author: Author,
    createdAt: int,
    updatedAt: int)

  /** `posts.map((post) => post._id)` */
  function Ids(posts: seq<Post>): (ids: seq<string>)
    ensures |ids| == |posts|
    ensures forall i :: 0 <= i < |posts| ==> ids[i] == posts[i].id
  {
    seq(|posts|, i requires 0 <= i < |posts| => posts[i].id)
  }

  lemma IdsMembership(posts: seq<Post>, p: Post)
    requires p in posts
    ensures p.id in Ids(posts)
  {
    var i :| 0 <= i < |posts| && posts[i] == p;
    assert Ids(posts)[i] == p.id;
  }

  /** The filter of the profile pages: every status, or one status. */
  datatype StatusFilter = AllStatuses | OnlyStatus(status: Status)

  predicate Shows(f: StatusFilter, p: Post) {
    f.AllStatuses? || p.status == f.status
  }

  /** Comparator of the "newest" order: `b.createdAt - a.createdAt`. */
  function NewestFirst(a: Post, b: Post): int {
    b.createdAt - a.createdAt
  }

  /** Comparator of the "oldest" order: `a.createdAt - b.createdAt`. */
  function OldestFirst(a: Post, b: Post): int {
    a.createdAt - b.createdAt
  }

  lemma NewestFirstIsComparator()
    ensures Ordering.Comparator(NewestFirst)
  {
  }

  lemma OldestFirstIsComparator()
    ensures Ordering.Comparator(OldestFirst)
  {
  }

  /** Sorted by the newest order means creation times never increase. */
  lemma NewestSortedMeansDescending(xs: seq<Post>)
    requires Ordering.Sorted(NewestFirst, xs)
    ensures forall i, j :: 0 <= i < j < |xs| ==> xs[i].createdAt >= xs[j].createdAt
  {
    forall i, j | 0 <= i < j < |xs| ensures xs[i].createdAt >= xs[j].createdAt {
      assert NewestFirst(xs[i], xs[j]) <= 0;
    }
  }
}

=== FILE: profile_page.dfy ===
/** The profile page of the original client: its tag-input key handler and
    its update handler. Filtering, selection, deletes and undo are the shared
    `PostList` functions. This page keeps duplicate tags. */
module ProfilePage {
  import opened Wrappers
  import Posts
  import Text
  import Tags
  import PostList

  /** The tags `handleTagKeyDown` keeps: the earlier comma-separated segments
      trimmed and stripped of empties, then the trimmed last segment if it is
      not empty. */
  function NextTags(raw: string): (tags: seq<string>)
    ensures Tags.AllClean(tags)
  {
    var segments := Text.Split(raw, ',');
    var candidate := Text.Trim(segments[|segments| - 1]);
    var existing := Tags.TrimNonEmpty(segments[..|segments| - 1]);
    assert ',' !in candidate by {
      Tags.TrimKeepsAbsent(segments[|segments| - 1], ',');
    }
    assert Tags.AllClean(existing) by {
      Tags.NoCommaSurvives(segments[..|segments| - 1]);
    }
    if candidate != "" then existing + [candidate] else existing
  }

  /** `handleTagKeyDown`, Enter only: the kept tags joined with ", " and
      followed by ", " unless nothing is left. */
  function TagKeyDown(key: string, raw: string): (r: Option<string>)
    ensures r.Some? <==> key == "Enter"
    ensures r.Some? ==> r.value == "" || (|r.value| >= 2 && r.value[|r.value| - 2..] == ", ")
  {
    if key != "Enter" then None
    else
      var formatted := Tags.JoinTags(NextTags(raw));
      Some(if formatted != "" then formatted + ", " else "")
  }

  /** Popping the last segment and pushing it back trimmed is the shared normaliser. */
  lemma NextTagsNormalises(raw: string)
    ensures NextTags(raw) == Tags.SplitTrimFilter(raw)
  {
    var segments := Text.Split(raw, ',');
    var init := segments[..|segments| - 1];
    var last := segments[|segments| - 1];
    assert segments == init + [last];
    Tags.TrimNonEmptyConcat(init, [last]);
    assert [last][1..] == [];
  }

  /** The handler is the shared normaliser followed by the pending-text
      rendering: the same tags the update handler would send. */
  lemma TagKeyDownNormalises(raw: string)
    ensures TagKeyDown("Enter", raw) == Some(Tags.PendingText(Tags.SplitTrimFilter(raw)))
  {
    NextTagsNormalises(raw);
    var next := Tags.SplitTrimFilter(raw);
    if next != [] {
      JoinStartsWithFirst(next);
    }
  }

  /** A ", "-joined list starts with its first element. */
  lemma JoinStartsWithFirst(parts: seq<string>)
    requires |parts| > 0
    ensures |Tags.JoinTags(parts)| >= |parts[0]|
    ensures Tags.JoinTags(parts)[..|parts[0]|] == parts[0]
  {
  }

  /** Pressing Enter again on the handler's own output changes nothing. */
  lemma TagKeyDownIdempotent(raw: string)
    ensures TagKeyDown("Enter", TagKeyDown("Enter", raw).value) == TagKeyDown("Enter", raw)
  {
    TagKeyDownNormalises(raw);
    Tags.NormalisePending(Tags.SplitTrimFilter(raw));
    TagKeyDownNormalises(Tags.PendingText(Tags.SplitTrimFilter(raw)));
  }

  /** No deduplication: a tag typed twice stays twice. */
  lemma TagKeyDownKeepsDuplicates(t: string)
    requires Tags.IsCleanTag(t)
    ensures TagKeyDown("Enter", t + "," + t) == Some(t + ", " + t + ", ")
  {
    var raw := t + "," + t;
    TagKeyDownNormalises(raw);
    assert Tags.SplitTrimFilter(raw) == [t, t] by {
      Tags.NormaliseAtComma(t, t);
      Tags.NormaliseClean(t);
    }
    assert Tags.PendingText([t, t]) == t + ", " + t + ", " by {
      assert [t, t][1..] == [t];
      assert Text.Join([t], ", ") == t;
      assert Text.Join([t, t], ", ") == t + ", " + Text.Join([t], ", ");
    }
  }

  /** The fields the update handler sends. */
  datatype UpdatePayload = UpdatePayload(title: string, status: Posts.Status, content: string, tags: seq<string>)

  datatype UpdateDecision = Reject(error: string) | Send(id: string, payload: UpdatePayload)

  /** `handleUpdatePost` up to the request: a blank title or content stops it
      with an error (this page's wording has no final period); otherwise the
      trimmed fields and the normalised tags, duplicates kept, are sent. */
  function DecideUpdate(form: PostList.EditForm, id: string): (d: UpdateDecision)
    ensures d.Reject? <==> Text.Trim(form.title) == "" || Text.Trim(form.content) == ""
    ensures d.Reject? ==> d.error == "Title and content are required"
    ensures d.Send? ==>
      && d.id == id
      && d.payload.title == Text.Trim(form.title) && d.payload.title != ""
      && d.payload.content == Text.Trim(form.content) && d.payload.content != ""
      && d.payload.status == form.status
      && Tags.AllClean(d.payload.tags)
      && |d.payload.tags| == |Tags.SplitTrimFilter(form.tags)|
      && d.payload.tags == Tags.SplitTrimFilter(form.tags)
  {
    if Text.Trim(form.title) == "" || Text.Trim(form.content) == "" then Reject("Title and content are required")
    else Send(id, UpdatePayload(Text.Trim(form.title), form.status, Text.Trim(form.content), Tags.SplitTrimFilter(form.tags)))
  }

  /** Opening a post in the editor and saving it unchanged sends back the
      post's own tags, provided they are clean. */
  lemma EditThenSaveKeepsTags(posts: seq<Posts.Post>, id: string)
    requires PostList.EditFormFor(posts, id).Some?
    requires forall p :: p in posts ==> Tags.AllClean(p.tags)
    requires DecideUpdate(PostList.EditFormFor(posts, id).value, id).Send?
    ensures exists p :: (p in posts && p.id == id
      && DecideUpdate(PostList.EditFormFor(posts, id).value, id).payload.tags == p.tags)
  {
    var p := PostList.FindPost(posts, id).value;
    Tags.NormaliseJoined(p.tags);
  }

  /** After a successful update the page replaces the posts carrying the
      edited id, the id the handler was called with. */
  function ApplyUpdated(posts: seq<Posts.Post>, id: string, updated: Posts.Post): (r: seq<Posts.Post>)
    ensures |r| == |posts|
    ensures forall i :: 0 <= i < |posts| ==> (posts[i].id == id ==> r[i] == updated) && (posts[i].id != id ==> r[i] == posts[i])
  {
    PostList.ReplaceById(posts, id, updated)
  }
}

=== FILE: profile_route.dfy ===
/** The profile route of the router client: status-filter parsing, the
    loader, the three action intents, the tag-input key handler and how the
    page applies an update reply. The list logic itself is in `PostList`. */
module ProfileRoute {
  import opened Wrappers
  import Posts
  import Text
  import Tags
  import Seqs
  import Url
  import PostList
  import PostController
  import Store

  /** `isStatusFilter`: the three statuses or "all". */
  predicate IsStatusFilter(v: Option<string>) {
    v.Some? && v.value in {"all", "draft", "published", "archived"}
  }

  /** The spelling of a filter in the URL and in the action form. */
  function FilterName(f: Posts.StatusFilter): string {
    match f
    case AllStatuses => "all"
    case OnlyStatus(s) => Posts.StatusName(s)
  }

  /** The loader's `isStatusFilter(statusParam) ? statusParam : "all"`. */
  function ParseStatusFilter(v: Option<string>): (f: Posts.StatusFilter)
    ensures f.OnlyStatus? <==> v.Some? && v.value in {"draft", "published", "archived"}
    ensures f.OnlyStatus? ==> Posts.StatusName(f.status) == v.value
    ensures IsStatusFilter(v) ==> FilterName(f) == v.value
  {
    if v.None? then Posts.AllStatuses
    else match Posts.ParseStatus(v.value)
      case Some(s) => Posts.OnlyStatus(s)
      case None => Posts.AllStatuses
  }

  /** Every filter survives the round trip through its spelling. */
  lemma ParseFilterName(f: Posts.StatusFilter)
    ensures ParseStatusFilter(Some(FilterName(f))) == f
    ensures IsStatusFilter(Some(FilterName(f)))
  {
  }

  /** The query the loader sends: the author, and the status unless the filter is "all". */
  function LoaderQuery(authorId: string, f: Posts.StatusFilter): (q: PostController.ListQuery)
    ensures q.author == Some(authorId)
    ensures q.status.None? <==> f.AllStatuses?
    ensures f.OnlyStatus? ==> q.status == Some(Posts.StatusName(f.status))
  {
    PostController.ListQuery(if f.AllStatuses? then None else Some(Posts.StatusName(f.status)), Some(authorId))
  }

  datatype LoaderData = LoaderData(
    posts: seq<Posts.Post>,
    error: string,
    filter: Posts.StatusFilter,
    authorId: Option<string>)

  /** `loader`. `fetch` is the post service call; it is consulted only when
      an author is present. */
  function Loader(author: Option<string>, status: Option<string>,
                  fetch: PostController.ListQuery -> Outcome<Option<seq<Posts.Post>>>): (d: LoaderData)
    ensures d.filter == ParseStatusFilter(status)
    ensures !Truthy(author) ==> d.posts == [] && d.error == "" && d.authorId.None?
    ensures Truthy(author) ==> d.authorId == author
    ensures Truthy(author) && fetch(LoaderQuery(author.value, d.filter)).Done?
      ==> d.error == "" && d.posts == fetch(LoaderQuery(author.value, d.filter)).value.GetOr([])
    ensures Truthy(author) && fetch(LoaderQuery(author.value, d.filter)).Thrown?
      ==> d.posts == [] && d.error == ErrorText(fetch(LoaderQuery(author.value, d.filter)).message, "Failed to load posts")
  {
    var filter := ParseStatusFilter(status);
    if !Truthy(author) then LoaderData([], "", filter, None)
    else match fetch(LoaderQuery(author.value, filter))
      case Done(posts) => LoaderData(posts.GetOr([]), "", filter, author)
      case Thrown(message) => LoaderData([], ErrorText(message, "Failed to load posts"), filter, author)
  }

  /** The loader never sends a status the backend rejects: with a well-formed
      author id its query succeeds, and every post it lists has the filter's status. */
  lemma LoaderQueryAccepted(db: Store.Db, authorId: string, f: Posts.StatusFilter, validId: string -> bool)
    requires authorId != "" && validId(authorId)
    ensures PostController.GetPosts(db, LoaderQuery(authorId, f), validId).Success?
    ensures f.OnlyStatus? ==>
      forall p :: p in PostController.GetPosts(db, LoaderQuery(authorId, f), validId).value ==> p.status == f.status
  {
    if f.OnlyStatus? {
      Posts.ParseStatusName(f.status);
      var q := LoaderQuery(authorId, f);
      var r := PostController.GetPosts(db, q, validId);
      var all := Store.PopulateAll(db.users, PostController.Matching(db.posts, q));
      forall p | p in r.value ensures p.status == f.status {
        assert p in multiset(all);
        var i :| 0 <= i < |all| && all[i] == p;
        assert PostController.Matching(db.posts, q)[i] in PostController.Matching(db.posts, q);
        StatusNameInjective(PostController.Matching(db.posts, q)[i].status, f.status);
      }
    }
  }

  lemma StatusNameInjective(a: Posts.Status, b: Posts.Status)
    requires Posts.StatusName(a) == Posts.StatusName(b)
    ensures a == b
  {
    Posts.ParseStatusName(a);
    Posts.ParseStatusName(b);
  }

  /** How a status form value changes the `status` parameter: "all" removes
      it, a status sets it, anything else leaves it alone. */
  function ApplyStatus(params: Url.Params, status: FormValue): (r: Url.Params)
    ensures status == Text("all") ==> "status" !in r
    ensures status.Text? && Posts.ParseStatus(status.s).Some? ==> Url.Get(r, "status") == Some(status.s)
    ensures !IsStatusFilter(if status.Text? then Some(status.s) else None) ==> r == params
    ensures Url.SameExcept(params, r, {"status"})
  {
    if status.Text? && IsStatusFilter(Some(status.s)) then
      if status.s == "all" then params - {"status"} else params["status" := status.s]
    else params
  }

  /** The `set-author` intent: a non-empty text author id is set, anything
      else removes the `author` parameter; the status is applied as above. */
  function SetAuthor(params: Url.Params, authorId: FormValue, status: FormValue): (r: Url.Params)
    ensures authorId.Text? && authorId.s != "" ==> Url.Get(r, "author") == Some(authorId.s)
    ensures !(authorId.Text? && authorId.s != "") ==> "author" !in r
    ensures Url.Get(r, "status") == Url.Get(ApplyStatus(params, status), "status")
    ensures Url.SameExcept(params, r, {"author", "status"})
  {
    var withAuthor := if authorId.Text? && authorId.s != "" then params["author" := authorId.s] else params - {"author"};
    ApplyStatus(withAuthor, status)
  }

  /** The `set-status` intent redirects only for a valid filter value; for
      any other value the action answers `null` (`None`). */
  function SetStatus(params: Url.Params, status: FormValue): (r: Option<Url.Params>)
    ensures r.Some? <==> status.Text? && IsStatusFilter(Some(status.s))
    ensures r.Some? ==> r.value == ApplyStatus(params, status)
  {
    if status.Text? && IsStatusFilter(Some(status.s)) then Some(ApplyStatus(params, status)) else None
  }

  /** Choosing a filter and reloading shows that filter: the loader reads
      back exactly what `set-status` wrote. */
  lemma SetStatusThenLoad(params: Url.Params, f: Posts.StatusFilter)
    ensures SetStatus(params, Text(FilterName(f))).Some?
    ensures ParseStatusFilter(Url.Get(SetStatus(params, Text(FilterName(f))).value, "status")) == f
  {
    ParseFilterName(f);
  }

  /** The fields the `update-post` intent sends. */
  datatype UpdatePayload = UpdatePayload(title: string, status: Posts.Status, content: string, tags: seq<string>)

  /** The gate of the `update-post` intent: rejected before any request, or sent. */
  datatype UpdateDecision =
    | Reject(postId: string, error: string, values: Option<PostList.EditForm>)
    | Send(postId: string, payload: UpdatePayload, token: string, form: PostList.EditForm)

  /** The normalised form the action echoes back: trimmed title and content,
      coerced status, deduplicated tags joined with ", ". */
  function NormalisedValues(title: string, content: string, status: string, tags: string): (v: PostList.EditForm)
    ensures v.title == Text.Trim(title) && v.content == Text.Trim(content)
    ensures v.status == Posts.CoerceStatus(status)
    ensures v.tags == Tags.JoinTags(Tags.SplitTrimDedupe(tags))
    ensures Tags.SplitTrimDedupe(v.tags) == Tags.SplitTrimDedupe(tags)
  {
    var uniq := Tags.SplitTrimDedupe(tags);
    Tags.DedupeJoinedIsStable(uniq);
    PostList.EditForm(Text.Trim(title), Posts.CoerceStatus(status), Text.Trim(content), Tags.JoinTags(uniq))
  }

  predicate ValidPostId(postId: FormValue) {
    postId.Text? && Text.Trim(postId.s) != ""
  }

  function DecideUpdate(postId: FormValue, title: FormValue, content: FormValue, status: FormValue,
                        tags: FormValue, token: Option<string>): (d: UpdateDecision)
    ensures !ValidPostId(postId) ==> d == Reject("", "Invalid post selection.", None)
    ensures ValidPostId(postId) ==> d.postId == postId.s
    ensures ValidPostId(postId) && (Text.Trim(title.TextOrEmpty()) == "" || Text.Trim(content.TextOrEmpty()) == "")
      ==> d.Reject? && d.error == "Title and content are required." && d.values.Some?
    ensures ValidPostId(postId) && Text.Trim(title.TextOrEmpty()) != "" && Text.Trim(content.TextOrEmpty()) != ""
      && !Truthy(token)
      ==> d.Reject? && d.error == "You must be signed in to update a post." && d.values.Some?
    ensures d.Send? <==>
      ValidPostId(postId) && Text.Trim(title.TextOrEmpty()) != ""
      && Text.Trim(content.TextOrEmpty()) != "" && Truthy(token)
    ensures d.Send? ==>
      && d.payload.title == Text.Trim(title.TextOrEmpty()) && d.payload.title != ""
      && d.payload.content == Text.Trim(content.TextOrEmpty()) && d.payload.content != ""
      && d.payload.status == Posts.CoerceStatus(status.TextOrEmpty())
      && Tags.AllClean(d.payload.tags) && Seqs.NoDups(d.payload.tags)
      && (forall t :: t in d.payload.tags <==> t in Tags.SplitTrimFilter(tags.TextOrEmpty()))
      && d.payload.tags == Tags.SplitTrimDedupe(tags.TextOrEmpty())
      && d.token == token.value
    ensures d.Send? ==>
      d.form == NormalisedValues(title.TextOrEmpty(), content.TextOrEmpty(), status.TextOrEmpty(), tags.TextOrEmpty())
    ensures d.Reject? && d.values.Some? ==>
      d.values.value == NormalisedValues(title.TextOrEmpty(), content.TextOrEmpty(), status.TextOrEmpty(), tags.TextOrEmpty())
  {
    if !ValidPostId(postId) then Reject("", "Invalid post selection.", None)
    else
      var values := NormalisedValues(title.TextOrEmpty(), content.TextOrEmpty(), status.TextOrEmpty(), tags.TextOrEmpty());
      if values.title == "" || values.content == "" then
        Reject(postId.s, "Title and content are required.", Some(values))
      else if !Truthy(token) then
        Reject(postId.s, "You must be signed in to update a post.", Some(values))
      else
        Send(postId.s, UpdatePayload(values.title, values.status, values.content,
                                     Tags.SplitTrimDedupe(tags.TextOrEmpty())), token.value, values)
  }

  /** Re-submitting the echoed values unchanged yields the same payload tags. */
  lemma EchoedTagsAreStable(postId: FormValue, title: FormValue, content: FormValue, status: FormValue,
                            tags: FormValue, token: Option<string>)
    requires DecideUpdate(postId, title, content, status, tags, token).Send?
    ensures var d := DecideUpdate(postId, title, content, status, tags, token);
      Tags.SplitTrimDedupe(d.form.tags) == d.payload.tags
  {
    var d := DecideUpdate(postId, title, content, status, tags, token);
    Tags.DedupeJoinedIsStable(d.payload.tags);
  }

  /** What the `update-post` intent returns to the page. */
  datatype UpdateData = UpdateData(postId: string, post: Option<Posts.Post>, error: Option<string>,
                                   values: Option<PostList.EditForm>)

  /** The `update-post` intent; `send` is the update request and is consulted
      only for a `Send` decision. */
  function UpdatePostAction(postId: FormValue, title: FormValue, content: FormValue, status: FormValue,
                            tags: FormValue, token: Option<string>,
                            send: (string, UpdatePayload, string) -> Outcome<Posts.Post>): (r: UpdateData)
    ensures DecideUpdate(postId, title, content, status, tags, token).Reject? ==>
      var d := DecideUpdate(postId, title, content, status, tags, token);
      r == UpdateData(d.postId, None, Some(d.error), d.values)
    ensures DecideUpdate(postId, title, content, status, tags, token).Send? ==>
      var d := DecideUpdate(postId, title, content, status, tags, token);
      && r.postId == d.postId
      && (send(d.postId, d.payload, d.token).Done? ==> r.post == Some(send(d.postId, d.payload, d.token).value) && r.error.None?)
      && (send(d.postId, d.payload, d.token).Thrown? ==>
            r.post.None? && r.values == Some(d.form)
            && r.error == Some(ErrorText(send(d.postId, d.payload, d.token).message, "Failed to update the post.")))
  {
    match DecideUpdate(postId, title, content, status, tags, token)
    case Reject(id, error, values) => UpdateData(id, None, Some(error), values)
    case Send(id, payload, tok, values) =>
      match send(id, payload, tok)
      case Done(post) => UpdateData(id, Some(post), None, None)
      case Thrown(message) => UpdateData(id, None, Some(ErrorText(message, "Failed to update the post.")), Some(values))
  }

  /** The page's edit state: the post being edited, the form and the error line. */
  datatype EditState = EditState(editing: Option<string>, form: PostList.EditForm, error: string)

  /** How the page applies an update reply: a returned post replaces the
      posts with its id and closes the editor; otherwise the reply's id,
      values and error are taken over where present. */
  function ApplyUpdate(posts: seq<Posts.Post>, st: EditState, data: UpdateData): (out: (seq<Posts.Post>, EditState))
    ensures data.post.Some? && data.postId != "" ==>
      out == (PostList.ReplaceById(posts, data.post.value.id, data.post.value), EditState(None, PostList.EmptyForm, ""))
    ensures !(data.post.Some? && data.postId != "") ==> out.0 == posts
    ensures !(data.post.Some? && data.postId != "") ==>
      && out.1.editing == (if data.postId != "" then Some(data.postId) else st.editing)
      && out.1.form == (if data.values.Some? then data.values.value else st.form)
      && out.1.error == (if data.error.Some? && data.error.value != "" then data.error.value else st.error)
  {
    if data.post.Some? && data.postId != "" then
      (PostList.ReplaceById(posts, data.post.value.id, data.post.value), EditState(None, PostList.EmptyForm, ""))
    else
      var editing := if data.postId != "" then Some(data.postId) else st.editing;
      var form := if data.values.Some? then data.values.value else st.form;
      var error := if data.error.Some? && data.error.value != "" then data.error.value else st.error;
      (posts, EditState(editing, form, error))
  }

  /** `handleTagKeyDown`: on Enter or "," the input becomes the deduplicated
      tags joined with ", " plus a trailing ", ", or "" when there are none,
      and the form error is cleared (the second component). */
  function TagKeyDown(key: string, raw: string): (r: Option<(string, string)>)
    ensures r.Some? <==> key == "Enter" || key == ","
    ensures r.Some? ==> (r.value.0 == "" <==> Tags.SplitTrimFilter(raw) == [])
    ensures r.Some? && r.value.0 != "" ==> |r.value.0| >= 2 && r.value.0[|r.value.0| - 2..] == ", "
    ensures r.Some? ==> r.value.0 == Tags.PendingText(Tags.SplitTrimDedupe(raw))
    ensures r.Some? ==> r.value.1 == ""
  {
    if key != "Enter" && key != "," then None
    else
      var uniq := Tags.SplitTrimDedupe(raw);
      assert uniq == [] <==> Tags.SplitTrimFilter(raw) == [] by {
        if Tags.SplitTrimFilter(raw) != [] {
          assert Tags.SplitTrimFilter(raw)[0] in uniq;
        }
      }
      Some((Tags.PendingText(uniq), ""))
  }

  /** The key handler is idempotent and keeps the tag set: pressing the key
      again on its own output changes nothing. */
  lemma TagKeyDownIdempotent(key: string, raw: string)
    requires key == "Enter" || key == ","
    ensures TagKeyDown(key, TagKeyDown(key, raw).value.0) == TagKeyDown(key, raw)
    ensures Tags.SplitTrimDedupe(TagKeyDown(key, raw).value.0) == Tags.SplitTrimDedupe(raw)
  {
    var uniq := Tags.SplitTrimDedupe(raw);
    Tags.NormalisePending(uniq);
    Seqs.DedupeOfDistinct(uniq);
  }
}

=== FILE: seqs.dfy ===
/** Sequence helpers for the array idioms the source uses:
    `filter`, and `Array.from(new Set(xs))` (dedupe keeping first occurrences). */
module Seqs {

  /** `xs.filter(p)`: the elements satisfying `p`, in their original order. */
  function Filter<T(!new)>(p: T -> bool, xs: seq<T>): (r: seq<T>)
    ensures |r| <= |xs|
    ensures forall x :: x in r <==> x in xs && p(x)
    ensures multiset(r) <= multiset(xs)
    ensures forall x :: multiset(r)[x] == if p(x) then multiset(xs)[x] else 0
    decreases |xs|
  {
    if |xs| == 0 then []
    else
      var rest := Filter(p, xs[1..]);
      assert xs == [xs[0]] + xs[1..];
      if p(xs[0]) then [xs[0]] + rest else rest
  }

  /** One step of the filter: the head is kept exactly when it satisfies `p`. */
  lemma FilterCons<T(!new)>(p: T -> bool, xs: seq<T>)
    requires |xs| > 0
    ensures Filter(p, xs) == if p(xs[0]) then [xs[0]] + Filter(p, xs[1..]) else Filter(p, xs[1..])
  {
  }

  /** Filtering commutes with concatenation, so filtering keeps relative order. */
  lemma {:induction false} FilterConcat<T(!new)>(p: T -> bool, a: seq<T>, b: seq<T>)
    ensures Filter(p, a + b) == Filter(p, a) + Filter(p, b)
    decreases |a|
  {
    if |a| == 0 {
      assert a + b == b;
    } else {
      assert (a + b)[1..] == a[1..] + b;
      FilterConcat(p, a[1..], b);
    }
  }

  /** A filter whose predicate holds everywhere returns its input unchanged. */
  lemma {:induction false} FilterAll<T(!new)>(p: T -> bool, xs: seq<T>)
    requires forall x :: x in xs ==> p(x)
    ensures Filter(p, xs) == xs
    decreases |xs|
  {
    if |xs| > 0 {
      FilterAll(p, xs[1..]);
    }
  }

  /** No element occurs twice. */
  predicate NoDups<T(!new,==)>(xs: seq<T>) {
    forall i, j :: 0 <= i < j < |xs| ==> xs[i] != xs[j]
  }

  /** `Array.from(new Set(xs))`: a JavaScript Set remembers insertion order and
      ignores re-insertions, so each element is kept at its first occurrence. */
  function Dedupe<T(!new,==)>(xs: seq<T>): (r: seq<T>)
    ensures NoDups(r)
    ensures forall x :: x in r <==> x in xs
    ensures |r| <= |xs|
    decreases |xs|
  {
    if |xs| == 0 then []
    else
      var r := Dedupe(xs[..|xs| - 1]);
      var x := xs[|xs| - 1];
      assert forall y :: y in xs <==> y in xs[..|xs| - 1] || y == x by {
        assert xs == xs[..|xs| - 1] + [x];
      }
      if x in r then r else r + [x]
  }

  /** A sequence without duplicates is its own dedupe. */
  lemma {:induction false} DedupeOfDistinct<T(!new)>(xs: seq<T>)
    requires NoDups(xs)
    ensures Dedupe(xs) == xs
    decreases |xs|
  {
    if |xs| > 0 {
      var init := xs[..|xs| - 1];
      assert NoDups(init);
      DedupeOfDistinct(init);
      assert xs[|xs| - 1] !in init;
      assert xs == init + [xs[|xs| - 1]];
    }
  }

  /** Appending to a duplicate-free sequence and deduping adds the element only if it is new. */
  lemma DedupeAppend<T(!new)>(xs: seq<T>, x: T)
    requires NoDups(xs)
    ensures Dedupe(xs + [x]) == if x in xs then xs else xs + [x]
  {
    var ys := xs + [x];
    assert ys[..|ys| - 1] == xs;
    DedupeOfDistinct(xs);
  }

  /** Deduping twice is deduping once. */
  lemma DedupeIdempotent<T(!new)>(xs: seq<T>)
    ensures Dedupe(Dedupe(xs)) == Dedupe(xs)
  {
    DedupeOfDistinct(Dedupe(xs));
  }

  /** Index of the first occurrence of `x` in `xs`. */
  function FirstIndex<T(!new,==)>(xs: seq<T>, x: T): (i: nat)
    requires x in xs
    ensures i < |xs| && xs[i] == x
    ensures forall k :: 0 <= k < i ==> xs[k] != x
  {
    if xs[0] == x then 0 else 1 + FirstIndex(xs[1..], x)
  }

  /** `DedupeFirstOccurrenceOrder` for every pair of positions at once. */
  lemma DedupeInFirstOccurrenceOrder<T(!new)>(xs: seq<T>)
    ensures forall i, j :: 0 <= i < j < |Dedupe(xs)| ==> FirstIndex(xs, Dedupe(xs)[i]) < FirstIndex(xs, Dedupe(xs)[j])
  {
    forall i, j | 0 <= i < j < |Dedupe(xs)|
      ensures FirstIndex(xs, Dedupe(xs)[i]) < FirstIndex(xs, Dedupe(xs)[j])
    {
      DedupeFirstOccurrenceOrder(xs, i, j);
    }
  }

  /** Dedupe lists elements in the order of their first occurrences. */
  lemma {:induction false} DedupeFirstOccurrenceOrder<T(!new)>(xs: seq<T>, i: nat, j: nat)
    requires i < j < |Dedupe(xs)|
    ensures FirstIndex(xs, Dedupe(xs)[i]) < FirstIndex(xs, Dedupe(xs)[j])
    decreases |xs|
  {
    var init := xs[..|xs| - 1];
    var x := xs[|xs| - 1];
    var r := Dedupe(init);
    assert xs == init + [x];
    FirstIndexOfPrefix(init, x, Dedupe(xs)[i]);
    if j < |r| {
      DedupeFirstOccurrenceOrder(init, i, j);
      FirstIndexOfPrefix(init, x, Dedupe(xs)[j]);
    } else {
      // the last element is x, which does not occur in init
      assert Dedupe(xs)[j] == x && x !in init;
      assert FirstIndex(xs, x) == |init| by {
        FirstIndexLast(init, x);
      }
    }
  }

  /** First occurrences inside a prefix are unaffected by what follows. */
  lemma {:induction false} FirstIndexOfPrefix<T(!new)>(init: seq<T>, x: T, y: T)
    requires y in init
    ensures FirstIndex(init + [x], y) == FirstIndex(init, y)
    ensures FirstIndex(init, y) < |init|
    decreases |init|
  {
    if init[0] != y {
      assert (init + [x])[1..] == init[1..] + [x];
      FirstIndexOfPrefix(init[1..], x, y);
    }
  }

  /** An element absent from `init` first occurs at the appended position. */
  lemma {:induction false} FirstIndexLast<T(!new)>(init: seq<T>, x: T)
    requires x !in init
    ensures FirstIndex(init + [x], x) == |init|
    decreases |init|
  {
    if |init| > 0 {
      assert (init + [x])[1..] == init[1..] + [x];
      FirstIndexLast(init[1..], x);
    }
  }
}

=== FILE: signup_page.dfy ===
/** The signup page of the original client: field validation by input name
    and the submit gate. The page has no password match check. */
module SignupPage {
  import SignupRoute

  /** `validateField`: one message per known input name for an empty value;
      any other name, and any non-empty value, passes. */
  function ValidateField(name: string, value: string): (e: string)
    ensures e != "" ==> value == "" && name in {"name", "email", "password", "confirm"}
    ensures value == "" && name == "name" ==> e == "Name is required"
    ensures value == "" && name == "email" ==> e == "Email is required"
    ensures value == "" && name == "password" ==> e == "Password is required"
    ensures value == "" && name == "confirm" ==> e == "Confirm password is required"
  {
    if value != "" then ""
    else if name == "name" then "Name is required"
    else if name == "email" then "Email is required"
    else if name == "password" then "Password is required"
    else if name == "confirm" then "Confirm password is required"
    else ""
  }

  /** The two clients' field validators agree on every field. */
  lemma ValidateFieldMatchesRoute(f: SignupRoute.Field, value: string)
    ensures ValidateField(SignupRoute.Key(f), value) == SignupRoute.ValidateField(f, value)
  {
    SignupRoute.RequiredMessages();
  }

  /** The errors a submit writes: each field validated on its own. */
  function SubmitErrors(v: SignupRoute.Values): (e: SignupRoute.Errors)
    ensures forall f :: SignupRoute.ErrorOf(e, f) == SignupRoute.ValidateField(f, SignupRoute.ValueOf(v, f))
  {
    ValidateFieldMatchesRoute(SignupRoute.Name, v.name);
    ValidateFieldMatchesRoute(SignupRoute.Email, v.email);
    ValidateFieldMatchesRoute(SignupRoute.Password, v.password);
    ValidateFieldMatchesRoute(SignupRoute.Confirm, v.confirm);
    SignupRoute.Errors(ValidateField("name", v.name), ValidateField("email", v.email),
                       ValidateField("password", v.password), ValidateField("confirm", v.confirm))
  }

  /** `handleSubmit` as written: the errors it writes, and whether it sends.
      The gate reads `shown`, the errors on screen when the submit began,
      because the state updates of this submit are not yet applied. */
  function SubmitAsWritten(v: SignupRoute.Values, shown: SignupRoute.Errors): (r: (SignupRoute.Errors, bool))
    ensures r.0 == SubmitErrors(v)
    ensures r.1 <==> !SignupRoute.HasErrors(shown)
  {
    (SubmitErrors(v), !SignupRoute.HasErrors(shown))
  }

  /** On a fresh page, submitting the empty form sends the request although
      every field is reported missing. */
  lemma StaleGateSendsEmptyForm()
    ensures var blank := SignupRoute.Values("", "", "", "");
      var r := SubmitAsWritten(blank, SignupRoute.NoErrors);
      r.1 && forall f :: SignupRoute.ErrorOf(r.0, f) != ""
  {
  }

  /** After a rejected submit, a corrected form is still blocked once. */
  lemma StaleGateBlocksCorrectedForm(v: SignupRoute.Values)
    requires v.name != "" && v.email != "" && v.password != "" && v.confirm != ""
    ensures var first := SubmitAsWritten(SignupRoute.Values("", "", "", ""), SignupRoute.NoErrors);
      !SubmitAsWritten(v, first.0).1 && !SignupRoute.HasErrors(SubmitErrors(v))
  {
    SignupRoute.RequiredMessages();
  }

  /** `handleSubmit` gating on the errors it has just computed. */
  function Submit(v: SignupRoute.Values): (r: (SignupRoute.Errors, bool))
    ensures r.0 == SubmitErrors(v)
    ensures r.1 <==> v.name != "" && v.email != "" && v.password != "" && v.confirm != ""
  {
    var errors := SubmitErrors(v);
    (errors, !SignupRoute.HasErrors(errors))
  }

  /** With the corrected gate this page sends no more than the router
      client's form, which also demands matching passwords. */
  lemma RouteGateIsStricter(v: SignupRoute.Values)
    requires SignupRoute.Decide(v).Send?
    ensures Submit(v).1
  {
  }
}

=== FILE: signup_route.dfy ===
/** The signup route of the router client: field validation, the password
    match check, the errors of a submit and of a live edit, and the gate
    before the signup request. */
module SignupRoute {
  import AuthController
  import opened Wrappers

  datatype Field = Name | Email | Password | Confirm

  datatype Values = Values(name: string, email: string, password: string, confirm: string)

  datatype Errors = Errors(name: string, email: string, password: string, confirm: string)

  const NoErrors := Errors("", "", "", "")

  /** The form key of a field, as the inputs name it. */
  function Key(f: Field): string {
    match f
    case Name => "name"
    case Email => "email"
    case Password => "password"
    case Confirm => "confirm"
  }

  function ValueOf(v: Values, f: Field): string {
    match f
    case Name => v.name
    case Email => v.email
    case Password => v.password
    case Confirm => v.confirm
  }

  function ErrorOf(e: Errors, f: Field): string {
    match f
    case Name => e.name
    case Email => e.email
    case Password => e.password
    case Confirm => e.confirm
  }

  /** `{ ...prev, [key]: value }` */
  function WithValue(v: Values, f: Field, value: string): (r: Values)
    ensures ValueOf(r, f) == value
    ensures forall g :: g != f ==> ValueOf(r, g) == ValueOf(v, g)
  {
    match f
    case Name => v.(name := value)
    case Email => v.(email := value)
    case Password => v.(password := value)
    case Confirm => v.(confirm := value)
  }

  /** `nextErrors[key] = error` */
  function WithError(e: Errors, f: Field, error: string): (r: Errors)
    ensures ErrorOf(r, f) == error
    ensures forall g :: g != f ==> ErrorOf(r, g) == ErrorOf(e, g)
  {
    match f
    case Name => e.(name := error)
    case Email => e.(email := error)
    case Password => e.(password := error)
    case Confirm => e.(confirm := error)
  }

  /** `charAt(0).toUpperCase() + slice(1)` on a lower-case ASCII key. */
  function Capitalised(key: string): string {
    if |key| == 0 then ""
    else if 'a' <= key[0] <= 'z' then [(key[0] as int - 32) as char] + key[1..]
    else key
  }

  /** `validateField`: an empty value is an error, any other value, blanks
      included, is fine. */
  function ValidateField(f: Field, value: string): (e: string)
    ensures e == "" <==> value != ""
  {
    if value != "" then ""
    else if f == Confirm then "Confirm password is required"
    else Capitalised(Key(f)) + " is required"
  }

  /** The four messages a missing value gets. */
  lemma RequiredMessages()
    ensures ValidateField(Name, "") == "Name is required"
    ensures ValidateField(Email, "") == "Email is required"
    ensures ValidateField(Password, "") == "Password is required"
    ensures ValidateField(Confirm, "") == "Confirm password is required"
  {
    NameRequired();
    EmailRequired();
    PasswordRequired();
  }

  lemma NameRequired()
    ensures ValidateField(Name, "") == "Name is required"
  {
    CapitalisedKey("name", 'N', "ame");
  }

  lemma EmailRequired()
    ensures ValidateField(Email, "") == "Email is required"
  {
    CapitalisedKey("email", 'E', "mail");
  }

  lemma PasswordRequired()
    ensures ValidateField(Password, "") == "Password is required"
  {
    CapitalisedKey("password", 'P', "assword");
  }

  lemma CapitalisedKey(key: string, upper: char, rest: string)
    requires |key| > 0 && 'a' <= key[0] <= 'z' && key[0] as int - 32 == upper as int && key[1..] == rest
    ensures Capitalised(key) == [upper] + rest
  {
  }

  /** `validatePasswordsMatch`: silent while either side is empty, then an
      error exactly when the two differ. */
  function PasswordsMatch(password: string, confirm: string): (e: string)
    ensures e != "" <==> password != "" && confirm != "" && password != confirm
    ensures e != "" ==> e == "Passwords do not match"
  {
    if password == "" || confirm == "" then ""
    else if password == confirm then ""
    else "Passwords do not match"
  }

  /** The field errors `handleSubmit` computes: each field validated, then a
      mismatch overriding both password errors. */
  function SubmitErrors(v: Values): (e: Errors)
    ensures e.name == ValidateField(Name, v.name) && e.email == ValidateField(Email, v.email)
    ensures PasswordsMatch(v.password, v.confirm) != "" ==>
      e.password == "Passwords do not match" && e.confirm == "Passwords do not match"
    ensures PasswordsMatch(v.password, v.confirm) == "" ==>
      e.password == ValidateField(Password, v.password) && e.confirm == ValidateField(Confirm, v.confirm)
  {
    var mismatch := PasswordsMatch(v.password, v.confirm);
    Errors(ValidateField(Name, v.name), ValidateField(Email, v.email),
           if mismatch != "" then mismatch else ValidateField(Password, v.password),
           if mismatch != "" then mismatch else ValidateField(Confirm, v.confirm))
  }

  /** `Object.values(errors).some(Boolean)` */
  predicate HasErrors(e: Errors) {
    e.name != "" || e.email != "" || e.password != "" || e.confirm != ""
  }

  /** The body of the signup request: the values as typed. */
  datatype SignupPayload = SignupPayload(name: string, email: string, password: string)

  datatype SignupDecision = Blocked(errors: Errors) | Send(errors: Errors, payload: SignupPayload)

  /** `handleSubmit` up to the request. */
  function Decide(v: Values): (d: SignupDecision)
    ensures d.errors == SubmitErrors(v)
    ensures d.Send? <==>
      v.name != "" && v.email != "" && v.password != "" && v.confirm != "" && v.password == v.confirm
    ensures d.Send? ==> d.payload == SignupPayload(v.name, v.email, v.password)
  {
    var errors := SubmitErrors(v);
    if HasErrors(errors) then Blocked(errors) else Send(errors, SignupPayload(v.name, v.email, v.password))
  }

  /** Whatever the form sends passes the backend's presence check. */
  lemma SentSignupIsComplete(v: Values)
    requires Decide(v).Send?
    ensures var p := Decide(v).payload;
      AuthController.Complete(AuthController.SignupRequest(Some(p.name), Some(p.email), Some(p.password)))
  {
  }

  /** `signupData`: the field takes the value; a name or email edit sets
      only that field's error, a password or confirm edit recomputes both
      password errors with the mismatch check. */
  function LiveEdit(v: Values, e: Errors, f: Field, value: string): (r: (Values, Errors))
    ensures r.0 == WithValue(v, f, value)
    ensures (f == Name || f == Email) ==> r.1 == WithError(e, f, ValidateField(f, value))
    ensures (f == Password || f == Confirm) ==>
      && r.1.name == e.name && r.1.email == e.email
      && r.1.password == SubmitErrors(r.0).password
      && r.1.confirm == SubmitErrors(r.0).confirm
  {
    var next := WithValue(v, f, value);
    var errors := WithError(e, f, ValidateField(f, value));
    if f == Password || f == Confirm then
      var mismatch := PasswordsMatch(next.password, next.confirm);
      if mismatch != "" then (next, errors.(password := mismatch, confirm := mismatch))
      else (next, errors.(password := ValidateField(Password, next.password),
                          confirm := ValidateField(Confirm, next.confirm)))
    else (next, errors)
  }

  /** After a live edit the edited field shows the error a submit would show. */
  lemma LiveEditAgreesWithSubmit(v: Values, e: Errors, f: Field, value: string)
    ensures var r := LiveEdit(v, e, f, value);
      ErrorOf(r.1, f) == ErrorOf(SubmitErrors(r.0), f)
  {
  }
}

=== FILE: tags.dfy ===
/** The comma-separated tag normaliser shared by the backend and the clients:
    `text.split(",").map((tag) => tag.trim()).filter(Boolean)`, and the ways
    the clients render a tag list back into an input field. */
module Tags {
  import Text
  import Seqs

  /** A tag as the normaliser produces it: non-empty, trimmed, comma-free. */
  predicate IsCleanTag(t: string) {
    t != "" && Text.IsTrimmed(t) && ',' !in t
  }

  predicate AllClean(tags: seq<string>) {
    forall i :: 0 <= i < |tags| ==> IsCleanTag(tags[i])
  }

  /** `pieces.map((p) => p.trim()).filter(Boolean)`: one tag per non-blank
      piece, in piece order, each the trim of its piece. */
  function TrimNonEmpty(pieces: seq<string>): (tags: seq<string>)
    ensures |tags| <= |pieces|
    ensures forall i :: 0 <= i < |tags| ==> tags[i] != "" && Text.IsTrimmed(tags[i])
    decreases |pieces|
  {
    if |pieces| == 0 then []
    else
      var t := Text.Trim(pieces[0]);
      if t == "" then TrimNonEmpty(pieces[1..]) else [t] + TrimNonEmpty(pieces[1..])
  }

  /** The normaliser: comma-separated pieces, trimmed, empties dropped, order kept. */
  function SplitTrimFilter(s: string): (tags: seq<string>)
    ensures AllClean(tags)
  {
    var pieces := Text.Split(s, ',');
    var tags := TrimNonEmpty(pieces);
    assert forall i :: 0 <= i < |tags| ==> ',' !in tags[i] by {
      NoCommaSurvives(pieces);
    }
    tags
  }

  lemma {:induction false} NoCommaSurvives(pieces: seq<string>)
    requires forall i :: 0 <= i < |pieces| ==> ',' !in pieces[i]
    ensures forall i :: 0 <= i < |TrimNonEmpty(pieces)| ==> ',' !in TrimNonEmpty(pieces)[i]
    decreases |pieces|
  {
    if |pieces| > 0 {
      NoCommaSurvives(pieces[1..]);
      TrimKeepsAbsent(pieces[0], ',');
    }
  }

  /** Trimming only removes characters. */
  lemma TrimKeepsAbsent(s: string, c: char)
    requires c !in s
    ensures c !in Text.Trim(s)
  {
    var t := Text.Trim(s);
    var i := Text.SkipSpace(s, 0);
    forall k | 0 <= k < |t| ensures t[k] != c {
      assert t[k] == s[i + k];
    }
  }

  /** A piece is blank when trimming leaves nothing. */
  predicate NonBlank(piece: string) {
    Text.Trim(piece) != ""
  }

  /** No deduplication: one tag per non-blank comma-separated piece. */
  lemma TagCountIsNonBlankPieces(s: string)
    ensures |SplitTrimFilter(s)| == |Seqs.Filter(NonBlank, Text.Split(s, ','))|
  {
    TrimsOfNonBlank(Text.Split(s, ','));
  }

  /** The kept pieces are exactly the non-blank ones, in order, each trimmed. */
  lemma {:induction false} TrimsOfNonBlank(pieces: seq<string>)
    ensures |TrimNonEmpty(pieces)| == |Seqs.Filter(NonBlank, pieces)|
    ensures forall i :: 0 <= i < |TrimNonEmpty(pieces)| ==>
      TrimNonEmpty(pieces)[i] == Text.Trim(Seqs.Filter(NonBlank, pieces)[i])
    decreases |pieces|
  {
    if |pieces| > 0 {
      var rest := pieces[1..];
      TrimsOfNonBlank(rest);
      Seqs.FilterCons(NonBlank, pieces);
      if NonBlank(pieces[0]) {
        TrimsCons(TrimNonEmpty(rest), Seqs.Filter(NonBlank, rest), pieces[0]);
      }
    }
  }

  lemma TrimsCons(u: seq<string>, g: seq<string>, x: string)
    requires |u| == |g| && forall i :: 0 <= i < |u| ==> u[i] == Text.Trim(g[i])
    ensures |[Text.Trim(x)] + u| == |[x] + g|
    ensures forall i :: 0 <= i < |[Text.Trim(x)] + u| ==> ([Text.Trim(x)] + u)[i] == Text.Trim(([x] + g)[i])
  {
  }

  /** The normaliser's tags are the trims of the non-blank comma-separated
      pieces, in piece order. */
  lemma SplitTrimFilterIsTrimmedPieces(s: string)
    ensures |SplitTrimFilter(s)| == |Seqs.Filter(NonBlank, Text.Split(s, ','))|
    ensures forall i :: 0 <= i < |SplitTrimFilter(s)| ==>
      SplitTrimFilter(s)[i] == Text.Trim(Seqs.Filter(NonBlank, Text.Split(s, ','))[i])
  {
    TrimsOfNonBlank(Text.Split(s, ','));
  }

  /** A comma-free piece yields its trim as the one tag, or nothing when blank. */
  lemma NormalisePiece(s: string)
    requires ',' !in s
    ensures SplitTrimFilter(s) == if Text.Trim(s) == "" then [] else [Text.Trim(s)]
  {
    Text.SplitNoSep(s, ',');
  }

  lemma {:induction false} TrimNonEmptyConcat(a: seq<string>, b: seq<string>)
    ensures TrimNonEmpty(a + b) == TrimNonEmpty(a) + TrimNonEmpty(b)
    decreases |a|
  {
    if |a| == 0 {
      assert a + b == b;
    } else {
      assert (a + b)[1..] == a[1..] + b;
      TrimNonEmptyConcat(a[1..], b);
    }
  }

  /** Splitting at a separator splits the pieces: `split(x + "," + y)` is `split(x)` then `split(y)`. */
  lemma {:induction false} SplitAtSeparator(x: string, y: string, sep: char)
    ensures Text.Split(x + [sep] + y, sep) == Text.Split(x, sep) + Text.Split(y, sep)
    decreases |x|
  {
    var s := x + [sep] + y;
    if |x| == 0 {
      assert s == [sep] + y && s[1..] == y;
    } else {
      assert s[1..] == x[1..] + [sep] + y;
      SplitAtSeparator(x[1..], y, sep);
    }
  }

  /** Normalising a comma-joined text normalises each side. */
  lemma NormaliseAtComma(x: string, y: string)
    ensures SplitTrimFilter(x + "," + y) == SplitTrimFilter(x) + SplitTrimFilter(y)
  {
    SplitAtSeparator(x, y, ',');
    TrimNonEmptyConcat(Text.Split(x, ','), Text.Split(y, ','));
  }

  /** A leading blank does not change the normalised tags. */
  lemma NormaliseLeadingSpace(y: string)
    ensures SplitTrimFilter(" " + y) == SplitTrimFilter(y)
  {
    var p := Text.Split(y, ',');
    var q := Text.Split(" " + y, ',');
    assert (" " + y)[1..] == y;
    assert q == [" " + p[0]] + p[1..];
    assert p == [p[0]] + p[1..];
    TrimLeadingSpace(p[0]);
  }

  lemma TrimLeadingSpace(u: string)
    ensures Text.Trim(" " + u) == Text.Trim(u)
  {
    Text.TrimSpacePrefix(" ", u);
  }

  /** A single clean tag normalises to itself. */
  lemma NormaliseClean(t: string)
    requires IsCleanTag(t)
    ensures SplitTrimFilter(t) == [t]
  {
    Text.SplitNoSep(t, ',');
    Text.TrimPadded([], t, []);
    assert [] + t + [] == t;
  }

  /** `tags.join(", ")`: how the edit forms display a tag list. */
  function JoinTags(tags: seq<string>): string {
    Text.Join(tags, ", ")
  }

  /** Round trip: clean tags joined by ", " normalise back to themselves. */
  lemma {:induction false} NormaliseJoined(tags: seq<string>)
    requires AllClean(tags)
    ensures SplitTrimFilter(JoinTags(tags)) == tags
    decreases |tags|
  {
    if |tags| == 0 {
      NormaliseEmpty();
    } else if |tags| == 1 {
      NormaliseClean(tags[0]);
    } else {
      NormaliseJoined(tags[1..]);
      NormaliseJoinedCons(tags[0], tags[1..]);
      assert [tags[0]] + tags[1..] == tags;
    }
  }

  /** The inductive step: a clean tag put in front of a list that reads back. */
  lemma NormaliseJoinedCons(head: string, tail: seq<string>)
    requires IsCleanTag(head) && |tail| > 0
    requires SplitTrimFilter(JoinTags(tail)) == tail
    ensures SplitTrimFilter(JoinTags([head] + tail)) == [head] + tail
  {
    var rest := JoinTags(tail);
    JoinTagsCons(head, tail);
    NormaliseAtComma(head, " " + rest);
    NormaliseLeadingSpace(rest);
    NormaliseClean(head);
  }

  /** A longer list is its first tag, a comma, and a blank before the rest. */
  lemma JoinTagsCons(head: string, tail: seq<string>)
    requires |tail| > 0
    ensures JoinTags([head] + tail) == head + "," + (" " + JoinTags(tail))
  {
    assert ([head] + tail)[1..] == tail;
    Text.Regroup(head, ",", " ", JoinTags(tail));
  }

  lemma NormaliseEmpty()
    ensures SplitTrimFilter("") == []
  {
    assert Text.Split("", ',') == [""];
  }

  /** Round trip with the trailing ", " the tag inputs append after a key press. */
  lemma NormaliseJoinedTrailing(tags: seq<string>)
    requires AllClean(tags)
    ensures SplitTrimFilter(JoinTags(tags) + ", ") == tags
  {
    assert JoinTags(tags) + ", " == JoinTags(tags) + "," + " ";
    NormaliseAtComma(JoinTags(tags), " ");
    NormaliseJoined(tags);
    NormaliseBlank();
  }

  lemma NormaliseBlank()
    ensures SplitTrimFilter(" ") == []
  {
    Text.SplitNoSep(" ", ',');
    Text.TrimEmptyIff(" ");
  }

  /** The tag input text after an accepted key press: the tags joined by ", "
      with a trailing ", ", or empty when there are none. */
  function PendingText(tags: seq<string>): (s: string)
    ensures tags == [] <==> s == ""
  {
    if |tags| == 0 then "" else JoinTags(tags) + ", "
  }

  /** The pending text always reads back as the tags it was made from. */
  lemma NormalisePending(tags: seq<string>)
    requires AllClean(tags)
    ensures SplitTrimFilter(PendingText(tags)) == tags
  {
    if |tags| > 0 {
      NormaliseJoinedTrailing(tags);
    } else {
      NormaliseEmpty();
    }
  }

  /** `Array.from(new Set(SplitTrimFilter(s)))`: the deduplicating normaliser. */
  function SplitTrimDedupe(s: string): (tags: seq<string>)
    ensures AllClean(tags) && Seqs.NoDups(tags)
    ensures forall t :: t in tags <==> t in SplitTrimFilter(s)
    ensures tags == Seqs.Dedupe(SplitTrimFilter(s))
    // each tag is kept at its first occurrence
    ensures forall i, j :: 0 <= i < j < |tags| ==>
      Seqs.FirstIndex(SplitTrimFilter(s), tags[i]) < Seqs.FirstIndex(SplitTrimFilter(s), tags[j])
  {
    var all := SplitTrimFilter(s);
    var tags := Seqs.Dedupe(all);
    assert forall i :: 0 <= i < |tags| ==> tags[i] in all;
    Seqs.DedupeInFirstOccurrenceOrder(all);
    tags
  }

  /** Deduplicated tags rendered with ", " read back as themselves. */
  lemma DedupeJoinedIsStable(tags: seq<string>)
    requires AllClean(tags) && Seqs.NoDups(tags)
    ensures SplitTrimDedupe(JoinTags(tags)) == tags
  {
    NormaliseJoined(tags);
    Seqs.DedupeOfDistinct(tags);
  }
}

=== FILE: text.dfy ===
/** String operations of JavaScript that the source relies on, stated over
    `seq<char>` with one `char` per UTF-16 code unit:
    `trim`, `split` on a one-character separator, `join`, `includes`,
    the `\s` character class, and the decimal rendering of a count. */
module Text {

  /** ECMAScript WhiteSpace and LineTerminator code points: exactly what
      `String.prototype.trim` strips and what the regex class `\s` matches. */
  predicate IsSpace(c: char) {
    || c == '\t' || c == '\n' || c == '\U{000B}' || c == '\U{000C}' || c == '\r'
    || c == ' ' || c == '\U{00A0}' || c == '\U{1680}'
    || ('\U{2000}' <= c <= '\U{200A}')
    || c == '\U{2028}' || c == '\U{2029}' || c == '\U{202F}' || c == '\U{205F}'
    || c == '\U{3000}' || c == '\U{FEFF}'
  }

  predicate AllSpace(s: string) {
    forall i :: 0 <= i < |s| ==> IsSpace(s[i])
  }

  /** Neither end of `s` is white space (the shape `trim` produces). */
  predicate IsTrimmed(s: string) {
    s == [] || (!IsSpace(s[0]) && !IsSpace(s[|s| - 1]))
  }

  /** The first index at or after `k` that does not hold white space, or `|s|`. */
  function SkipSpace(s: string, k: nat): (n: nat)
    requires k <= |s|
    ensures k <= n <= |s|
    ensures forall m :: k <= m < n ==> IsSpace(s[m])
    ensures n < |s| ==> !IsSpace(s[n])
    decreases |s| - k
  {
    if k < |s| && IsSpace(s[k]) then SkipSpace(s, k + 1) else k
  }

  /** The start of the white-space run that ends at `k`, not going below `lo`. */
  function SkipSpaceBack(s: string, lo: nat, k: nat): (n: nat)
    requires lo <= k <= |s|
    ensures lo <= n <= k
    ensures forall m :: n <= m < k ==> IsSpace(s[m])
    ensures lo < n ==> !IsSpace(s[n - 1])
    decreases k - lo
  {
    if lo < k && IsSpace(s[k - 1]) then SkipSpaceBack(s, lo, k - 1) else k
  }

  /** `r` is the part of `s` at offset `i`, and everything around it is white space. */
  predicate TrimmedAt(s: string, r: string, i: int) {
    0 <= i && i + |r| <= |s| && r == s[i..i + |r|]
    && AllSpace(s[..i]) && AllSpace(s[i + |r|..])
  }

  /** `s.trim()`: the middle of `s` with white space removed at both ends. */
  function Trim(s: string): (r: string)
    ensures IsTrimmed(r)
    ensures TrimmedAt(s, r, SkipSpace(s, 0))
  {
    var i := SkipSpace(s, 0);
    var j := SkipSpaceBack(s, i, |s|);
    assert AllSpace(s[j..]) by {
      forall m | 0 <= m < |s| - j ensures IsSpace(s[j..][m]) {
        assert s[j..][m] == s[j + m];
      }
    }
    s[i..j]
  }

  /** The scan stops exactly at the first non-space character. */
  lemma SkipSpaceAt(s: string, k: nat, n: nat)
    requires k <= n <= |s|
    requires forall m :: k <= m < n ==> IsSpace(s[m])
    requires n < |s| ==> !IsSpace(s[n])
    ensures SkipSpace(s, k) == n
  {
  }

  /** The backward scan stops exactly after the last non-space character. */
  lemma SkipSpaceBackAt(s: string, lo: nat, k: nat, n: nat)
    requires lo <= n <= k <= |s|
    requires forall m :: n <= m < k ==> IsSpace(s[m])
    requires lo < n ==> !IsSpace(s[n - 1])
    ensures SkipSpaceBack(s, lo, k) == n
  {
  }

  /** Trimming a trimmed text surrounded by white space recovers it. */
  lemma TrimPadded(w: string, t: string, w': string)
    requires AllSpace(w) && AllSpace(w') && IsTrimmed(t)
    ensures Trim(w + t + w') == t
  {
    var s := w + t + w';
    var i, j := |w|, |w| + |t|;
    forall m | 0 <= m < |s| && (m < i || j <= m)
      ensures IsSpace(s[m])
    {
      if m < i { assert s[m] == w[m]; } else { assert s[m] == w'[m - j]; }
    }
    if t == [] {
      SkipSpaceAt(s, 0, |s|);
      SkipSpaceBackAt(s, |s|, |s|, |s|);
      assert s[|s|..|s|] == t;
    } else {
      assert s[i] == t[0] && s[j - 1] == t[|t| - 1];
      SkipSpaceAt(s, 0, i);
      SkipSpaceBackAt(s, i, |s|, j);
      assert s[i..j] == t;
    }
  }

  /** A trimmed text is its own trim. */
  lemma TrimOfTrimmed(t: string)
    requires IsTrimmed(t)
    ensures Trim(t) == t
  {
    TrimPadded([], t, []);
    assert [] + t + [] == t;
  }

  /** `trim` is idempotent. */
  lemma TrimIdempotent(s: string)
    ensures Trim(Trim(s)) == Trim(s)
  {
    TrimOfTrimmed(Trim(s));
  }

  /** A text is its white-space prefix, its trim and its white-space suffix. */
  lemma TrimSplits(s: string)
    ensures var i := SkipSpace(s, 0);
      s == s[..i] + Trim(s) + s[i + |Trim(s)|..]
  {
    var i := SkipSpace(s, 0);
    var r := Trim(s);
    assert s == s[..i] + s[i..i + |r|] + s[i + |r|..];
  }

  /** Extra white space in front does not change the trim. */
  lemma TrimSpacePrefix(w: string, u: string)
    requires AllSpace(w)
    ensures Trim(w + u) == Trim(u)
  {
    var i := SkipSpace(u, 0);
    var r := Trim(u);
    var pre, post := u[..i], u[i + |r|..];
    TrimSplits(u);
    AllSpaceConcat(w, pre);
    Regroup(w, pre, r, post);
    TrimPadded(w + pre, r, post);
  }

  lemma Regroup(w: string, a: string, b: string, c: string)
    ensures w + (a + b + c) == (w + a) + b + c
  {
  }

  lemma AllSpaceConcat(a: string, b: string)
    requires AllSpace(a) && AllSpace(b)
    ensures AllSpace(a + b)
  {
    forall m | 0 <= m < |a + b| ensures IsSpace((a + b)[m]) {
      if m < |a| { assert (a + b)[m] == a[m]; } else { assert (a + b)[m] == b[m - |a|]; }
    }
  }

  /** The trimmed text is empty exactly when the input is all white space. */
  lemma TrimEmptyIff(s: string)
    ensures Trim(s) == [] <==> AllSpace(s)
  {
    if AllSpace(s) {
      TrimPadded(s, [], []);
      assert s + [] + [] == s;
    }
    if Trim(s) == [] {
      var i := SkipSpace(s, 0);
      forall k | 0 <= k < |s| ensures IsSpace(s[k]) {
        assert s[..i][k] == s[k];
      }
    }
  }

  /** `parts.join(sep)`. */
  function Join(parts: seq<string>, sep: string): string
  {
    if |parts| == 0 then ""
    else if |parts| == 1 then parts[0]
    else parts[0] + sep + Join(parts[1..], sep)
  }

  /** `s.split(sep)` for a one-character separator: the maximal runs between
      separators, at least one of them (`"".split(",")` is `[""]`). */
  function Split(s: string, sep: char): (parts: seq<string>)
    ensures |parts| >= 1
    ensures forall i :: 0 <= i < |parts| ==> sep !in parts[i]
    decreases |s|
  {
    if |s| == 0 then [""]
    else
      var rest := Split(s[1..], sep);
      if s[0] == sep then [""] + rest
      else [[s[0]] + rest[0]] + rest[1..]
  }

  /** Joining the pieces of a split with the separator gives back the text. */
  lemma {:induction false} JoinSplit(s: string, sep: char)
    ensures Join(Split(s, sep), [sep]) == s
    decreases |s|
  {
    if |s| > 0 {
      var rest := Split(s[1..], sep);
      JoinSplit(s[1..], sep);
      if s[0] == sep {
        assert s == [sep] + s[1..];
      } else if |rest| == 1 {
        assert s == [s[0]] + s[1..];
      } else {
        assert rest == [rest[0]] + rest[1..];
        assert s == [s[0]] + s[1..];
      }
    }
  }

  /** Splitting a join of separator-free pieces gives back the pieces. */
  lemma {:induction false} SplitJoin(parts: seq<string>, sep: char)
    requires |parts| >= 1
    requires forall i :: 0 <= i < |parts| ==> sep !in parts[i]
    ensures Split(Join(parts, [sep]), sep) == parts
    decreases |parts|
  {
    if |parts| == 1 {
      SplitNoSep(parts[0], sep);
    } else {
      SplitJoin(parts[1..], sep);
      SplitAfterPiece(parts[0], Join(parts[1..], [sep]), sep);
      assert Join(parts, [sep]) == parts[0] + ([sep] + Join(parts[1..], [sep]));
    }
  }

  /** A text without the separator splits into itself. */
  lemma {:induction false} SplitNoSep(s: string, sep: char)
    requires sep !in s
    ensures Split(s, sep) == [s]
    decreases |s|
  {
    if |s| > 0 {
      assert sep !in s[1..];
      SplitNoSep(s[1..], sep);
      assert s == [s[0]] + s[1..];
    }
  }

  /** Splitting `piece + sep + tail` yields `piece` followed by the split of `tail`. */
  lemma {:induction false} SplitAfterPiece(piece: string, tail: string, sep: char)
    requires sep !in piece
    ensures Split(piece + ([sep] + tail), sep) == [piece] + Split(tail, sep)
    decreases |piece|
  {
    var s := piece + ([sep] + tail);
    if |piece| == 0 {
      assert s == [sep] + tail;
      assert s[1..] == tail;
    } else {
      assert s[1..] == piece[1..] + ([sep] + tail);
      assert sep !in piece[1..];
      SplitAfterPiece(piece[1..], tail, sep);
      assert piece == [piece[0]] + piece[1..];
    }
  }

  /** `needle` occurs in `hay` starting at offset `k`. */
  predicate OccursAt(hay: string, needle: string, k: int) {
    0 <= k && k + |needle| <= |hay| && hay[k..k + |needle|] == needle
  }

  /** `hay.includes(needle)`: `needle` occurs in `hay` at some offset. */
  ghost predicate Contains(hay: string, needle: string) {
    exists k :: OccursAt(hay, needle, k)
  }

  /** Compiled `includes`. */
  function Includes(hay: string, needle: string): (b: bool)
    ensures b <==> Contains(hay, needle)
  {
    ContainsFrom(hay, needle, 0)
  }

  /** Compiled check for `Contains`, scanning offsets from the left. */
  function ContainsFrom(hay: string, needle: string, k: nat): (b: bool)
    requires k <= |hay| + 1
    ensures b <==> exists m :: k <= m && OccursAt(hay, needle, m)
    decreases |hay| + 1 - k
  {
    if k + |needle| > |hay| then false
    else if hay[k..k + |needle|] == needle then assert OccursAt(hay, needle, k); true
    else ContainsFrom(hay, needle, k + 1)
  }

  /** Decimal digits of a natural number, as `${n}` renders it. */
  function NatToString(n: nat): (s: string)
    ensures |s| >= 1
    ensures forall i :: 0 <= i < |s| ==> '0' <= s[i] <= '9'
    ensures |s| > 1 ==> s[0] != '0'
  {
    if n < 10 then [DigitChar(n)]
    else NatToString(n / 10) + [DigitChar(n % 10)]
  }

  function DigitChar(d: nat): (c: char)
    requires d < 10
    ensures '0' <= c <= '9' && c as int - '0' as int == d
  {
    (d + '0' as int) as char
  }

  /** Value of a string of decimal digits. */
  function DigitsValue(s: string): nat
    requires forall i :: 0 <= i < |s| ==> '0' <= s[i] <= '9'
  {
    if |s| == 0 then 0
    else 10 * DigitsValue(s[..|s| - 1]) + (s[|s| - 1] as int - '0' as int)
  }

  /** Rendering a count in decimal is injective: the digits read back as the count. */
  lemma {:induction false} NatToStringRoundTrip(n: nat)
    ensures DigitsValue(NatToString(n)) == n
  {
    if n >= 10 {
      NatToStringRoundTrip(n / 10);
      var s := NatToString(n);
      assert s[..|s| - 1] == NatToString(n / 10);
    }
  }
}

=== FILE: url.dfy ===
/** The search parameters of a URL as the routes read and write them:
    `get`, `set` and `delete` on one value per name. */
module Url {
  import opened Wrappers

  type Params = map<string, string>

  /** `searchParams.get(name)` */
  function Get(params: Params, name: string): (r: Option<string>)
    ensures r.Some? <==> name in params
    ensures r.Some? ==> r.value == params[name]
  {
    if name in params then Some(params[name]) else None
  }

  /** Every parameter other than `names` is the same in both. */
  ghost predicate SameExcept(a: Params, b: Params, names: set<string>) {
    forall k :: k !in names ==> Get(a, k) == Get(b, k)
  }
}

=== FILE: user_profile_page.dfy ===
/** The public user page of the original client: its `loadProfile` state
    update. The initials and the count line it shows are in `Display`. */
module UserProfilePage {
  import opened Wrappers
  import Posts
  import Store
  import UsersRoute

  /** The page state `loadProfile` writes. */
  datatype PageState = PageState(user: Option<Store.PublicUser>, posts: seq<Posts.Post>, loading: bool, error: string)

  const Initial := PageState(None, [], true, "")

  /** `loadProfile`: a missing id sets the error and stops loading without a
      call; otherwise the answer replaces user and posts, and a failure
      clears both. Loading always ends. */
  function LoadProfile(st: PageState, id: Option<string>, fetch: string -> Outcome<UsersRoute.ProfileResponse>)
    : (r: PageState)
    ensures !r.loading
    ensures !Truthy(id) ==> r == st.(error := "Invalid user id", loading := false)
    ensures Truthy(id) && fetch(id.value).Done? ==>
      r == PageState(Some(fetch(id.value).value.user), fetch(id.value).value.posts.GetOr([]), false, "")
    ensures Truthy(id) && fetch(id.value).Thrown? ==>
      r == PageState(None, [], false, ErrorText(fetch(id.value).message, "Failed to load user profile"))
  {
    if !Truthy(id) then st.(error := "Invalid user id", loading := false)
    else match fetch(id.value)
      case Done(response) => PageState(Some(response.user), response.posts.GetOr([]), false, "")
      case Thrown(message) => PageState(None, [], false, ErrorText(message, "Failed to load user profile"))
  }

  /** From its initial state the original page ends up showing exactly what
      the router client's loader returns. */
  lemma LoadProfileMatchesLoader(id: Option<string>, fetch: string -> Outcome<UsersRoute.ProfileResponse>)
    ensures var r := LoadProfile(Initial, id, fetch);
      var d := UsersRoute.Loader(id, fetch);
      r.user == d.user && r.posts == d.posts && r.error == d.error
  {
  }
}

=== FILE: users_route.dfy ===
/** The public user page of the router client: its loader. The initials and
    the count line it shows are in `Display`. */
module UsersRoute {
  import opened Wrappers
  import Posts
  import Store
  import UserController

  /** The profile service's answer; `posts` may be absent. */
  datatype ProfileResponse = ProfileResponse(user: Store.PublicUser, posts: Option<seq<Posts.Post>>)

  datatype UserData = UserData(user: Option<Store.PublicUser>, posts: seq<Posts.Post>, error: string)

  /** `loader`. `fetch` is the profile service call, made only for a present id. */
  function Loader(id: Option<string>, fetch: string -> Outcome<ProfileResponse>): (d: UserData)
    ensures !Truthy(id) ==> d == UserData(None, [], "Invalid user id")
    ensures Truthy(id) && fetch(id.value).Done? ==>
      d == UserData(Some(fetch(id.value).value.user), fetch(id.value).value.posts.GetOr([]), "")
    ensures Truthy(id) && fetch(id.value).Thrown? ==>
      d == UserData(None, [], ErrorText(fetch(id.value).message, "Failed to load user profile"))
    ensures d.user.None? ==> d.posts == []
  {
    if !Truthy(id) then UserData(None, [], "Invalid user id")
    else match fetch(id.value)
      case Done(response) => UserData(Some(response.user), response.posts.GetOr([]), "")
      case Thrown(message) => UserData(None, [], ErrorText(message, "Failed to load user profile"))
  }

  /** Without an id the loader does not depend on the service: it makes no call. */
  lemma MissingIdMakesNoCall(id: Option<string>, f: string -> Outcome<ProfileResponse>,
                             g: string -> Outcome<ProfileResponse>)
    requires !Truthy(id)
    ensures Loader(id, f) == Loader(id, g)
  {
  }

  /** The profile service answered by the backend's `getPublicProfile`. */
  function Served(db: Store.Db, validId: string -> bool): string -> Outcome<ProfileResponse> {
    (id: string) =>
      var r := UserController.GetPublicProfile(db, id, validId);
      if r.Success? then Done(ProfileResponse(r.value.user, Some(SentPosts(db.users, r.value.posts))))
      else Thrown(Some(r.message))
  }

  /** The listed documents as the reply sends them, one for one and in place. */
  function SentPosts(users: seq<Store.User>, ps: seq<Store.StoredPost>): (qs: seq<Posts.Post>)
    ensures |qs| == |ps|
    ensures forall i :: 0 <= i < |ps| ==> qs[i] == Store.AsSent(users, ps[i])
  {
    seq(|ps|, i requires 0 <= i < |ps| => Store.AsSent(users, ps[i]))
  }

  /** Served by the backend, the page shows the requested user and only that
      user's published, live posts, each naming that user as its author. */
  lemma PageShowsOnlyPublishedPostsOfUser(db: Store.Db, validId: string -> bool, id: string)
    requires id != ""
    ensures var d := Loader(Some(id), Served(db, validId));
      && (d.user.Some? ==> d.user.value.id == id)
      && forall p :: p in d.posts ==>
           && d.user.Some?
           && p.author == Posts.AuthorInfo(Some(id), Some(d.user.value.name), Some(d.user.value.email))
           && p.status == Posts.Published && p.deletedAt.None?
  {
    var r := UserController.GetPublicProfile(db, id, validId);
    if r.Success? {
      var u := Store.FindById(db.users, id).value;
      var qs := SentPosts(db.users, r.value.posts);
      forall p | p in qs
        ensures p.author == Posts.AuthorInfo(Some(id), Some(u.name), Some(u.email))
        ensures p.status == Posts.Published && p.deletedAt.None?
      {
        var i :| 0 <= i < |qs| && qs[i] == p;
        assert r.value.posts[i] in r.value.posts;
      }
    }
  }

  /** Served by the backend, the page lists exactly the user's published,
      live posts, each as the reply sends it. */
  lemma PageListsEveryPublishedPost(db: Store.Db, validId: string -> bool, id: string, p: Store.StoredPost)
    requires id != "" && validId(id) && Store.FindById(db.users, id).Some?
    requires p in db.posts && UserController.OnProfile(p, id)
    ensures Store.AsSent(db.users, p) in Loader(Some(id), Served(db, validId)).posts
  {
    var r := UserController.GetPublicProfile(db, id, validId);
    var i :| 0 <= i < |r.value.posts| && r.value.posts[i] == p;
    assert SentPosts(db.users, r.value.posts)[i] == Store.AsSent(db.users, p);
  }
}

=== FILE: wrappers.dfy ===
/** Optional values, standing in for JavaScript's `undefined` / `null`
    wherever the source tests a value for presence. */
module Wrappers {

  datatype Option<+T> = None | Some(value: T) {

    /** The wrapped value, or the given default when absent (`x ?? d`). */
    function GetOr(default: T): T {
      match this
      case Some(v) => v
      case None => default
    }
  }

  /** A form field read with `formData.get`: absent, a text entry, or a file. */
  datatype FormValue = Missing | Text(s: string) | FileEntry {

    /** `typeof entry === "string" ? entry : ""` */
    function TextOrEmpty(): string {
      if Text? then s else ""
    }

    /** The entry when it is text: what a `value === "..."` test can match. */
    function AsText(): Option<string> {
      if Text? then Some(s) else None
    }
  }

  /** JavaScript truthiness of a value that is a string or absent. */
  predicate Truthy(v: Option<string>) {
    v.Some? && v.value != ""
  }

  /** The outcome of a client call to the backend: the awaited value, or a
      thrown value, which carries a message when it is an `Error`. */
  datatype Outcome<+T> = Done(value: T) | Thrown(message: Option<string>)

  /** `e instanceof Error ? e.message : fallback` */
  function ErrorText(message: Option<string>, fallback: string): string {
    message.GetOr(fallback)
  }
}
